=== FILE: README.md ===
# SMIT — a Dafny model of the trainer's core

SMIT trains an image-to-image translation GAN with a multi-domain label
vector and an optional style code. This project models the parts of the
repository whose behaviour is discrete bookkeeping rather than numerics:

- `model.py`: how the `GAN_options` flags resolve; the layer lists that
  `Generator`, `Discriminator`, `MultiDiscriminator`, `StyleEncoder` and
  `AdaInGEN`'s `MLP` build; and the shapes `forward` passes through them.
  Tensors are reduced to per-sample shapes (channels, square side), and
  layers to shape transformers.
- `solver.py`: `denorm`, `one_hot`, the fixed sample targets, the shuffled
  `fake_label`, `update_lr` and the loss families. It also covers `train`,
  modelled as a run of epochs of steps over a loader of `n` batches. The
  model tracks:
  - the loss log `loss_cum`;
  - the optimizer steps of D and G;
  - learning-rate decay and the replay of skipped decays on resume;
  - the sample and checkpoint file names written;
  - the `ZeroDivision`, empty-loader and bad-pretrained-name failures.

  `test` and `DEMO` reduce to the stem they load and the file names they
  write.
- `main.py`: how the `--GPU` string is parsed into devices, with the batch
  size and learning rates scaled; and the order in which the score flags
  and the modes dispatch.

Python's `str.split`, `str.join`, `int()`, `str()` and `zfill` are
modelled in `Text`, over `seq<char>`. So is the ordering `sorted` uses on
file names. Losses are exact reals. The numbers torch computes in a
training step come from an oracle parameter `(epoch, step) -> StepOutputs`.

Modules:

- `Wrappers`: `Option`, `Result`.
- `Text`: Python string and integer conversion, lexicographic order.
- `Counting`: powers, floor log2, and how many multiples of `d` a range
  contains.
- `Layers`: layer specs and the shape walk.
- `Generator`, `Forward`, `ForwardShape`: the generator.
- `AdaIn`: the AdaIN wrapper.
- `Discriminators`: `Discriminator` and `MultiDiscriminator`.
- `StyleEncoders`: the style encoder.
- `Labels`: label and image helpers.
- `Losses`: the loss families.
- `Checkpoints`: file names.
- `Schedule`: `train`.
- `Launch`: `main.py`.

## Model

| member | source | states |
|---|---|---|
| Layers.WalkAppend | model.py:57 | running an `nn.Sequential` built from two lists is running the first and then the second |
| Layers.HalvingConv | model.py:183 | a kernel-4, stride-2, padding-1 convolution maps an even side to half of it |
| Layers.DoublingConvTranspose | model.py:201 | the kernel-4, stride-2, padding-1 transposed convolution doubles every positive side |
| Layers.SameConv | model.py:211 | a stride-1 convolution with kernel 2p+1 and padding p keeps the side |
| Layers.CollapsingConv | model.py:60 | an unpadded convolution whose kernel equals the side leaves a 1x1 map |
| Generator.Resolve | model.py:161-171 | InterStyleLabels switches DRIT and DRITZ off; the raw DRIT option switches AdaIn and AdaIn2 off, whether or not the DRIT flag survives; no flag is on without its option |
| Generator.InDim | model.py:172-174 | models the first convolution's input width: color_dim under InterLabels or InterStyleConcatLabels, color_dim + c_dim + style_dim under DRITZ, color_dim + c_dim otherwise; Build uses it for the stem |
| Generator.ConvRepeat | model.py:180 | 2 stages up to side 64; above that, r stages with 2^(r+5) <= side < 2^(r+6) |
| Generator.HalveIsDivision | model.py:200-204 | halving the channel count with floor division k times is floor division by 2^k |
| Generator.DecoderNorms | model.py:202 | the up-sampling carries one InstanceNorm per stage, and none under AdaIn |
| Generator.EncoderWalk | model.py:181-186 | k down-sampling stages double the channels and halve the side k times |
| Generator.DecoderWalk | model.py:199-204 | k up-sampling stages floor-halve the channels and double the side k times |
| Generator.BottleneckMatchesSpec | model.py:188-197 | the residual-block loop with its running AdaIn_res flag builds the closed form: repeat_num blocks, AdaIN per block, the split into `content` and the widening after it |
| Generator.ResidualBlocksOfBuild | model.py:170-204 | a built Generator has exactly repeat_num residual blocks, in order; block k uses AdaIN iff AdaIn2 is on, or AdaIn is on and k is past repeat_num/2-1; blocks after the split are SplitExtra channels wider |
| Generator.Build | model.py:152-239 | models `__init__`: stem, encoder, the residual-block loop, decoder and the head Attention wins over AdaIn; no contract of its own, its properties are BuildAroundTrunk, ResidualBlocksOfBuild and ResidualsOfBuild |
| Generator.BuildAroundTrunk | model.py:170-236 | the built network keeps the bottleneck's content module, and has no residual block outside the bottleneck |
| Generator.ResidualsOfBuild | model.py:175-236 | the residual blocks of the whole network are those of the bottleneck |
| Forward.Broadcast | model.py:294 | two sizes broadcast iff they are equal or one is 1, and the result is the other size |
| Forward.TileStyleFits | model.py:292-293 | the tiled style repeats the original periodically, and it is exactly as long as the content map iff the style length divides the content width |
| Forward.TileLenOfTileStyle | model.py:292-293 | the length bookkeeping of the tiling agrees with the tiled sequence, success included |
| Forward.RepeatIndex | model.py:293 | element j of k copies of s is s[j mod len s] |
| Forward.BlendConvex | model.py:328-333 | with a mask in [0, 1], the Attention blend lies between the input and the generated value; mask 1 gives the input and mask 0 the generated image |
| Forward.Run | model.py:274-345 | models `forward` on shapes; no contract of its own, its properties are RunOutputs, ContentNeedsSplit, GeneratorKeepsImageShape and MisfitStyleRaises |
| Forward.RunOutputs | model.py:324-345 | under JUST_CONTENT forward returns the bare content map; otherwise it returns the image first, then the mask exactly under Attention, then the content map exactly under CONTENT |
| Forward.ContentNeedsSplit | model.py:289-326 | without InterLabels, InterStyleLabels or DRIT, CONTENT and JUST_CONTENT raise, because `content` is never bound |
| ForwardShape.GeneratorKeepsImageShape | model.py:274-345 | a built Generator maps an image of the configured size and color_dim channels to the same shape, with a one-channel mask under Attention, when the side is a multiple of 2^conv_repeat and the style fits |
| ForwardShape.MisfitStyleRaises | model.py:289-310 | on the split branches, a label and style that inject any other number of channels than the widened blocks expect make forward raise |
| AdaIn.AdaInWidthsAppend | model.py:444-445 | the AdaIN layers of two module lists are those of the first followed by those of the second |
| AdaIn.AdaInWidthsOfResiduals | model.py:444-445 | only residual blocks contribute AdaIN layers |
| AdaIn.NumParamsAppend | model.py:453-459 | the parameter count is additive over the layer list |
| AdaIn.NumParamsCopies | model.py:458 | k layers of width w need 2kw parameters |
| AdaIn.Assign | model.py:442-451 | one bias and weight pair per AdaIN layer; the alignment is AssignAligned and StaleCursor |
| AdaIn.AssignAligned | model.py:442-451 | with a buffer as wide as get_num_adain_params, each AdaIN layer gets bias = its nf columns at its offset and weight = the next nf; the blocks are disjoint and in order |
| AdaIn.StaleCursor | model.py:450-451 | when no more than 2nf columns remain, the cursor does not move, so a following layer of the same width reads the same columns again |
| AdaIn.MlpWalk | model.py:539-556 | the MLP accepts exactly input_dim features and yields output_dim |
| AdaIn.GenWidthsOfBlocks | model.py:453-459 | the AdaIN layers of the wrapped Generator are those of its AdaIN residual blocks, in order |
| AdaIn.NumParamsOfGenerator | model.py:399-401 | without AdaIn or AdaIn2 the MLP has nothing to produce; under AdaIn2 without a split it produces repeat_num * 2 * normsPerBlock * width parameters |
| AdaIn.StyleWithLabel | model.py:431-438 | the label step succeeds iff at most one of InterStyleConcatLabels and InterStyleMulLabels is set and, if one is, the label expands onto the style; with both it always fails; concatenation doubles the style length and multiplication keeps the shape |
| AdaIn.StyleFeedsEveryAdaIn | model.py:394-438 | a (c_dim', style_dim) style with at most one label option and an expandable label gives exactly get_num_adain_params parameters; any style the MLP accepts flattens to its input width |
| AdaIn.ApplyStyleAligned | model.py:431-451 | end to end, apply_style hands every AdaIN layer its own disjoint bias and weight block |
| Discriminators.DownStackWalk | model.py:51-54 | the doubling convolutions double the channels and halve the side per stage |
| Discriminators.CollapseIff | model.py:60 | the classifier kernel collapses the map to 1x1 iff it equals the remaining side |
| Discriminators.Discriminate | model.py:36-77 | models `__init__` and `forward` on a batch: the trunk, both heads, and the squeeze and view of their outputs; no contract of its own, its properties are DiscriminateIff, DiscriminatorGeometry and DiscriminatorOutputs |
| Discriminators.Squeeze | model.py:71-74 | `squeeze()` keeps no axis of length one, keeps every other axis, and never adds axes |
| Discriminators.MapViewsIff | model.py:71-72 | for any batch, the real/fake output views as (batch, s, s) iff its side is at least 2 |
| Discriminators.RowViewsIff | model.py:74-75 | for any batch, the class output views as (batch, c_dim) iff its map is 1x1 and c_dim is not 1 |
| Discriminators.DiscriminateIff | model.py:58-77 | forward succeeds iff the trunk and both heads accept the input, the real/fake map is at least 2x2, the class map is 1x1 and c_dim is not 1; a failing view is ViewMismatch |
| Discriminators.DiscriminatorHeads | model.py:47-60 | for side m * 2^repeat_num, the trunk leaves an m x m map, k_size is m, conv1 keeps the side and conv2 collapses it to 1x1 |
| Discriminators.DiscriminatorGeometry | model.py:36-77 | for side m * 2^repeat_num and any batch: with m >= 2 and c_dim >= 2 forward returns one m x m real/fake map and one c_dim class vector; with m == 1 or c_dim == 1 it fails in the view |
| Discriminators.DiscriminatorOutputs | model.py:69-77 | every successful forward returns one map of side at least 2 and one c_dim vector, and c_dim is not 1 |
| Discriminators.ScaleKernelIsDiv | model.py:114-128 | the float kernel size of scale idx is image_size / 2^(idx + repeat_num - 1) in integers |
| Discriminators.HalvingPool | model.py:96 | the 3x3, stride-2, padding-1 average pool halves an even side |
| Discriminators.MultiDiscriminate | model.py:85-145 | models `__init__`, `_make_net` and `forward`; no contract of its own, its properties are MultiOutputs and MultiDiscriminatorGeometry |
| Discriminators.MultiOutputs | model.py:132-145 | both output lists of MultiDiscriminator have one entry per scale |
| Discriminators.MultiDiscriminatorGeometry | model.py:85-145 | for side m * 2^(MultiDis + repeat_num - 2), every one of the MultiDis class outputs is a c_dim vector |
| StyleEncoders.Build | model.py:466-525 | models `__init__`; no contract of its own, its properties are BuildErrors, TopWidthOfStages and MainWalk |
| StyleEncoders.Encode | model.py:527-537 | models `forward` per sample; no contract of its own, its properties are FcInputMatchesIff and ConvHeadOutput |
| StyleEncoders.DownStagesWalk | model.py:491-495 | each down-sampling block doubles the channels and halves the side |
| StyleEncoders.MainWalk | model.py:480-501 | for a side-2^L image, `main` yields TopWidth channels on the side MainSide names, and conv_repeat is L - down[0] |
| StyleEncoders.FcKernelOfPow2 | model.py:505-506 | the FC kernel of a side-2^L image is 2 for style width 4 and 1 otherwise |
| StyleEncoders.FcInputMatchesIff | model.py:503-535 | under FC, forward succeeds iff style_dim is 1, 4 or 8, and then returns one s_dim style vector |
| StyleEncoders.ConvHeadOutput | model.py:514-535 | without FC, forward returns one c_dim-channel map of the side `main` leaves |
| StyleEncoders.TopWidthOfStages | model.py:469-498 | the top width is g_conv_dim/2 doubled once per stage and once more |
| StyleEncoders.BuildErrors | model.py:489-506 | construction fails iff the image is empty (log of 0) or, under FC, the power of two is negative |
| Labels.Denorm | solver.py:161-163 | denorm always lands in [0, 1] |
| Labels.DenormInverts | solver.py:161-163 | on [-1, 1], denorm inverts the loader's normalisation in both directions |
| Labels.DenormSaturates | solver.py:161-163 | values outside [-1, 1] clamp to the nearer end |
| Labels.DenormMonotone | solver.py:161-163 | denorm is monotone |
| Labels.DenormAll | solver.py:161-163 | denorm of a tensor is elementwise: it keeps the length, entry k is the scalar denorm of input entry k, and every entry lies in [0, 1] |
| Labels.OneHot | solver.py:168-174 | succeeds iff every label is a valid index; then each row has dim entries, a 1 at its label's column and 0 elsewhere |
| Labels.HotIndex | solver.py:168-174 | finds the first column holding 1, or None when there is none |
| Labels.OneHotDecodes | solver.py:168-174 | reading the hot column back recovers every non-negative label |
| Labels.FixedTargets | solver.py:328-332 | c_dim + 1 targets: the zero matrix, then the one-hot labels of each domain j |
| Labels.FixedTargetRows | solver.py:328-332 | every row of target j+1 selects domain j, and the zero target selects none |
| Labels.SamplePanels | solver.py:561-567 | a sample tile has c_dim + 2 panels: the input, then for each k the translation under fixed target k, in target order |
| Labels.FakeLabel | solver.py:399-400 | fake_label has the batch's length and draws every row from real_label |
| Labels.FakeLabelPermutes | solver.py:399-400 | fake_label is a row permutation of real_label: same rows, same multiplicities |
| Labels.GatherMultiset | solver.py:400 | gathering by index lists with equal multisets gives rows with equal multisets |
| Losses.FamilyOf | solver.py:417-425 | LSGAN wins over HINGE, and the Wasserstein default holds exactly when neither is set |
| Losses.DSteps | solver.py:443-475 | D steps twice per training step exactly under the Wasserstein default |
| Losses.RecordedGp | solver.py:477-484 | outside the Wasserstein default, the recorded D/gp is 0 |
| Losses.HingeGeneratorIsWasserstein | solver.py:506-511 | the generator's adversarial loss is the same under HINGE and the default |
| Losses.HingeRealZeroIff | solver.py:419-421 | the hinge real loss is non-negative and is 0 iff every output is at least 1 |
| Losses.HingeFakeZeroIff | solver.py:438-439 | the hinge fake loss is non-negative and is 0 iff every output is at most -1 |
| Losses.MseNonNegative | solver.py:417-437 | the least-squares loss is non-negative and is 0 iff every output hits its target |
| Losses.DiscriminatorLossNonNegative | solver.py:416-441 | both D terms are non-negative under LSGAN and HINGE |
| Losses.L1LossDominates | solver.py:516-521 | when the L1 distances obey the triangle inequality, G/rec under L1_LOSS is at least the plain cycle loss |
| Checkpoints.CheckpointName | solver.py:371-578 | models the `{E}_{i+1}_{net}.pth` names; no contract of its own, its properties are SplitCheckpointName, StemOfCheckpoint and CheckpointOrder |
| Checkpoints.Stem | solver.py:632 | models `'_'.join(name.split('_')[:2])`; no contract of its own, its properties are StemOfCheckpoint and DemoSampleKeepsStem |
| Checkpoints.StartOf | solver.py:341 | models `int(pretrained_model.split('_')[0])`; no contract of its own, its property is ResumeStart |
| Checkpoints.RunFiles | solver.py:575-578 | the epochs start .. stop-1 write two files each |
| Checkpoints.RunFilesSplit | solver.py:370-578 | the files of adjacent epoch ranges concatenate |
| Checkpoints.SplitCheckpointName | solver.py:575-578 | a checkpoint name splits on `_` into its epoch field, step count and network suffix |
| Checkpoints.StemOfCheckpoint | solver.py:575-637 | the stem of a D checkpoint is `E_N`, and the G weights `test` loads from it are the G file written beside it |
| Checkpoints.ResumeStart | solver.py:340-578 | resuming from a checkpoint name, or from its stem, starts at the epoch after it |
| Checkpoints.Matching | solver.py:631 | the glob keeps exactly the listed names that end in `_D.pth` and are not dot-files |
| Checkpoints.LatestStem | solver.py:631-632 | fails (the IndexError of `[-1]`) iff no listed name matches |
| Checkpoints.TestStem | solver.py:628-662 | the pretrained name is used when it is given, non-empty and `load` is off; otherwise the newest checkpoint's stem |
| Checkpoints.EpochFieldOrder | solver.py:575-578 | below epoch 1000, the zero-padded epoch fields sort in epoch order |
| Checkpoints.CheckpointOrder | solver.py:575-631 | checkpoints with the same step count sort by epoch |
| Checkpoints.GeneratorNotMatching | solver.py:631 | a G checkpoint never matches the D pattern |
| Checkpoints.MatchingRunFiles | solver.py:575-631 | the D files of a run are the D names of its epochs |
| Checkpoints.LatestOfRun | solver.py:575-632 | after an uninterrupted run of 1 to 999 epochs, `test` picks the stem of the last epoch |
| Checkpoints.TestSamples | solver.py:630-650 | `test` writes min(batches, 4) sample images; image i is named `{stem}_fake_val_{dataset}_{i+1}.jpg`, with 'BP4D' for an empty dataset |
| Checkpoints.DigitsOnly | solver.py:674 | every non-digit of the clock reading becomes `_`, digits stay, and the length is kept |
| Checkpoints.DemoSampleKeepsStem | solver.py:674 | the stem of a DEMO sample name is the stem of the checkpoint it was made with |
| Text.Split | solver.py:341 | `str.split` gives at least one piece, and no piece holds the separator; the round trips are JoinSplit and SplitJoin |
| Text.ParseInt | main.py:102 | models `int()` on a sign and digits; no contract of its own, its properties are ParseIntToString and ParseZfill |
| Text.Zfill | solver.py:371 | `zfill(width)` is as long as the input or `width`, whichever is more; ParseZfill reads it back |
| Text.JoinSplit | solver.py:341 | splitting on a separator and joining back gives the original string |
| Text.SplitJoin | solver.py:632 | joining separator-free pieces and splitting again gives the pieces |
| Text.ParseIntToString | solver.py:341 | `int(str(i)) == i` |
| Text.ParseZfill | solver.py:341-577 | `int` reads back a zero-padded numeral as its value |
| Text.LexTransitive | solver.py:631 | the string order `sorted` uses is transitive |
| Text.LexTotal | solver.py:631 | the string order `sorted` uses is total |
| Text.LexMax | solver.py:631 | the last name of the sorted listing is a member that every listed name is at most |
| Counting.FiresInSplit | solver.py:340-597 | counting the epochs of a range that close a group of d is additive over adjacent ranges |
| Counting.FiresInPrefix | solver.py:499 | among steps 0 .. n-1, exactly n div d close a group of d |
| Schedule.UpdateLr | solver.py:131-135 | both optimizers get the given rates, and nothing else changes |
| Schedule.Decay | solver.py:593-597 | both cached rates are divided by ten and handed to the optimizers; nothing else changes |
| Schedule.Keys | solver.py:366-489 | loss_cum is empty before the first step and has seven keys after it |
| Schedule.Step | solver.py:378-572 | a successful step keeps loss_cum's D lists of equal length and its G lists of equal length; its effects are StepEffect |
| Schedule.StepEffect | solver.py:399-572 | a step fails (ZeroDivision) iff a cadence divisor is 0. Otherwise D logs one entry and steps once, twice under the default family. G logs and steps exactly when the step closes a group of d_train_repeat. Rates and checkpoints are unchanged. A step appends its sample image exactly when it closes a group of sample_step, is the epoch's last, or is the first step of the first epoch; any other step writes nothing |
| Schedule.StepsEffect | solver.py:370-572 | an epoch's steps fail iff one runs with a zero divisor; otherwise D/real records the oracle's losses in order and the counts grow as the step contract says |
| Schedule.StepsLastSample | solver.py:560-572 | the last file an epoch's steps write is the last step's sample image |
| Schedule.EndEpoch | solver.py:575-597 | the epoch's checkpoints are written before the decay test, so a ZeroDivision there still leaves them; the log is unchanged |
| Schedule.EpochEffect | solver.py:370-597 | an epoch over a non-empty loader fails iff a divisor is 0; it writes its two checkpoints, logs n D entries and (n div d_train_repeat) G entries, and decays the rates exactly at epochs closing a group of num_epochs_decay |
| Schedule.EpochsEffect | solver.py:370-597 | epochs start .. stop-1 succeed iff there are none or every divisor is non-zero; they write every epoch's checkpoints in order and decay once per group-closing epoch |
| Schedule.Replay | solver.py:342-347 | models the decay replay of the skipped epochs; its effect is ReplayEffect |
| Schedule.ReplayEffect | solver.py:340-350 | the resume replay fails iff an epoch is skipped with a zero decay period; otherwise it decays once per skipped group-closing epoch and touches nothing else |
| Schedule.FromStartEffect | solver.py:340-597 | from epoch `start`, the run succeeds iff the replay and the epochs do, and it starts with an empty log and no files |
| Schedule.Train | solver.py:308-597 | models `train`; no contract of its own, its properties are TrainErrors, TrainResult and ResumeMatchesFresh |
| Schedule.TrainErrors | solver.py:312-597 | train fails on an empty loader first, then on a pretrained name whose first piece is not an integer, and succeeds exactly when the replay and the epochs do |
| Schedule.TrainResult | solver.py:308-597 | a successful train writes the checkpoints of epochs start .. num_epochs-1, logs n D entries per epoch, and ends with the configured rates divided by ten once per replayed or run group-closing epoch |
| Schedule.ResumeMatchesFresh | solver.py:340-597 | resuming from a name that reads `start` ends with the uninterrupted run's learning rates; the uninterrupted run's checkpoints are those of its first `start` epochs followed by those the resumed run writes |
| Schedule.ResumeFromLatest | solver.py:340-632 | after an uninterrupted run of 1 to 999 epochs, the newest checkpoint's stem resumes at the epoch after the last |
| Launch.ParseAll | main.py:103 | the id list parses iff every piece is an integer numeral, and then element k is piece k's value |
| Launch.ConfigureDevices | main.py:91-105 | models the GPU option handling; its properties are ScalingRule, GpuOptionRoundTrip, ConfigureParsed and NoCudaIsOneDevice |
| Launch.ScalingRule | main.py:91-105 | the list fails iff GPU is not -1 and some piece is not an integer. Horovod is used iff GPU is -1: the rates scale by the world size and the batch size does not. On every other path, batch size and rates scale by the number of ids |
| Launch.GpuOptionRoundTrip | main.py:98-105 | naming a non-empty id list other than [-1] as a comma-separated option parses back to exactly those ids, with batch size and rates multiplied by their count |
| Launch.ConfigureParsed | main.py:98-105 | an option whose pieces parse to `ids` configures exactly `ids`, scaled by their count |
| Launch.NoCudaIsOneDevice | main.py:99-100 | NO_CUDA is not Horovod: it exports -1 and names the single device -1 |
| Launch.OptionNotReserved | main.py:91-99 | a comma-joined id list is never one of the reserved words, unless it is the lone -1 |
| Launch.FirstScore | main.py:40-68 | finds the first set score flag in test order, or None iff none is set |
| Launch.Main | main.py:40-83 | runs at most two jobs; what it runs is MainDispatch |
| Launch.MainDispatch | main.py:40-83 | a set score flag runs alone, and it is the first set flag in test order. With none set: train mode runs train then test; test mode runs DEMO on the given path when it is non-empty, and the test alone otherwise; any other mode runs nothing |

## Left out

- Numerics: what torch computes is left out. Convolution weights, losses
  on images, gradients and the gradient penalty's value come from an
  oracle parameter. Losses, learning rates (their decay by ten and their
  scaling by the device count) and `denorm` are exact reals, with no
  floating-point rounding.
- `misc.blocks` is not part of this model. `ResidualBlock` is taken to
  keep its input shape. The number of AdaptiveInstanceNorm2d layers in an
  AdaIN residual block is a parameter, `normsPerBlock`. `Conv2dBlock` is
  taken to be a convolution with the given kernel, stride and padding.
- Rank-2 styles on the split branches of `Generator.forward`: the model
  refuses every such style with StyleRank, because its styles have no
  batch axis. Torch accepts a (batch, style_dim) style there when the
  batch is 1 (as in DEMO) or equals c_dim. `random_style` draws such
  styles when style_dim is 8. The numeric content of the tiling is
  modelled separately (`Forward.TileStyleFits`).
- The `InterLabels` branch inside `elif self.DRIT` of `Generator.forward`
  (model.py:311-318) cannot be reached, because the `if` before it catches
  InterLabels. It is modelled as dead code.
- The constructor called in `build_model` (solver.py:77-80) and the
  network classes' `debug` printing are left out.
- I/O is left out: the data loader, `glob` (its listing is a parameter),
  `torch.save` and `load_state_dict` (only the names are modelled),
  tensorboard and text logging, progress bars, image saving, `BLUR` and
  the random seeds. The permutation `randperm` draws is a parameter.
- `DEMO`'s clock reading `TimeNow` is a parameter. The Horovod world size
  is a parameter.
- The `log_step` test only prints; the model keeps only its ZeroDivision.
- Checkpoints.LatestOfRun and Schedule.ResumeFromLatest: these hold only
  below epoch 1000. From epoch 1000 on the epoch field has four digits,
  and lexicographic order no longer follows epoch order.
- Text.ParseInt: `int()` is modelled for an optional sign followed by
  digits. Python 2's `int()` also accepts surrounding whitespace, and
  the model rejects it. So `--GPU "0, 1"` configures two devices in the
  source, but `Launch.ConfigureDevices` returns BadGpuId.
- Discriminators.Discriminate: `squeeze()` of a tensor whose every axis
  is 1 is taken to give a scalar. Torch releases before 0.4 kept one axis
  there. For those releases, a batch of one image with c_dim 1 would pass
  the class view, where the model reports ViewMismatch.
- The score runners (`Scores`), the `Train` and `Test` wrappers, and the
  option parser are outside this model; `Launch.Main` records which job
  runs.

=== FILE: adain.dfy ===
/**
 * AdaInGEN's parameter plumbing: the AdaIN layers of the Generator in
 * module order, the size of the parameter buffer they need, how
 * `assign_adain_params` slices that buffer with a moving cursor, and the
 * MLP that produces it from the style code.
 *
 * How many AdaptiveInstanceNorm2d layers an AdaIN residual block holds is
 * decided in misc/blocks.py, which is not part of this model; it is the
 * parameter `normsPerBlock`, each of width equal to the block's channels.
 */
module AdaIn {
  import opened Wrappers
  import opened Layers
  import opened Generator

  // ---------------------------------------------------------------------
  // the AdaIN layers and the buffer width
  // ---------------------------------------------------------------------

  function Copies(w: nat, k: nat): (r: seq<nat>)
    ensures |r| == k && forall j :: 0 <= j < k ==> r[j] == w
  {
    seq(k, _ => w)
  }

  /** `num_features` of every AdaptiveInstanceNorm2d, in `modules()` order. */
  function AdaInWidths(ls: seq<Layer>, normsPerBlock: nat): seq<nat>
  {
    if |ls| == 0 then []
    else LayerWidths(ls[0], normsPerBlock) + AdaInWidths(ls[1..], normsPerBlock)
  }

  /** The AdaIN layers one module contributes. */
  function LayerWidths(l: Layer, normsPerBlock: nat): seq<nat>
  {
    match l
    case Residual(ch, true) => Copies(ch, normsPerBlock)
    case _ => []
  }

  lemma {:induction false} AdaInWidthsAppend(a: seq<Layer>, b: seq<Layer>, k: nat)
    ensures AdaInWidths(a + b, k) == AdaInWidths(a, k) + AdaInWidths(b, k)
    decreases |a|
  {
    if |a| == 0 {
      assert a + b == b;
    } else {
      var h := LayerWidths(a[0], k);
      assert AdaInWidths(a + b, k) == h + AdaInWidths(a[1..] + b, k) by {
        assert (a + b)[0] == a[0];
        assert (a + b)[1..] == a[1..] + b;
      }
      AdaInWidthsAppend(a[1..], b, k);
    }
  }

  /** Only residual blocks hold AdaIN layers. */
  lemma {:induction false} AdaInWidthsOfResiduals(ls: seq<Layer>, k: nat)
    ensures AdaInWidths(ResidualsOf(ls), k) == AdaInWidths(ls, k)
    decreases |ls|
  {
    if |ls| > 0 {
      AdaInWidthsOfResiduals(ls[1..], k);
      var head := if ls[0].Residual? then [ls[0]] else [];
      AdaInWidthsAppend(head, ResidualsOf(ls[1..]), k);
      if ls[0].Residual? {
        assert [ls[0]][1..] == [];
      }
    }
  }

  /** `get_num_adain_params`: two parameters (bias and weight) per feature. */
  function NumParams(ws: seq<nat>): nat
  {
    if |ws| == 0 then 0 else 2 * ws[0] + NumParams(ws[1..])
  }

  lemma {:induction false} NumParamsAppend(a: seq<nat>, b: seq<nat>)
    ensures NumParams(a + b) == NumParams(a) + NumParams(b)
    decreases |a|
  {
    if |a| == 0 {
      assert a + b == b;
    } else {
      NumParamsAppend(a[1..], b);
      assert (a + b)[1..] == a[1..] + b;
    }
  }

  lemma {:induction false} NumParamsCopies(w: nat, k: nat)
    ensures NumParams(Copies(w, k)) == 2 * k * w
    decreases k
  {
    if k > 0 {
      NumParamsCopies(w, k - 1);
      assert Copies(w, k)[1..] == Copies(w, k - 1);
    }
  }

  /** Where layer k's parameters start: the widths of the layers before it. */
  function Offset(ws: seq<nat>, k: nat): nat
    requires k <= |ws|
  {
    NumParams(ws[..k])
  }

  // ---------------------------------------------------------------------
  // the cursor
  // ---------------------------------------------------------------------

  /** What one AdaIN layer receives: its bias (the mean) and its weight (the std). */
  datatype Slices<T> = Slices(bias: seq<T>, weight: seq<T>)

  function Min(a: nat, b: nat): nat { if a <= b then a else b }

  /** `assign_adain_params` on one row of the buffer: layer by layer, bias
      is the first nf columns and weight the next nf (Python slices clamp at
      the end), and the cursor moves past them only while more than 2 nf
      columns remain. */
  function Assign<T>(buf: seq<T>, ws: seq<nat>): (r: seq<Slices<T>>)
    ensures |r| == |ws|
    decreases |ws|
  {
    if |ws| == 0 then []
    else
      var nf := ws[0];
      var here := Slices(buf[..Min(nf, |buf|)], buf[Min(nf, |buf|)..Min(2 * nf, |buf|)]);
      var rest := if |buf| > 2 * nf then buf[2 * nf..] else buf;
      [here] + Assign(rest, ws[1..])
  }

  lemma {:induction false} ZeroParams(ws: seq<nat>)
    requires NumParams(ws) == 0
    ensures forall k :: 0 <= k < |ws| ==> ws[k] == 0
    decreases |ws|
  {
    if |ws| > 0 {
      ZeroParams(ws[1..]);
      assert forall k :: 1 <= k < |ws| ==> ws[k] == ws[1..][k - 1];
    }
  }

  /** Zero-width layers receive empty slices wherever the cursor stands. */
  lemma {:induction false} AssignZeroWidths<T>(buf: seq<T>, ws: seq<nat>)
    requires forall k :: 0 <= k < |ws| ==> ws[k] == 0
    ensures forall k :: 0 <= k < |ws| ==> Assign(buf, ws)[k] == Slices([], [])
    decreases |ws|
  {
    if |ws| > 0 {
      AssignZeroWidths(buf, ws[1..]);
      var r := Assign(buf, ws);
      assert forall k :: 1 <= k < |ws| ==> r[k] == Assign(buf, ws[1..])[k - 1];
    }
  }

  lemma OffsetStep(ws: seq<nat>, k: nat)
    requires |ws| > 0 && k < |ws|
    ensures Offset(ws, k + 1) == 2 * ws[0] + Offset(ws[1..], k)
  {
    assert ws[..k + 1] == [ws[0]] + ws[1..][..k];
    assert ws[..k + 1][1..] == ws[1..][..k];
  }

  lemma OffsetBound(ws: seq<nat>, k: nat)
    requires k < |ws|
    ensures Offset(ws, k) + 2 * ws[k] <= NumParams(ws)
  {
    assert ws == ws[..k] + [ws[k]] + ws[k + 1..];
    NumParamsAppend(ws[..k] + [ws[k]], ws[k + 1..]);
    NumParamsAppend(ws[..k], [ws[k]]);
    assert [ws[k]][1..] == [];
  }

  /** Layer k receives bias = columns [off_k, off_k + nf) and weight =
      columns [off_k + nf, off_k + 2 nf) of the buffer. */
  ghost predicate AlignedAt<T>(buf: seq<T>, ws: seq<nat>, k: nat)
  {
    && k < |ws|
    && Offset(ws, k) + 2 * ws[k] <= |buf|
    && Assign(buf, ws)[k] == Slices(buf[Offset(ws, k)..Offset(ws, k) + ws[k]],
                                    buf[Offset(ws, k) + ws[k]..Offset(ws, k) + 2 * ws[k]])
  }

  /** Layer k of `ws` is layer k - 1 of the tail, read from the buffer
      past the first layer's 2 nf columns. */
  lemma ShiftedSlices<T>(buf: seq<T>, ws: seq<nat>, k: nat)
    requires 1 <= k < |ws| && |buf| > 2 * ws[0]
    requires AlignedAt(buf[2 * ws[0]..], ws[1..], k - 1)
    ensures AlignedAt(buf, ws, k)
  {
    var d := 2 * ws[0];
    var o := Offset(ws[1..], k - 1);
    var w := ws[k];
    assert Offset(ws, k) == d + o && ws[1..][k - 1] == w by {
      OffsetStep(ws, k - 1);
    }
    var sl := Assign(buf[d..], ws[1..])[k - 1];
    assert o + 2 * w <= |buf| - d && sl == Slices(buf[d..][o..o + w], buf[d..][o + w..o + 2 * w]);
    assert Assign(buf, ws)[k] == sl by {
      AssignTail(buf, ws, k);
    }
    SlicesShift(buf, d, o, w);
    AlignedIntro(buf, ws, k, d + o, sl);
  }

  lemma SlicesShift<T>(buf: seq<T>, d: nat, o: nat, w: nat)
    requires d + o + 2 * w <= |buf|
    ensures Slices(buf[d..][o..o + w], buf[d..][o + w..o + 2 * w])
         == Slices(buf[d + o..d + o + w], buf[d + o + w..d + o + 2 * w])
  {
    SliceOfDrop(buf, d, o, o + w);
    SliceOfDrop(buf, d, o + w, o + 2 * w);
  }

  lemma AlignedIntro<T>(buf: seq<T>, ws: seq<nat>, k: nat, o: nat, sl: Slices<T>)
    requires k < |ws| && Offset(ws, k) == o && o + 2 * ws[k] <= |buf|
    requires Assign(buf, ws)[k] == sl
    requires sl == Slices(buf[o..o + ws[k]], buf[o + ws[k]..o + 2 * ws[k]])
    ensures AlignedAt(buf, ws, k)
  {
  }

  /** Past the first layer, the cursor has moved by its 2 nf columns. */
  lemma AssignTail<T>(buf: seq<T>, ws: seq<nat>, k: nat)
    requires 1 <= k < |ws| && |buf| > 2 * ws[0]
    ensures Assign(buf, ws)[k] == Assign(buf[2 * ws[0]..], ws[1..])[k - 1]
  {
  }

  lemma SliceOfDrop<T>(s: seq<T>, d: nat, i: nat, j: nat)
    requires d <= |s| && i <= j <= |s| - d
    ensures s[d..][i..j] == s[d + i..d + j]
  {
  }

  /** The first layer reads the first 2 nf columns. */
  lemma AlignedFirst<T>(buf: seq<T>, ws: seq<nat>)
    requires |ws| > 0 && |buf| == NumParams(ws)
    ensures AlignedAt(buf, ws, 0)
  {
    assert ws[..0] == [];
    OffsetBound(ws, 0);
  }

  /** When the first layer takes the whole buffer, the later layers have
      width zero and receive the empty slices at its end. */
  lemma AlignedStale<T>(buf: seq<T>, ws: seq<nat>, k: nat)
    requires 1 <= k < |ws| && |buf| == NumParams(ws) && |buf| <= 2 * ws[0]
    ensures AlignedAt(buf, ws, k)
  {
    var tail := ws[1..];
    assert NumParams(tail) == 0;
    assert forall j :: 0 <= j < |tail| ==> tail[j] == 0 by {
      ZeroParams(tail);
    }
    assert ws[k] == 0 by {
      assert tail[k - 1] == ws[k];
    }
    assert Offset(ws, k) == |buf| by {
      OffsetStep(ws, k - 1);
      OffsetBound(tail, k - 1);
    }
    assert Assign(buf, ws)[k] == Slices([], []) by {
      AssignZeroWidths(buf, tail);
      assert Assign(buf, ws)[k] == Assign(buf, tail)[k - 1];
    }
    assert buf[|buf|..|buf|] == [];
  }

  lemma {:induction false} AllAligned<T>(buf: seq<T>, ws: seq<nat>)
    requires |buf| == NumParams(ws)
    ensures forall k :: 0 <= k < |ws| ==> AlignedAt(buf, ws, k)
    decreases |ws|
  {
    if |ws| > 0 {
      if |buf| > 2 * ws[0] {
        AllAligned(buf[2 * ws[0]..], ws[1..]);
      }
      forall k | 0 <= k < |ws|
        ensures AlignedAt(buf, ws, k)
      {
        if k == 0 {
          AlignedFirst(buf, ws);
        } else if |buf| > 2 * ws[0] {
          ShiftedSlices(buf, ws, k);
        } else {
          AlignedStale(buf, ws, k);
        }
      }
    }
  }

  /** With a buffer exactly as wide as `get_num_adain_params` says, layer k
      receives bias = columns [off_k, off_k + nf) and weight = columns
      [off_k + nf, off_k + 2 nf), where off_k sums 2 nf over the layers before
      it: every layer gets its own disjoint block. */
  lemma AssignAligned<T>(buf: seq<T>, ws: seq<nat>)
    requires |buf| == NumParams(ws)
    ensures forall k :: 0 <= k < |ws| ==>
      && Offset(ws, k) + 2 * ws[k] <= |buf|
      && Assign(buf, ws)[k] == Slices(buf[Offset(ws, k)..Offset(ws, k) + ws[k]],
                                      buf[Offset(ws, k) + ws[k]..Offset(ws, k) + 2 * ws[k]])
  {
    AllAligned(buf, ws);
    forall k | 0 <= k < |ws|
      ensures Offset(ws, k) + 2 * ws[k] <= |buf|
      ensures Assign(buf, ws)[k] == Slices(buf[Offset(ws, k)..Offset(ws, k) + ws[k]],
                                           buf[Offset(ws, k) + ws[k]..Offset(ws, k) + 2 * ws[k]])
    {
      assert AlignedAt(buf, ws, k);
    }
  }

  /** The cursor is not checked against the widths: when no more than 2 nf
      columns remain it stays put, so a following layer of the same width
      reads the very same columns again. */
  lemma StaleCursor<T>(buf: seq<T>, ws: seq<nat>)
    requires |ws| >= 2 && ws[1] == ws[0] && |buf| <= 2 * ws[0]
    ensures Assign(buf, ws)[1] == Assign(buf, ws)[0]
  {
    assert Assign(buf, ws)[1] == Assign(buf, ws[1..])[0];
  }

  // ---------------------------------------------------------------------
  // the MLP
  // ---------------------------------------------------------------------

  /** `MLP(input_dim, output_dim, dim, n_blk)`: a first layer to `dim`,
      n_blk - 2 hidden layers (none when n_blk < 2), and a last layer to
      `output_dim`. Activations keep the width and are left out. */
  function MlpLayers(inW: nat, outW: nat, dim: nat, nBlk: nat): (ls: seq<Dense>)
    ensures |ls| == 2 + (if nBlk >= 2 then nBlk - 2 else 0)
  {
    [Linear(inW, dim)] + seq(if nBlk >= 2 then nBlk - 2 else 0, _ => Linear(dim, dim)) + [Linear(dim, outW)]
  }

  lemma {:induction false} HiddenWalk(dim: nat, k: nat, tail: seq<Dense>)
    ensures DenseWalk(seq(k, _ => Linear(dim, dim)) + tail, dim) == DenseWalk(tail, dim)
    decreases k
  {
    if k > 0 {
      var s := seq(k, _ => Linear(dim, dim)) + tail;
      assert s[1..] == seq(k - 1, _ => Linear(dim, dim)) + tail;
      HiddenWalk(dim, k - 1, tail);
    } else {
      assert seq(k, _ => Linear(dim, dim)) + tail == tail;
    }
  }

  /** The MLP accepts exactly `input_dim` features and yields `output_dim`. */
  lemma MlpWalk(inW: nat, outW: nat, dim: nat, nBlk: nat, w: nat)
    ensures DenseWalk(MlpLayers(inW, outW, dim, nBlk), w) == if w == inW then Some(outW) else None
  {
    var k := if nBlk >= 2 then nBlk - 2 else 0;
    var hidden := seq(k, _ => Linear(dim, dim));
    var ls := MlpLayers(inW, outW, dim, nBlk);
    assert ls[1..] == hidden + [Linear(dim, outW)];
    HiddenWalk(dim, k, [Linear(dim, outW)]);
    assert [Linear(dim, outW)][1..] == [];
  }

  // ---------------------------------------------------------------------
  // AdaInGEN
  // ---------------------------------------------------------------------

  /** The configuration of AdaInGEN: the Generator's, plus `mlp_dim` and
      the AdaIN layers per residual block. */
  datatype AdaInConfig = AdaInConfig(gen: GenConfig, mlpDim: nat, normsPerBlock: nat)

  /** `self.c_dim`: c_dim, except 1 for the eight-wide style. */
  function StyleRows(gen: GenConfig): nat
  {
    if gen.styleDim != 8 then gen.cDim else 1
  }

  /** The MLP's input width: style_dim * c_dim', doubled under
      InterStyleConcatLabels. */
  function MlpIn(gen: GenConfig): nat
  {
    gen.styleDim * StyleRows(gen) * (if "InterStyleConcatLabels" in gen.options then 2 else 1)
  }

  /** The AdaIN layers of the wrapped Generator. */
  function GenWidths(cfg: AdaInConfig): seq<nat>
  {
    AdaInWidths(AllLayers(Build(cfg.gen)), cfg.normsPerBlock)
  }

  /** `adain_net`: from the style code to one parameter per AdaIN feature. */
  function AdaInNet(cfg: AdaInConfig): seq<Dense>
  {
    MlpLayers(MlpIn(cfg.gen), NumParams(GenWidths(cfg)), cfg.mlpDim, 3)
  }

  /** The AdaIN layers are those of the AdaIN residual blocks, in order. */
  lemma GenWidthsOfBlocks(cfg: AdaInConfig)
    ensures var g := cfg.gen;
      GenWidths(cfg) == AdaInWidths(BlockList(Resolve(g.options), g.cDim, g.repeatNum, EncodedWidth(g)), cfg.normsPerBlock)
  {
    var g := cfg.gen;
    var f := Resolve(g.options);
    var d := EncodedWidth(g);
    AdaInWidthsOfResiduals(AllLayers(Build(g)), cfg.normsPerBlock);
    ResidualsOfBuild(g);
  }

  lemma {:induction false} PlainBlocksNoAdaIn(f: Flags, n: nat, a: nat, b: nat, w: nat, k: nat)
    requires a <= b && !f.adaIn && !f.adaIn2
    ensures AdaInWidths(Blocks(f, n, a, b, w), k) == []
    decreases b - a
  {
    if a < b {
      PlainBlocksNoAdaIn(f, n, a + 1, b, w, k);
      var bl := Blocks(f, n, a, b, w);
      assert bl[1..] == Blocks(f, n, a + 1, b, w);
      assert bl[0] == Residual(w, BlockAdaIn(f, n, a));
      assert !BlockAdaIn(f, n, a);
      assert AdaInWidths(bl, k) == [] + AdaInWidths(bl[1..], k);
    }
  }

  lemma MulSucc(x: nat, p: nat)
    ensures (x + 1) * p == p + x * p
  {
  }

  lemma {:induction false} AllAdaInBlocks(f: Flags, n: nat, a: nat, b: nat, w: nat, k: nat)
    requires a <= b && f.adaIn2
    ensures NumParams(AdaInWidths(Blocks(f, n, a, b, w), k)) == (b - a) * (2 * k * w)
    decreases b - a
  {
    hide *;
    if a < b {
      var p := 2 * k * w;
      var rest := AdaInWidths(Blocks(f, n, a + 1, b, w), k);
      AllAdaInBlocks(f, n, a + 1, b, w, k);
      AdaInBlocksHead(f, n, a, b, w, k);
      NumParamsAppend(Copies(w, k), rest);
      NumParamsCopies(w, k);
      MulSucc(b - (a + 1), p);
    } else {
      EmptyBlocks(f, n, a, w, k);
    }
  }

  /** Under AdaIn2 the first block of a run contributes its norms' widths. */
  lemma AdaInBlocksHead(f: Flags, n: nat, a: nat, b: nat, w: nat, k: nat)
    requires a < b && f.adaIn2
    ensures AdaInWidths(Blocks(f, n, a, b, w), k) == Copies(w, k) + AdaInWidths(Blocks(f, n, a + 1, b, w), k)
  {
    var bl := Blocks(f, n, a, b, w);
    assert bl[1..] == Blocks(f, n, a + 1, b, w);
    assert bl[0] == Residual(w, BlockAdaIn(f, n, a));
    assert BlockAdaIn(f, n, a);
  }

  lemma EmptyBlocks(f: Flags, n: nat, a: nat, w: nat, k: nat)
    ensures NumParams(AdaInWidths(Blocks(f, n, a, a, w), k)) == 0
  {
  }

  /** Without AdaIn or AdaIn2 the Generator has no AdaIN layer and the MLP
      has nothing to produce; under AdaIn2 without a split every one of the
      repeat_num blocks takes 2 * normsPerBlock * width parameters. */
  lemma NumParamsOfGenerator(cfg: AdaInConfig)
    ensures var f := Resolve(cfg.gen.options);
      && (!f.adaIn && !f.adaIn2 ==> NumParams(GenWidths(cfg)) == 0)
      && (f.adaIn2 && !Splits(f, cfg.gen.repeatNum) ==>
            NumParams(GenWidths(cfg)) == cfg.gen.repeatNum * (2 * cfg.normsPerBlock * EncodedWidth(cfg.gen)))
  {
    var g := cfg.gen;
    var f := Resolve(g.options);
    var n := g.repeatNum;
    var d := EncodedWidth(g);
    var k := cfg.normsPerBlock;
    GenWidthsOfBlocks(cfg);
    if !f.adaIn && !f.adaIn2 {
      if Splits(f, n) {
        AdaInWidthsAppend(Blocks(f, n, 0, n / 2, d), Blocks(f, n, n / 2, n, d + SplitExtra(f, g.cDim)), k);
        PlainBlocksNoAdaIn(f, n, 0, n / 2, d, k);
        PlainBlocksNoAdaIn(f, n, n / 2, n, d + SplitExtra(f, g.cDim), k);
      } else {
        PlainBlocksNoAdaIn(f, n, 0, n, d, k);
      }
    }
    if f.adaIn2 && !Splits(f, n) {
      AllAdaInBlocks(f, n, 0, n, d, k);
    }
  }

  // ---------------------------------------------------------------------
  // apply_style
  // ---------------------------------------------------------------------

  datatype StyleError = ExpandError | MlpWidth

  /** `label.unsqueeze(-1).expand_as(style)` per sample: the label of
      width labelW becomes a (labelW, 1) column that must stretch to the
      (rows, len) style. */
  predicate LabelExpands(dims: seq<nat>, labelW: nat)
  {
    |dims| == 2 && (labelW == dims[0] || labelW == 1)
  }

  /** The per-sample shape of the style after the label is concatenated
      (InterStyleConcatLabels, along the last axis) and multiplied
      (InterStyleMulLabels). With both options the concatenation step has
      already rebound `label` to the expanded (rows, len) tensor, and the
      multiplication step's `unsqueeze(-1).expand_as` of that three-axis
      column onto the two-axis style always fails. So the step succeeds
      exactly when at most one option is set and, if one is, the label
      column stretches onto the style; concatenation doubles the style's
      length and multiplication keeps its shape. */
  function StyleWithLabel(options: set<string>, dims: seq<nat>, labelW: nat): (r: Result<seq<nat>, StyleError>)
    ensures var concat := "InterStyleConcatLabels" in options;
      var mul := "InterStyleMulLabels" in options;
      && (r.Ok? <==> !(concat && mul) && ((concat || mul) ==> LabelExpands(dims, labelW)))
      && (r.Ok? && concat ==> r.value == [dims[0], 2 * dims[1]])
      && (r.Ok? && !concat ==> r.value == dims)
  {
    var concat := "InterStyleConcatLabels" in options;
    var mul := "InterStyleMulLabels" in options;
    if (concat || mul) && !LabelExpands(dims, labelW) then Err(ExpandError)
    else if concat && mul then Err(ExpandError)
    else Ok(if concat then [dims[0], 2 * dims[1]] else dims)
  }

  function Product(dims: seq<nat>): nat
  {
    if |dims| == 0 then 1 else dims[0] * Product(dims[1..])
  }

  /** `apply_style` up to the assignment: the width of the parameter row
      the MLP produces from a style of per-sample shape `dims`. */
  function ParamWidth(cfg: AdaInConfig, dims: seq<nat>, labelW: nat): Result<nat, StyleError>
  {
    match StyleWithLabel(cfg.gen.options, dims, labelW)
    case Err(e) => Err(e)
    case Ok(d) =>
      match DenseWalk(AdaInNet(cfg), Product(d))
      case None => Err(MlpWidth)
      case Some(w) => Ok(w)
  }

  /** A (c_dim', style_dim) style — what `random_style` draws for style
      widths other than 8 and what `get_style` reshapes to — with at most
      one label option and a label that expands onto it yields exactly one parameter per AdaIN feature of
      the Generator; no other flattened width is accepted by the MLP. */
  lemma StyleFeedsEveryAdaIn(cfg: AdaInConfig, dims: seq<nat>, labelW: nat)
    ensures var g := cfg.gen;
      && (dims == [StyleRows(g), g.styleDim]
          && !("InterStyleConcatLabels" in g.options && "InterStyleMulLabels" in g.options)
          && (("InterStyleConcatLabels" in g.options || "InterStyleMulLabels" in g.options) ==> LabelExpands(dims, labelW))
          ==> ParamWidth(cfg, dims, labelW) == Ok(NumParams(GenWidths(cfg))))
      && (ParamWidth(cfg, dims, labelW).Ok? ==>
            ParamWidth(cfg, dims, labelW) == Ok(NumParams(GenWidths(cfg)))
            && Product(StyleWithLabel(g.options, dims, labelW).value) == MlpIn(g))
  {
    hide GenWidths, NumParams, DenseWalk, MlpLayers;
    var g := cfg.gen;
    match StyleWithLabel(g.options, dims, labelW)
    case Err(_) =>
    case Ok(d) =>
      MlpWalk(MlpIn(g), NumParams(GenWidths(cfg)), cfg.mlpDim, 3, Product(d));
      if dims == [StyleRows(g), g.styleDim] {
        FittingProduct(g, d);
      }
  }

  /** The flattened width of a (c_dim', style_dim) style, widened by the
      concatenated label under InterStyleConcatLabels, is the MLP's input. */
  lemma FittingProduct(g: GenConfig, d: seq<nat>)
    requires d == if "InterStyleConcatLabels" in g.options then [StyleRows(g), 2 * g.styleDim] else [StyleRows(g), g.styleDim]
    ensures Product(d) == MlpIn(g)
  {
    var rows := StyleRows(g);
    var sd := g.styleDim;
    assert Product(d[1..]) == d[1];
    if "InterStyleConcatLabels" in g.options {
      assert Product(d) == rows * (2 * sd);
      assert rows * (2 * sd) == sd * rows * 2;
    } else {
      assert Product(d) == rows * sd;
    }
  }

  /** AdaInGEN end to end: the parameter row the MLP computes from a
      fitting style is exactly as wide as `get_num_adain_params`, so
      `assign_adain_params` hands every AdaIN layer its own bias and weight
      block. */
  lemma ApplyStyleAligned<T>(cfg: AdaInConfig, dims: seq<nat>, labelW: nat, row: seq<T>)
    requires ParamWidth(cfg, dims, labelW).Ok? && |row| == ParamWidth(cfg, dims, labelW).value
    ensures var ws := GenWidths(cfg);
      forall k :: 0 <= k < |ws| ==>
        && Offset(ws, k) + 2 * ws[k] <= |row|
        && Assign(row, ws)[k] == Slices(row[Offset(ws, k)..Offset(ws, k) + ws[k]],
                                     row[Offset(ws, k) + ws[k]..Offset(ws, k) + 2 * ws[k]])
  {
    StyleFeedsEveryAdaIn(cfg, dims, labelW);
    AssignAligned(row, GenWidths(cfg));
  }
}

=== FILE: checkpoints.dfy ===
/**
 * Checkpoint names: the `E_N_G.pth` / `E_N_D.pth` pair written at the end of
 * every epoch, the `E_N` stem that `test` and `DEMO` recover from the newest
 * discriminator file, the epoch a resumed run starts from, and the names of
 * the sample images those two methods write. Files themselves are left out;
 * a directory listing is a sequence of names.
 */
module Checkpoints {
  import opened Wrappers
  import opened Text

  /** `str(e + 1).zfill(3)`, the epoch field of the names written in epoch e. */
  function EpochField(e: int): string
  {
    Zfill(IntToString(e + 1), 3)
  }

  /** `'{}_{}_{}.pth'.format(E, i + 1, net)` with the last step count. */
  function CheckpointName(e: int, steps: int, net: string): string
  {
    EpochField(e) + NameTail(steps, net)
  }

  /** Everything after the epoch field. */
  function NameTail(steps: int, net: string): string
  {
    "_" + IntToString(steps) + "_" + net + ".pth"
  }

  /** The two files of one epoch, in the order they are written. */
  function EpochFiles(e: int, steps: int): seq<string>
  {
    [CheckpointName(e, steps, "G"), CheckpointName(e, steps, "D")]
  }

  /** The files written by epochs start .. stop - 1. */
  function RunFiles(start: int, stop: int, steps: int): (fs: seq<string>)
    ensures |fs| == if stop <= start then 0 else 2 * (stop - start)
    decreases stop - start
  {
    if stop <= start then [] else RunFiles(start, stop - 1, steps) + EpochFiles(stop - 1, steps)
  }

  /** The files of adjacent runs of epochs add up. */
  lemma {:induction false} RunFilesSplit(a: int, b: int, c: int, steps: int)
    requires a <= b <= c
    ensures RunFiles(a, c, steps) == RunFiles(a, b, steps) + RunFiles(b, c, steps)
    decreases c - b
  {
    if c > b {
      RunFilesSplit(a, b, c - 1, steps);
    }
  }

  /** `'_'.join(name.split('_')[:2])`; the slice keeps everything when there
      are fewer than two pieces. */
  function Stem(name: string): string
  {
    var parts := Split(name, '_');
    Join(if |parts| <= 2 then parts else parts[..2], '_')
  }

  /** `int(pretrained_model.split('_')[0])`, or None where Python's `int`
      raises. */
  function StartOf(pretrained: string): Option<int>
  {
    ParseInt(Split(pretrained, '_')[0])
  }

  /** `'{}_G.pth'.format(stem)`, the generator weights of a stem. */
  function WeightsOf(stem: string, net: string): string
  {
    stem + "_" + net + ".pth"
  }

  // ---------------------------------------------------------------------
  // name round trips
  // ---------------------------------------------------------------------

  lemma NoSeparatorInNumeral(i: int)
    ensures '_' !in IntToString(i)
  {
    NumeralOfInt(i);
  }

  lemma NoSeparatorInEpoch(e: int)
    ensures '_' !in EpochField(e)
  {
    NumeralOfInt(e + 1);
    NumeralOfZfill(IntToString(e + 1), 3);
  }

  /** A checkpoint name splits into its epoch field, its step field and
      the network suffix. */
  lemma SplitCheckpointName(e: int, steps: int, net: string)
    requires '_' !in net
    ensures Split(CheckpointName(e, steps, net), '_') == [EpochField(e), IntToString(steps), net + ".pth"]
  {
    var a := EpochField(e);
    var b := IntToString(steps);
    var c := net + ".pth";
    NoSeparatorInEpoch(e);
    NoSeparatorInNumeral(steps);
    assert '_' !in c by {
      assert forall k :: 0 <= k < |c| ==> c[k] == (if k < |net| then net[k] else ".pth"[k - |net|]);
    }
    assert CheckpointName(e, steps, net) == a + ['_'] + (b + ['_'] + c) by {
      assert NameTail(steps, net) == ['_'] + (b + ['_'] + c);
    }
    SplitHead(a, b + ['_'] + c, '_');
    SplitHead(b, c, '_');
    SplitNoSep(c, '_');
  }

  /** The stem of a checkpoint is `E_N`, and the generator weights `test`
      loads from it are the ones written beside the discriminator's. */
  lemma StemOfCheckpoint(e: int, steps: int)
    ensures Stem(CheckpointName(e, steps, "D")) == EpochField(e) + "_" + IntToString(steps)
    ensures WeightsOf(Stem(CheckpointName(e, steps, "D")), "G") == CheckpointName(e, steps, "G")
  {
    hide EpochField, IntToString;
    var a := EpochField(e);
    var b := IntToString(steps);
    SplitCheckpointName(e, steps, "D");
    StemOfPieces(CheckpointName(e, steps, "D"), a, b, ["D" + ".pth"]);
    assert CheckpointName(e, steps, "G") == (a + "_" + b) + "_G.pth";
  }

  /** A name of at least three pieces has its first two as stem. */
  lemma StemOfPieces(name: string, a: string, b: string, rest: seq<string>)
    requires Split(name, '_') == [a, b] + rest && |rest| >= 1
    ensures Stem(name) == a + "_" + b
  {
    var parts := [a, b] + rest;
    assert parts[..2] == [a, b];
    JoinTwo(a, b);
  }

  lemma JoinTwo(a: string, b: string)
    ensures Join([a, b], '_') == a + "_" + b
  {
    assert [a, b][1..] == [b];
  }

  /** Resuming from a checkpoint's stem starts at the epoch after it. */
  lemma ResumeStart(e: int, steps: int, net: string)
    requires '_' !in net
    ensures StartOf(Stem(CheckpointName(e, steps, net))) == Some(e + 1)
    ensures StartOf(CheckpointName(e, steps, net)) == Some(e + 1)
  {
    SplitCheckpointName(e, steps, net);
    var stem := EpochField(e) + "_" + IntToString(steps);
    StemOfPieces(CheckpointName(e, steps, net), EpochField(e), IntToString(steps), [net + ".pth"]);
    NoSeparatorInEpoch(e);
    NoSeparatorInNumeral(steps);
    SplitHead(EpochField(e), IntToString(steps), '_');
    ParseZfill(e + 1, 3);
  }

  // ---------------------------------------------------------------------
  // the newest checkpoint
  // ---------------------------------------------------------------------

  predicate EndsWith(s: string, suffix: string)
  {
    |s| >= |suffix| && s[|s| - |suffix|..] == suffix
  }

  /** `glob('*_D.pth')`: names ending in `_D.pth`, dot-files excluded. */
  predicate MatchesDiscriminator(name: string)
  {
    EndsWith(name, "_D.pth") && name[0] != '.'
  }

  function Matching(files: seq<string>): (ms: seq<string>)
    ensures forall k :: 0 <= k < |ms| ==> MatchesDiscriminator(ms[k]) && ms[k] in files
    ensures forall f :: f in files && MatchesDiscriminator(f) ==> f in ms
    decreases |files|
  {
    if |files| == 0 then []
    else
      var rest := Matching(files[1..]);
      assert forall f :: f in files[1..] ==> f in files;
      if MatchesDiscriminator(files[0]) then [files[0]] + rest else rest
  }

  datatype NameError = NoCheckpoint

  /** `'_'.join(basename(sorted(glob('*_D.pth'))[-1]).split('_')[:2])`: the
      stem of the greatest matching name, or the IndexError of an empty
      listing. */
  function LatestStem(files: seq<string>): (r: Result<string, NameError>)
    ensures r.Err? <==> forall f :: f in files ==> !MatchesDiscriminator(f)
  {
    var ms := Matching(files);
    if |ms| == 0 then Err(NoCheckpoint) else Ok(Stem(LexMax(ms)))
  }

  /** The stem `test` uses: the newest checkpoint when no pretrained model is
      given (None or empty) or `load` is set, the pretrained name otherwise.
      `DEMO` is the same with `load` false. */
  function TestStem(pretrained: Option<string>, load: bool, files: seq<string>): (r: Result<string, NameError>)
    ensures (pretrained.Some? && pretrained.value != "" && !load) ==> r == Ok(pretrained.value)
    ensures !(pretrained.Some? && pretrained.value != "" && !load) ==> r == LatestStem(files)
  {
    if pretrained == None || pretrained == Some("") || load then LatestStem(files)
    else Ok(pretrained.value)
  }

  /** The epoch field of epoch e for e + 1 below 1000: three digits. */
  lemma EpochFieldDigits(e: nat)
    requires e + 1 < 1000
    ensures EpochField(e) == [DigitChar((e + 1) / 100), DigitChar((e + 1) / 10 % 10), DigitChar((e + 1) % 10)]
  {
    ZfillThree(e + 1);
  }

  /** The decimal digits of x < y < 1000 compare lexicographically. */
  lemma DigitsOrder(x: nat, y: nat)
    requires x < y < 1000
    ensures x / 100 < y / 100
         || (x / 100 == y / 100 && x / 10 % 10 < y / 10 % 10)
         || (x / 100 == y / 100 && x / 10 % 10 == y / 10 % 10 && x % 10 < y % 10)
  {
    assert x == 100 * (x / 100) + 10 * (x / 10 % 10) + x % 10;
    assert y == 100 * (y / 100) + 10 * (y / 10 % 10) + y % 10;
  }

  lemma ThreeCharsOrder(a: string, b: string)
    requires |a| == 3 && |b| == 3
    requires a[0] < b[0] || (a[0] == b[0] && a[1] < b[1]) || (a[0] == b[0] && a[1] == b[1] && a[2] < b[2])
    ensures LexLess(a, b)
  {
    if a[0] == b[0] {
      assert a[1..][0] == a[1] && b[1..][0] == b[1];
      if a[1] == b[1] {
        assert a[1..][1..] == [a[2]] && b[1..][1..] == [b[2]];
        assert LexLess(a[1..][1..], b[1..][1..]);
      }
    }
  }

  /** Zero-padded epoch fields sort in epoch order below epoch 1000. */
  lemma EpochFieldOrder(e: nat, e': nat)
    requires e < e' && e' + 1 < 1000
    ensures |EpochField(e)| == |EpochField(e')| == 3
    ensures LexLess(EpochField(e), EpochField(e'))
  {
    EpochFieldDigits(e);
    EpochFieldDigits(e');
    var x := e + 1;
    var y := e' + 1;
    DigitsOrder(x, y);
    if x / 100 < y / 100 {
      DigitCharMonotone(x / 100, y / 100);
    } else if x / 10 % 10 < y / 10 % 10 {
      DigitCharMonotone(x / 10 % 10, y / 10 % 10);
    } else {
      DigitCharMonotone(x % 10, y % 10);
    }
    ThreeCharsOrder(EpochField(e), EpochField(e'));
  }

  /** Checkpoints of the same step count sort by epoch. */
  lemma CheckpointOrder(e: nat, e': nat, steps: int, net: string)
    requires e < e' && e' + 1 < 1000
    ensures LexLess(CheckpointName(e, steps, net), CheckpointName(e', steps, net))
  {
    EpochFieldOrder(e, e');
    LexLessSuffix(EpochField(e), EpochField(e'), NameTail(steps, net));
  }

  /** Every file of a run is one of its epochs' pair. */
  lemma {:induction false} InRunFiles(start: int, stop: int, steps: int, f: string)
    requires f in RunFiles(start, stop, steps)
    ensures exists e :: start <= e < stop && (f == CheckpointName(e, steps, "G") || f == CheckpointName(e, steps, "D"))
    decreases stop - start
  {
    if f !in EpochFiles(stop - 1, steps) {
      InRunFiles(start, stop - 1, steps, f);
    }
  }

  /** A name ends in its network suffix. */
  lemma NameSuffix(e: int, steps: int, net: string)
    requires |net| == 1
    ensures var n := CheckpointName(e, steps, net); |n| >= 6 && n[|n| - 6..] == "_" + net + ".pth"
  {
    hide EpochField, IntToString;
    var n := CheckpointName(e, steps, net);
    assert n == (EpochField(e) + "_" + IntToString(steps)) + ("_" + net + ".pth");
    EndsWithSuffix(EpochField(e) + "_" + IntToString(steps), "_" + net + ".pth");
  }

  lemma EndsWithSuffix(a: string, b: string)
    ensures (a + b)[|a + b| - |b|..] == b
  {
  }

  lemma MatchingMember(files: seq<string>, f: string)
    requires f in Matching(files)
    ensures f in files && MatchesDiscriminator(f)
  {
    var ms := Matching(files);
    var k :| 0 <= k < |ms| && ms[k] == f;
  }

  /** A generator checkpoint never matches the discriminator pattern. */
  lemma GeneratorNotMatching(e: int, steps: int)
    ensures !MatchesDiscriminator(CheckpointName(e, steps, "G"))
  {
    NameSuffix(e, steps, "G");
    assert "_G.pth" != "_D.pth" by {
      assert "_G.pth"[1] != "_D.pth"[1];
    }
  }

  /** The discriminator files of a run are the D names of its epochs. */
  lemma MatchingRunFiles(stop: nat, steps: int, f: string)
    requires f in Matching(RunFiles(0, stop, steps))
    ensures exists e :: 0 <= e < stop && f == CheckpointName(e, steps, "D")
  {
    MatchingMember(RunFiles(0, stop, steps), f);
    InRunFiles(0, stop, steps, f);
    var e :| 0 <= e < stop && (f == CheckpointName(e, steps, "G") || f == CheckpointName(e, steps, "D"));
    GeneratorNotMatching(e, steps);
  }

  lemma LatestDiscriminatorFile(stop: nat, steps: int)
    requires 1 <= stop < 1000
    ensures CheckpointName(stop - 1, steps, "D") in Matching(RunFiles(0, stop, steps))
  {
    hide *;
    var d := CheckpointName(stop - 1, steps, "D");
    LastOfRun(stop, steps);
    FirstCharOfName(stop - 1, steps, "D");
    NameSuffix(stop - 1, steps, "D");
    DiscriminatorPattern(d);
    MatchingKeeps(RunFiles(0, stop, steps), d);
  }

  /** The last epoch's discriminator file is among a run's files. */
  lemma LastOfRun(stop: nat, steps: int)
    requires 1 <= stop
    ensures CheckpointName(stop - 1, steps, "D") in RunFiles(0, stop, steps)
  {
    hide CheckpointName;
    assert RunFiles(0, stop, steps) == RunFiles(0, stop - 1, steps) + EpochFiles(stop - 1, steps);
    assert EpochFiles(stop - 1, steps)[1] == CheckpointName(stop - 1, steps, "D");
  }

  /** Names below epoch 1000 start with a digit, never a dot. */
  lemma FirstCharOfName(e: nat, steps: int, net: string)
    requires e + 1 < 1000
    ensures |CheckpointName(e, steps, net)| > 0 && CheckpointName(e, steps, net)[0] != '.'
  {
    hide EpochField, IntToString;
    EpochFieldDigits(e);
    assert CheckpointName(e, steps, net)[0] == EpochField(e)[0];
  }

  lemma DiscriminatorPattern(name: string)
    requires |name| >= 6 && name[|name| - 6..] == "_D.pth" && name[0] != '.'
    ensures MatchesDiscriminator(name)
  {
  }

  lemma MatchingKeeps(files: seq<string>, f: string)
    requires f in files && MatchesDiscriminator(f)
    ensures f in Matching(files)
  {
  }

  /** A member above every other member is the maximum. */
  lemma MaxOfGreatest(names: seq<string>, x: string)
    requires x in names
    requires forall y :: y in names && y != x ==> LexLess(y, x)
    ensures LexMax(names) == x
  {
    var m := LexMax(names);
    if m != x {
      var k :| 0 <= k < |names| && names[k] == x;
      assert LexLe(x, m);
      assert LexLess(m, x);
      LexTransitive(m, x, m);
      LexIrreflexive(m);
    }
  }

  /** After an uninterrupted run of `stop` epochs (fewer than 1000), `test`
      picks the stem of the last epoch. */
  lemma LatestOfRun(stop: nat, steps: int)
    requires 1 <= stop < 1000
    ensures LatestStem(RunFiles(0, stop, steps)) == Ok(Stem(CheckpointName(stop - 1, steps, "D")))
  {
    var ms := Matching(RunFiles(0, stop, steps));
    var last := CheckpointName(stop - 1, steps, "D");
    LatestDiscriminatorFile(stop, steps);
    forall y | y in ms && y != last
      ensures LexLess(y, last)
    {
      MatchingRunFiles(stop, steps, y);
      var e :| 0 <= e < stop && y == CheckpointName(e, steps, "D");
      if e < stop - 1 {
        CheckpointOrder(e, stop - 1, steps, "D");
      }
    }
    MaxOfGreatest(ms, last);
    assert |ms| > 0;
  }

  // ---------------------------------------------------------------------
  // sample images of test and DEMO
  // ---------------------------------------------------------------------

  /** The sample images `test` writes: at most four batches, each named
      after the stem, the dataset ('BP4D' when empty) and the batch number. */
  function TestSamples(stem: string, dataset: string, batches: nat): (names: seq<string>)
    ensures |names| == if batches < 4 then batches else 4
    ensures forall i :: 0 <= i < |names| ==>
      names[i] == stem + "_fake_val_" + (if dataset == "" then "BP4D" else dataset) + "_" + NatToString(i + 1) + ".jpg"
  {
    var ds := if dataset == "" then "BP4D" else dataset;
    var n := if batches < 4 then batches else 4;
    seq(n, i requires 0 <= i < n => stem + "_fake_val_" + ds + "_" + NatToString(i + 1) + ".jpg")
  }

  /** `re.sub('\D', '_', t)`: every non-digit replaced by an underscore. */
  function DigitsOnly(t: string): (r: string)
    ensures |r| == |t|
    ensures forall k :: 0 <= k < |r| ==> (IsDigit(t[k]) ==> r[k] == t[k]) && (!IsDigit(t[k]) ==> r[k] == '_')
  {
    seq(|t|, k requires 0 <= k < |t| => if IsDigit(t[k]) then t[k] else '_')
  }

  /** The sample image `DEMO` writes per batch, stamped with the clock
      reading `now` (a parameter: the clock is left out). */
  function DemoSample(stem: string, now: string): string
  {
    stem + "_fake_val_DEMO_" + DigitsOnly(now) + ".jpg"
  }

  /** A DEMO sample name splits into the stem's pieces, `fake`, `val`,
      `DEMO`, then one piece per digit run of the clock reading. */
  lemma DemoSampleKeepsStem(e: int, steps: int, now: string)
    ensures Stem(DemoSample(Stem(CheckpointName(e, steps, "D")), now)) == Stem(CheckpointName(e, steps, "D"))
  {
    hide EpochField, IntToString;
    StemOfCheckpoint(e, steps);
    var a := EpochField(e);
    var b := IntToString(steps);
    NoSeparatorInEpoch(e);
    NoSeparatorInNumeral(steps);
    var tail := "fake_val_DEMO_" + DigitsOnly(now) + ".jpg";
    assert DemoSample(a + "_" + b, now) == a + ['_'] + (b + ['_'] + tail);
    SplitHead(a, b + ['_'] + tail, '_');
    SplitHead(b, tail, '_');
    StemOfPieces(DemoSample(a + "_" + b, now), a, b, Split(tail, '_'));
  }
}

=== FILE: counting.dfy ===
/**
 * Powers and the "every d-th step" counting that both the generator update
 * cadence and the learning-rate decay use.
 */
module Counting {

  function Pow2(k: nat): (p: nat)
    ensures p >= 1
  {
    if k == 0 then 1 else 2 * Pow2(k - 1)
  }

  lemma {:induction false} Pow2Add(a: nat, b: nat)
    ensures Pow2(a + b) == Pow2(a) * Pow2(b)
    decreases a
  {
    if a > 0 {
      Pow2Add(a - 1, b);
    }
  }

  lemma MulPow2(m: nat, a: nat, b: nat)
    ensures m * Pow2(a + b) == (m * Pow2(a)) * Pow2(b)
  {
    Pow2Add(a, b);
    assert m * (Pow2(a) * Pow2(b)) == (m * Pow2(a)) * Pow2(b);
  }

  lemma MulDouble(m: nat, c: nat)
    requires c >= 1
    ensures m * Pow2(c) == 2 * (m * Pow2(c - 1))
  {
    assert Pow2(c) == 2 * Pow2(c - 1);
    assert m * (2 * Pow2(c - 1)) == 2 * (m * Pow2(c - 1));
  }

  /** Doubling the factor instead of the power. */
  lemma DoubleFactor(m: nat, c: nat)
    requires c >= 1
    ensures 2 * m * Pow2(c - 1) == m * Pow2(c)
  {
    MulDouble(m, c);
    assert 2 * m * Pow2(c - 1) == 2 * (m * Pow2(c - 1));
  }

  /** The floor of log2 n, `int(math.log(n, 2))` for the power-of-two
      sizes the networks are built for. */
  function Log2Floor(n: nat): nat
    requires n >= 1
  {
    if n == 1 then 0 else 1 + Log2Floor(n / 2)
  }

  lemma {:induction false} Log2FloorBounds(n: nat)
    requires n >= 1
    ensures Pow2(Log2Floor(n)) <= n < Pow2(Log2Floor(n) + 1)
  {
    if n > 1 {
      Log2FloorBounds(n / 2);
    }
  }

  lemma {:induction false} Log2FloorAtLeast(n: nat, k: nat)
    requires n >= Pow2(k)
    ensures Log2Floor(n) >= k
    decreases k
  {
    if k > 0 {
      Log2FloorAtLeast(n / 2, k - 1);
    }
  }

  lemma {:induction false} Log2FloorPow2(m: nat, k: nat)
    requires m >= 1
    ensures Log2Floor(m * Pow2(k)) == Log2Floor(m) + k
    decreases k
  {
    if k > 0 {
      MulDouble(m, k);
      assert (m * Pow2(k)) / 2 == m * Pow2(k - 1);
      MulAtLeast(m, Pow2(k - 1));
      Log2FloorPow2(m, k - 1);
    }
  }

  /** x divided by ten k times: a learning rate after k decays. */
  function Tenths(x: real, k: nat): real
  {
    if k == 0 then x else Tenths(x, k - 1) / 10.0
  }

  /** The test `(i + 1) % d == 0` the trainer uses for "the i-th (0-based)
      step closes a group of d". Python's `%` and Dafny's agree on whether the
      remainder is zero for either sign of d. */
  predicate Fires(i: int, d: int)
    requires d != 0
  {
    (i + 1) % d == 0
  }

  /** The number of i in [a, b) at which `Fires(i, d)` holds. */
  function FiresIn(a: int, b: int, d: int): nat
    requires d != 0
    decreases b - a
  {
    if b <= a then 0 else FiresIn(a, b - 1, d) + (if Fires(b - 1, d) then 1 else 0)
  }

  /** Counting over adjacent ranges adds up. */
  lemma {:induction false} FiresInSplit(a: int, b: int, c: int, d: int)
    requires d != 0 && a <= b <= c
    ensures FiresIn(a, c, d) == FiresIn(a, b, d) + FiresIn(b, c, d)
    decreases c - b
  {
    if c > b {
      FiresInSplit(a, b, c - 1, d);
    }
  }

  lemma DivStep(n: nat, d: nat)
    requires n >= 1 && d >= 1
    ensures n / d == (n - 1) / d + (if n % d == 0 then 1 else 0)
  {
    var q := (n - 1) / d;
    var r := (n - 1) % d;
    assert n - 1 == q * d + r && 0 <= r < d;
    if r == d - 1 {
      assert n == (q + 1) * d;
      DivUnique(n, d, q + 1, 0);
    } else {
      assert n == q * d + (r + 1);
      DivUnique(n, d, q, r + 1);
    }
  }

  lemma DivUnique(n: int, d: int, a: int, b: int)
    requires d > 0 && 0 <= b < d && n == a * d + b
    ensures n / d == a && n % d == b
  {
    var q := n / d;
    var r := n % d;
    assert n == q * d + r && 0 <= r < d;
    assert (a - q) * d == r - b by {
      assert a * d - q * d == (a - q) * d;
    }
    if a > q {
      MulAtLeast(a - q, d);
    } else if a < q {
      MulAtLeast(q - a, d);
    }
  }

  lemma {:induction false} MulAtLeast(x: nat, d: int)
    requires x >= 1 && d > 0
    ensures x * d >= d
    decreases x
  {
    if x > 1 {
      MulAtLeast(x - 1, d);
      assert x * d == (x - 1) * d + d;
    }
  }

  /** Of the indices 0 .. n-1, exactly `n / d` close a group of d. */
  lemma {:induction false} FiresInPrefix(n: nat, d: int)
    requires d > 0
    ensures FiresIn(0, n, d) == n / d
    decreases n
  {
    if n > 0 {
      FiresInPrefix(n - 1, d);
      DivStep(n, d);
    }
  }

  /** The sign of d does not matter. */
  lemma FiresNegated(i: int, d: int)
    requires d != 0
    ensures Fires(i, d) == Fires(i, -d)
  {
    var n := i + 1;
    if n % d == 0 {
      DivUnique(n, if d > 0 then d else -d, if d > 0 then n / d else -(n / d), 0);
    }
    if n % (-d) == 0 {
      DivUnique(n, if d > 0 then d else -d, if d > 0 then -(n / (-d)) else n / (-d), 0);
    }
  }

  // ---------------------------------------------------------------------
  // exact floors of real quotients
  // ---------------------------------------------------------------------

  function Pow2R(k: nat): real
  {
    Pow2(k) as real
  }

  /** `int(a / p)` and `(a / p) // 1` for a non-negative a and positive p:
      the real quotient's floor is the integer quotient. */
  lemma RealFloorIsDiv(a: nat, p: nat)
    requires p >= 1
    ensures ((a as real) / (p as real)).Floor == a / p
  {
    var q := a / p;
    var r := a % p;
    assert a == q * p + r;
    var x := (a as real) / (p as real);
    assert (a as real) == (q as real) * (p as real) + (r as real);
    assert x == (q as real) + (r as real) / (p as real);
    assert 0.0 <= (r as real) / (p as real) < 1.0;
  }

  lemma Pow2RAdd(a: nat, b: nat)
    ensures Pow2R(a + b) == Pow2R(a) * Pow2R(b)
  {
    Pow2Add(a, b);
  }

  /** Dividing by 2^a and then by 2^b is dividing by 2^(a+b). */
  lemma RealDivDiv(x: real, a: nat, b: nat)
    ensures x / Pow2R(a) / Pow2R(b) == x / Pow2R(a + b)
  {
    Pow2RAdd(a, b);
    DivDivReal(x, Pow2R(a), Pow2R(b));
  }

  lemma DivDivReal(x: real, p: real, q: real)
    requires p > 0.0 && q > 0.0
    ensures x / p / q == x / (p * q)
  {
    var y := x / p / q;
    assert y * q == x / p;
    assert y * q * p == x;
    assert y * (p * q) == x;
  }
}

=== FILE: discriminator.dfy ===
/**
 * The geometry of `Discriminator` and `MultiDiscriminator`: the stride-2
 * convolution stacks, the classifier kernel computed from the image size
 * (in floating point in the source, exact reals here), and the output
 * lists of `forward`. Spectral normalisation wraps a layer without
 * changing its shape and is left out.
 */
module Discriminators {
  import opened Wrappers
  import opened Layers
  import opened Counting

  datatype DiscConfig = DiscConfig(
    imageSize: nat,
    convDim: nat,
    repeatNum: nat,
    cDim: nat,
    colorDim: nat,
    multiDis: nat)

  datatype DiscError = LayerMismatch | ViewMismatch

  // ---------------------------------------------------------------------
  // Discriminator
  // ---------------------------------------------------------------------

  /** k stride-2 convolutions, each doubling the channels, with LeakyReLU. */
  function DownStack(width: nat, k: nat): seq<Layer>
    decreases k
  {
    if k == 0 then []
    else [Conv(width, 2 * width, 4, 2, 1), Activation(LeakyReLU)] + DownStack(2 * width, k - 1)
  }

  lemma {:induction false} DownStackWalk(width: nat, k: nat, m: nat)
    requires m >= 1
    ensures Walk(DownStack(width, k), Shape(width, m * Pow2(k))) == Some(Shape(width * Pow2(k), m))
    decreases k
  {
    if k > 0 {
      hide Pow2, Walk;
      var half := m * Pow2(k - 1);
      MulDouble(m, k);
      MulAtLeast(m, Pow2(k - 1));
      HalvingStage(width, LeakyReLU, half);
      WalkAppend([Conv(width, 2 * width, 4, 2, 1), Activation(LeakyReLU)], DownStack(2 * width, k - 1), Shape(width, 2 * half));
      DownStackWalk(2 * width, k - 1, m);
      DoubleFactor(width, k);
    }
  }

  /** A stack of `convs` halving convolutions from the image channels. */
  function Trunk(colorDim: nat, convDim: nat, convs: nat): seq<Layer>
  {
    if convs == 0 then []
    else [Conv(colorDim, convDim, 4, 2, 1), Activation(LeakyReLU)] + DownStack(convDim, convs - 1)
  }

  function TrunkWidth(convDim: nat, convs: nat): nat
  {
    if convs == 0 then convDim else convDim * Pow2(convs - 1)
  }

  /** The first convolution of a trunk halves the image side. */
  lemma FirstConvWalk(colorDim: nat, convDim: nat, c: nat, m: nat)
    requires m >= 1
    ensures Walk([Conv(colorDim, convDim, 4, 2, 1), Activation(LeakyReLU)], Shape(colorDim, m * Pow2(c + 1)))
         == Some(Shape(convDim, m * Pow2(c)))
  {
    var half := m * Pow2(c);
    MulDouble(m, c + 1);
    MulAtLeast(m, Pow2(c));
    HalvingConv(2 * half);
    WalkTwo(Conv(colorDim, convDim, 4, 2, 1), Activation(LeakyReLU), Shape(colorDim, 2 * half));
    WalkOne(Activation(LeakyReLU), Shape(convDim, half));
  }

  lemma TrunkWalk(colorDim: nat, convDim: nat, convs: nat, m: nat)
    requires m >= 1 && convs >= 1
    ensures Walk(Trunk(colorDim, convDim, convs), Shape(colorDim, m * Pow2(convs)))
         == Some(Shape(TrunkWidth(convDim, convs), m))
  {
    var c := convs - 1;
    var first := [Conv(colorDim, convDim, 4, 2, 1), Activation(LeakyReLU)];
    var x := Shape(colorDim, m * Pow2(c + 1));
    assert Trunk(colorDim, convDim, convs) == first + DownStack(convDim, c);
    FirstConvWalk(colorDim, convDim, c, m);
    WalkAppend(first, DownStack(convDim, c), x);
    DownStackWalk(convDim, c, m);
    assert Then(Walk(first, x), DownStack(convDim, c)) == Some(Shape(convDim * Pow2(c), m));
  }

  /** `Discriminator.main`: one convolution from the image, then
      repeat_num - 1 doubling ones (none when repeat_num <= 1). */
  function DiscConvs(repeatNum: nat): nat
  {
    if repeatNum <= 1 then 1 else repeatNum
  }

  /** `k_size = int(image_size / np.power(2, repeat_num))`. */
  function KSize(imageSize: nat, repeatNum: nat): int
  {
    ((imageSize as real) / Pow2R(repeatNum)).Floor
  }

  /** `squeeze()`: every axis of length one is dropped (a tensor of ones
      only becomes a scalar). */
  function Squeeze(dims: seq<nat>): (r: seq<nat>)
    ensures forall k :: 0 <= k < |r| ==> r[k] != 1
    ensures forall d :: d in dims && d != 1 ==> d in r
    ensures |r| <= |dims|
  {
    if |dims| == 0 then []
    else Kept(dims[0]) + Squeeze(dims[1..])
  }

  /** `out.squeeze()` of a (batch, 1, s, s) map followed by
      `view(batch, size(-2), size(-1))`: the squeezed tensor needs two
      trailing axes, and the view must keep the element count. */
  predicate MapViews(batch: nat, side: nat)
  {
    var d := Squeeze([batch, 1, side, side]);
    |d| >= 2 && batch * (d[|d| - 2] * d[|d| - 1]) == batch * (side * side)
  }

  /** `out.squeeze()` of a (batch, c, s, s) tensor followed by
      `view(batch, size(-1))`. */
  predicate RowViews(batch: nat, ch: nat, side: nat)
  {
    var d := Squeeze([batch, ch, side, side]);
    |d| >= 1 && batch * d[|d| - 1] == batch * (ch * (side * side))
  }

  /** `Discriminator.forward` on a batch of `batch` images of shape `x`:
      the real/fake map of `conv1` and the class vector of `conv2`, each
      in a one-element list, after their squeeze and view. */
  function Discriminate(cfg: DiscConfig, batch: nat, x: Shape): Result<(seq<Shape>, seq<nat>), DiscError>
  {
    var convs := DiscConvs(cfg.repeatNum);
    var top := TrunkWidth(cfg.convDim, convs);
    var k := KSize(cfg.imageSize, cfg.repeatNum);
    match Walk(Trunk(cfg.colorDim, cfg.convDim, convs), x)
    case None => Err(LayerMismatch)
    case Some(h) =>
      if k < 0 then Err(LayerMismatch)
      else
        match (Step(Conv(top, 1, 3, 1, 1), h), Step(Conv(top, cfg.cDim, k as nat, 1, 0), h))
        case (Some(src), Some(aux)) =>
          if MapViews(batch, src.side) && RowViews(batch, aux.ch, aux.side) then Ok(([src], [aux.ch]))
          else Err(ViewMismatch)
        case _ => Err(LayerMismatch)
  }

  /** One axis after `squeeze()`. */
  function Kept(d: nat): seq<nat>
  {
    if d == 1 then [] else [d]
  }

  lemma SqueezeFour(a: nat, b: nat, c: nat, d: nat)
    ensures Squeeze([a, b, c, d]) == Kept(a) + Kept(b) + Kept(c) + Kept(d)
  {
    assert [a, b, c, d][1..] == [b, c, d];
    assert [b, c, d][1..] == [c, d];
    assert [c, d][1..] == [d];
    assert [d][1..] == [];
    assert Squeeze([d]) == Kept(d);
    assert Squeeze([c, d]) == Kept(c) + Kept(d);
    assert Squeeze([b, c, d]) == Kept(b) + (Kept(c) + Kept(d));
  }

  /** The real/fake view holds exactly when the map is at least 2x2: a
      1x1 map squeezes to at most one axis. */
  lemma MapViewsIff(batch: nat, side: nat)
    requires batch >= 1 && side >= 1
    ensures MapViews(batch, side) <==> side >= 2
  {
    SqueezeFour(batch, 1, side, side);
  }

  /** The class view holds exactly when the map is 1x1 and c_dim is not
      one: with c_dim one the squeezed tensor is the batch axis alone (or
      a scalar at batch one), which cannot be viewed as (batch, 1). */
  lemma RowViewsIff(batch: nat, ch: nat, side: nat)
    requires batch >= 1 && side >= 1
    ensures RowViews(batch, ch, side) <==> side == 1 && ch != 1
  {
    SqueezeFour(batch, ch, side, side);
    if side == 1 && ch == 1 && batch >= 2 {
      MulSelfAbove(batch);
    } else if side >= 2 {
      WideRowOff(batch, ch, side);
    }
  }

  lemma MulSelfAbove(b: nat)
    requires b >= 2
    ensures b * b != b * 1
  {
    assert b * b >= 2 * b;
  }

  lemma WideRowOff(batch: nat, ch: nat, side: nat)
    requires batch >= 1 && side >= 2
    ensures batch * side != batch * (ch * (side * side))
  {
    if ch == 0 {
    } else {
      assert side * side >= 2 * side;
      assert ch * (side * side) >= side * side;
      assert batch * (ch * (side * side)) >= batch * (2 * side);
    }
  }

  /** For any batch, `forward` succeeds exactly when the trunk and both
      heads accept the input, the real/fake map is at least 2x2, the class
      map is 1x1 and c_dim is not one; the view failure is ViewMismatch. */
  lemma DiscriminateIff(cfg: DiscConfig, batch: nat, x: Shape)
    requires batch >= 1
    ensures var top := TrunkWidth(cfg.convDim, DiscConvs(cfg.repeatNum));
      var k := KSize(cfg.imageSize, cfg.repeatNum);
      var h := Walk(Trunk(cfg.colorDim, cfg.convDim, DiscConvs(cfg.repeatNum)), x);
      && (Discriminate(cfg, batch, x).Ok? <==>
            && h.Some? && k >= 0
            && Step(Conv(top, 1, 3, 1, 1), h.value).Some?
            && Step(Conv(top, cfg.cDim, k as nat, 1, 0), h.value).Some?
            && Step(Conv(top, 1, 3, 1, 1), h.value).value.side >= 2
            && Step(Conv(top, cfg.cDim, k as nat, 1, 0), h.value).value.side == 1
            && cfg.cDim != 1)
      && (Discriminate(cfg, batch, x).Err? && h.Some? && k >= 0
          && Step(Conv(top, 1, 3, 1, 1), h.value).Some?
          && Step(Conv(top, cfg.cDim, k as nat, 1, 0), h.value).Some?
          ==> Discriminate(cfg, batch, x) == Err(ViewMismatch))
  {
    var top := TrunkWidth(cfg.convDim, DiscConvs(cfg.repeatNum));
    var k := KSize(cfg.imageSize, cfg.repeatNum);
    var h := Walk(Trunk(cfg.colorDim, cfg.convDim, DiscConvs(cfg.repeatNum)), x);
    if h.Some? && k >= 0 {
      var src := Step(Conv(top, 1, 3, 1, 1), h.value);
      var aux := Step(Conv(top, cfg.cDim, k as nat, 1, 0), h.value);
      if src.Some? && aux.Some? {
        MapViewsIff(batch, src.value.side);
        RowViewsIff(batch, aux.value.ch, aux.value.side);
      }
    }
  }

  /** The classifier kernel collapses the map to 1x1 exactly when it equals
      the remaining side. */
  lemma CollapseIff(n: nat, k: nat)
    requires n >= 1
    ensures ConvSide(n, k, 1, 0) == Some(1) <==> k == n
  {
  }

  /** For an image side m * 2^repeat_num (repeat_num >= 1), k_size is
      exactly the side the stack leaves, so for m >= 2 and c_dim >= 2
      `forward` returns one m x m real/fake map and one c_dim class vector
      for every batch; for m == 1 or c_dim == 1 the squeeze and view fail. */
  lemma DiscriminatorGeometry(cfg: DiscConfig, batch: nat, m: nat)
    requires batch >= 1 && m >= 1 && cfg.repeatNum >= 1 && cfg.imageSize == m * Pow2(cfg.repeatNum)
    ensures m >= 2 && cfg.cDim >= 2 ==>
      Discriminate(cfg, batch, Shape(cfg.colorDim, cfg.imageSize)) == Ok(([Shape(1, m)], [cfg.cDim]))
    ensures m == 1 || cfg.cDim == 1 ==>
      Discriminate(cfg, batch, Shape(cfg.colorDim, cfg.imageSize)) == Err(ViewMismatch)
  {
    hide MapViews, RowViews, Walk, Trunk, KSize, TrunkWidth, Step;
    DiscriminatorHeads(cfg, m);
    MapViewsIff(batch, m);
    RowViewsIff(batch, cfg.cDim, 1);
  }

  /** The trunk leaves an m x m map, k_size is m, and the two heads give a
      1-channel m x m map and a c_dim-channel 1x1 map. */
  lemma DiscriminatorHeads(cfg: DiscConfig, m: nat)
    requires m >= 1 && cfg.repeatNum >= 1 && cfg.imageSize == m * Pow2(cfg.repeatNum)
    ensures var top := TrunkWidth(cfg.convDim, DiscConvs(cfg.repeatNum));
      && KSize(cfg.imageSize, cfg.repeatNum) == m
      && Walk(Trunk(cfg.colorDim, cfg.convDim, DiscConvs(cfg.repeatNum)), Shape(cfg.colorDim, cfg.imageSize)) == Some(Shape(top, m))
      && Step(Conv(top, 1, 3, 1, 1), Shape(top, m)) == Some(Shape(1, m))
      && Step(Conv(top, cfg.cDim, m, 1, 0), Shape(top, m)) == Some(Shape(cfg.cDim, 1))
  {
    var r := cfg.repeatNum;
    RealFloorIsDiv(cfg.imageSize, Pow2(r));
    DivUnique(cfg.imageSize, Pow2(r), m, 0);
    TrunkWalk(cfg.colorDim, cfg.convDim, DiscConvs(r), m);
    SameConv(m, 1);
    CollapsingConv(m);
  }

  /** Whatever the configuration and batch, a successful `forward` returns
      one map of side at least two and one c_dim vector. */
  lemma DiscriminatorOutputs(cfg: DiscConfig, batch: nat, x: Shape)
    requires batch >= 1 && Discriminate(cfg, batch, x).Ok?
    ensures var (srcs, auxes) := Discriminate(cfg, batch, x).value;
      |srcs| == 1 && srcs[0].ch == 1 && srcs[0].side >= 2 && auxes == [cfg.cDim] && cfg.cDim != 1
  {
    DiscriminateIff(cfg, batch, x);
  }

  // ---------------------------------------------------------------------
  // MultiDiscriminator
  // ---------------------------------------------------------------------

  /** The convolutions of one scale: one from the image, then
      repeat_num - 2 doubling ones (none when repeat_num <= 2). */
  function ScaleConvs(repeatNum: nat): nat
  {
    if repeatNum <= 2 then 1 else repeatNum - 1
  }

  /** `conv_size // 2` of `_make_net(idx)`: image_size / 2^idx, halved once
      per doubling convolution, then floor-halved. */
  function ScaleKernel(imageSize: nat, idx: nat, repeatNum: nat): int
  {
    var convSize := (imageSize as real) / Pow2R(idx) / Pow2R(ScaleConvs(repeatNum) - 1);
    (convSize / 2.0).Floor
  }

  /** The scale-idx classifier kernel is image_size / 2^(idx + repeat_num - 1)
      in integers (for repeat_num >= 2): the float arithmetic is exact here. */
  lemma ScaleKernelIsDiv(imageSize: nat, idx: nat, repeatNum: nat)
    requires repeatNum >= 2
    ensures ScaleKernel(imageSize, idx, repeatNum) == imageSize / Pow2(idx + repeatNum - 1)
  {
    var x := imageSize as real;
    RealDivDiv(x, idx, repeatNum - 2);
    assert 2.0 == Pow2R(1);
    RealDivDiv(x, idx + repeatNum - 2, 1);
    RealFloorIsDiv(imageSize, Pow2(idx + repeatNum - 1));
  }

  /** `self.downsample`: AvgPool2d(3, stride 2, padding 1). */
  function PoolSide(n: nat): Option<nat>
  {
    ConvSide(n, 3, 2, 1)
  }

  lemma HalvingPool(n: nat)
    requires n >= 1
    ensures PoolSide(2 * n) == Some(n)
  {
  }

  /** One scale: the main stack, the 3x3 source map, and the classifier
      flattened to (batch, -1). */
  function OneScale(cfg: DiscConfig, idx: nat, x: Shape): Result<(Shape, nat), DiscError>
  {
    var convs := ScaleConvs(cfg.repeatNum);
    var top := TrunkWidth(cfg.convDim, convs);
    var k := ScaleKernel(cfg.imageSize, idx, cfg.repeatNum);
    match Walk(Trunk(cfg.colorDim, cfg.convDim, convs), x)
    case None => Err(LayerMismatch)
    case Some(h) =>
      if k < 0 then Err(LayerMismatch)
      else
        match (Step(Conv(top, 1, 3, 1, 1), h), Step(Conv(top, cfg.cDim, k as nat, 1, 0), h))
        case (Some(src), Some(aux)) => Ok((src, aux.ch * aux.side * aux.side))
        case _ => Err(LayerMismatch)
  }

  /** `MultiDiscriminator.forward` from scale `idx` on, for `k` scales: each
      scale sees the input pooled once more than the previous one. */
  function Scales(cfg: DiscConfig, x: Shape, idx: nat, k: nat): Result<(seq<Shape>, seq<nat>), DiscError>
    decreases k
  {
    if k == 0 then Ok(([], []))
    else
      match OneScale(cfg, idx, x)
      case Err(e) => Err(e)
      case Ok((src, aux)) =>
        match PoolSide(x.side)
        case None => Err(LayerMismatch)
        case Some(side') =>
          match Scales(cfg, Shape(x.ch, side'), idx + 1, k - 1)
          case Err(e) => Err(e)
          case Ok((srcs, auxes)) => Ok(([src] + srcs, [aux] + auxes))
  }

  function MultiDiscriminate(cfg: DiscConfig, x: Shape): Result<(seq<Shape>, seq<nat>), DiscError>
  {
    Scales(cfg, x, 0, cfg.multiDis)
  }

  /** Both output lists have one entry per scale. */
  lemma {:induction false} ScalesLength(cfg: DiscConfig, x: Shape, idx: nat, k: nat)
    requires Scales(cfg, x, idx, k).Ok?
    ensures |Scales(cfg, x, idx, k).value.0| == k && |Scales(cfg, x, idx, k).value.1| == k
    decreases k
  {
    if k > 0 {
      var p := PoolSide(x.side).value;
      ScalesLength(cfg, Shape(x.ch, p), idx + 1, k - 1);
    }
  }

  lemma MultiOutputs(cfg: DiscConfig, x: Shape)
    requires MultiDiscriminate(cfg, x).Ok?
    ensures |MultiDiscriminate(cfg, x).value.0| == cfg.multiDis
    ensures |MultiDiscriminate(cfg, x).value.1| == cfg.multiDis
  {
    ScalesLength(cfg, x, 0, cfg.multiDis);
  }

  /** One scale of a side j * 2^(repeat_num - 1) image, with the image size
      j * 2^(idx + repeat_num - 1): its classifier collapses to 1x1. */
  lemma OneScaleGeometry(cfg: DiscConfig, idx: nat, j: nat)
    requires j >= 1 && cfg.repeatNum >= 2
    requires cfg.imageSize == j * Pow2(idx + cfg.repeatNum - 1)
    ensures OneScale(cfg, idx, Shape(cfg.colorDim, j * Pow2(cfg.repeatNum - 1))) == Ok((Shape(1, j), cfg.cDim))
  {
    ScaleKernelIsDiv(cfg.imageSize, idx, cfg.repeatNum);
    DivUnique(cfg.imageSize, Pow2(idx + cfg.repeatNum - 1), j, 0);
    TrunkWalk(cfg.colorDim, cfg.convDim, ScaleConvs(cfg.repeatNum), j);
    SameConv(j, 1);
    CollapsingConv(j);
  }

  /** The side bookkeeping of one step of the scale recursion. */
  lemma ScaleSides(m: nat, idx: nat, k: nat, rn: nat)
    requires k >= 1 && rn >= 2
    ensures var j := m * Pow2(k - 1);
      && m * Pow2(k + rn - 2) == j * Pow2(rn - 1)
      && m * Pow2(idx + k + rn - 2) == j * Pow2(idx + rn - 1)
      && m * Pow2(k + rn - 2) == 2 * (m * Pow2(k - 1 + rn - 2))
  {
    MulPow2(m, k - 1, rn - 1);
    MulPow2(m, k - 1, idx + rn - 1);
    MulDouble(m, k + rn - 2);
  }

  lemma {:induction false} ScalesGeometry(cfg: DiscConfig, m: nat, idx: nat, k: nat)
    requires m >= 1 && cfg.repeatNum >= 2
    requires cfg.imageSize == m * Pow2(idx + k + cfg.repeatNum - 2)
    ensures var r := Scales(cfg, Shape(cfg.colorDim, m * Pow2(k + cfg.repeatNum - 2)), idx, k);
      && r.Ok?
      && |r.value.1| == k
      && forall i :: 0 <= i < k ==> r.value.1[i] == cfg.cDim
    decreases k
  {
    hide OneScale, PoolSide, Pow2;
    if k > 0 {
      var rn := cfg.repeatNum;
      var j := m * Pow2(k - 1);
      var side := m * Pow2(k + rn - 2);
      var next := m * Pow2(k - 1 + rn - 2);
      ScaleSides(m, idx, k, rn);
      MulAtLeast(m, Pow2(k - 1));
      MulAtLeast(m, Pow2(k - 1 + rn - 2));
      OneScaleGeometry(cfg, idx, j);
      assert OneScale(cfg, idx, Shape(cfg.colorDim, side)) == Ok((Shape(1, j), cfg.cDim));
      HalvingPool(next);
      assert PoolSide(side) == Some(next);
      assert idx + 1 + (k - 1) + rn - 2 == idx + k + rn - 2;
      ScalesGeometry(cfg, m, idx + 1, k - 1);
      var rest := Scales(cfg, Shape(cfg.colorDim, next), idx + 1, k - 1);
      assert Scales(cfg, Shape(cfg.colorDim, side), idx, k).value.1 == [cfg.cDim] + rest.value.1;
    }
  }

  /** For an image side m * 2^(MultiDis + repeat_num - 2), scale idx uses
      the kernel image_size / 2^(idx + repeat_num - 1), which is exactly the
      side its stack leaves: every one of the MultiDis class outputs is a
      c_dim vector. */
  lemma MultiDiscriminatorGeometry(cfg: DiscConfig, m: nat)
    requires m >= 1 && cfg.repeatNum >= 2
    requires cfg.imageSize == m * Pow2(cfg.multiDis + cfg.repeatNum - 2)
    ensures var r := MultiDiscriminate(cfg, Shape(cfg.colorDim, cfg.imageSize));
      r.Ok? && r.value.1 == seq(cfg.multiDis, _ => cfg.cDim)
  {
    ScalesGeometry(cfg, m, 0, cfg.multiDis);
  }
}

=== FILE: forward.dfy ===
/**
 * `Generator.forward` on shapes: how the label and the style are
 * concatenated onto the input and onto the content map, which outputs are
 * returned under the Attention, AdaIn and plain heads, and what the
 * `CONTENT` and `JUST_CONTENT` flags add. Shapes are per sample (the batch
 * dimension is left out); the style tensor is described by its rank.
 */
module Forward {
  import opened Wrappers
  import opened Layers
  import opened Counting
  import opened Generator

  /** The `stochastic` argument: absent, a (batch, width) vector, a
      (batch, rows, len) map, or the (batch, ch, side, side) planes the
      DRITZ concatenation leaves behind. */
  datatype Style = NoStyle | Vector(width: nat) | Map(rows: nat, len: nat) | Planes(ch: nat, side: nat)

  /** The exceptions torch or Python raise on the way. */
  datatype GenError =
    | MissingStyle      // `stochastic` is None where it is used
    | StyleRank         // the style tensor has a rank the branch cannot use
    | LabelRank         // the label was already spread to planes and is reshaped again
    | NoContentModule   // `self.content` was never built
    | ContentUnbound    // `content` is returned but no branch computed it
    | ShapeMismatch     // a layer, a broadcast or a concatenation does not fit
    | ZeroDivision      // tiling a zero-length style

  datatype Output = Image(shape: Shape) | Mask(shape: Shape) | ContentMap(shape: Shape)

  /** `forward` returns the bare content tensor under JUST_CONTENT and a
      list otherwise. */
  datatype GenOut = ContentOnly(content: Shape) | Outputs(outs: seq<Output>)

  // ---------------------------------------------------------------------
  // broadcasting and tiling
  // ---------------------------------------------------------------------

  /** Broadcasting of one dimension: equal sizes, or one of them is 1. */
  function Broadcast(a: nat, b: nat): (r: Option<nat>)
    ensures r.Some? <==> a == b || a == 1 || b == 1
    ensures r.Some? ==> (r.value == a || r.value == b) && (a == 1 || r.value == a) && (b == 1 || r.value == b)
  {
    if a == b then Some(a) else if a == 1 then Some(b) else if b == 1 then Some(a) else None
  }

  function BroadcastShape(a: Shape, b: Shape): Option<Shape>
  {
    match (Broadcast(a.ch, b.ch), Broadcast(a.side, b.side))
    case (Some(c), Some(s)) => Some(Shape(c, s))
    case _ => None
  }

  /** `k` copies of `s` one after the other: torch's `repeat` along the last axis. */
  function Repeat<T>(s: seq<T>, k: nat): (r: seq<T>)
    ensures |r| == k * |s|
    decreases k
  {
    if k == 0 then [] else Repeat(s, k - 1) + s
  }

  lemma {:induction false} RepeatIndex<T>(s: seq<T>, k: nat, j: nat)
    requires j < k * |s|
    ensures |s| > 0 && Repeat(s, k)[j] == s[j % |s|]
    decreases k
  {
    var prev := Repeat(s, k - 1);
    if j < |prev| {
      RepeatIndex(s, k - 1, j);
    } else {
      assert j - |prev| < |s|;
      assert j == (k - 1) * |s| + (j - |prev|);
      DivUnique(j, |s|, k - 1, j - |prev|);
    }
  }

  /** The style tiling before concatenation: left alone when its length
      already equals the content width w, otherwise repeated `w // len`
      times. */
  function TileStyle<T>(s: seq<T>, w: nat): Result<seq<T>, GenError>
  {
    if |s| == w then Ok(s)
    else if |s| == 0 then Err(ZeroDivision)
    else Ok(Repeat(s, w / |s|))
  }

  /** The length the tiling produces, which is all the shape walk needs. */
  function TileLen(len: nat, w: nat): Result<nat, GenError>
  {
    if len == w then Ok(len)
    else if len == 0 then Err(ZeroDivision)
    else Ok(len * (w / len))
  }

  /** The tiled style is periodic in the original, and fits the content
      width exactly when the style length divides it. */
  lemma TileStyleFits<T>(s: seq<T>, w: nat)
    requires |s| > 0
    ensures TileStyle(s, w).Ok?
    ensures var t := TileStyle(s, w).value;
      && (|t| == w <==> w % |s| == 0)
      && (forall j :: 0 <= j < |t| ==> t[j] == s[j % |s|])
  {
    var t := TileStyle(s, w).value;
    if |s| == w {
      DivUnique(w, |s|, 1, 0);
      forall j | 0 <= j < |t|
        ensures t[j] == s[j % |s|]
      {
        DivUnique(j, |s|, 0, j);
      }
    } else {
      var k := w / |s|;
      assert w == k * |s| + w % |s|;
      forall j | 0 <= j < |t|
        ensures t[j] == s[j % |s|]
      {
        RepeatIndex(s, k, j);
      }
    }
  }

  /** TileLen is the length of the tiled sequence. */
  lemma TileLenOfTileStyle<T>(s: seq<T>, w: nat)
    ensures TileLen(|s|, w).Ok? == TileStyle(s, w).Ok?
    ensures TileStyle(s, w).Ok? ==> TileLen(|s|, w).value == |TileStyle(s, w).value|
  {
  }

  /** The Attention blend `m * x + (1 - m) * g`, element by element. */
  function Blend(m: seq<real>, x: seq<real>, g: seq<real>): (r: seq<real>)
    requires |m| == |x| == |g|
    ensures |r| == |m|
  {
    seq(|m|, k requires 0 <= k < |m| => m[k] * x[k] + (1.0 - m[k]) * g[k])
  }

  /** With the mask in [0, 1] every blended value lies between the input
      and the generated value; mask 1 keeps the input, mask 0 the
      generated image. */
  lemma BlendConvex(m: seq<real>, x: seq<real>, g: seq<real>, k: nat)
    requires |m| == |x| == |g| && k < |m|
    requires 0.0 <= m[k] <= 1.0
    ensures var v := Blend(m, x, g)[k];
      && (x[k] <= g[k] ==> x[k] <= v <= g[k])
      && (g[k] <= x[k] ==> g[k] <= v <= x[k])
      && (m[k] == 1.0 ==> v == x[k])
      && (m[k] == 0.0 ==> v == g[k])
  {
    var v := Blend(m, x, g)[k];
    var d := x[k] - g[k];
    assert v - g[k] == m[k] * d;
    assert x[k] - v == (1.0 - m[k]) * d;
    if d >= 0.0 {
      MulNonNegative(m[k], d);
      MulNonNegative(1.0 - m[k], d);
    } else {
      MulNonNegative(m[k], -d);
      MulNonNegative(1.0 - m[k], -d);
    }
  }

  lemma MulNonNegative(a: real, b: real)
    requires a >= 0.0 && b >= 0.0
    ensures a * b >= 0.0
  {
  }

  // ---------------------------------------------------------------------
  // forward
  // ---------------------------------------------------------------------

  /** What the first concatenation leaves: the input to the first module,
      whether the label was spread to planes, and the style as later code
      sees it. */
  datatype Start = Start(xcat: Shape, labelSpread: bool, style: Style)

  /** The first concatenation: the image alone under InterLabels or
      InterStyleConcatLabels, else image, label (and, under DRITZ, the style
      vector) spread over the image plane. */
  function Concat(f: Flags, x: Shape, labelW: nat, s: Style): Result<Start, GenError>
  {
    if f.interLabels || f.interStyleConcatLabels then Ok(Start(x, false, s))
    else if f.dritz then
      match s
      case NoStyle => Err(MissingStyle)
      case Vector(w) => Ok(Start(Shape(x.ch + labelW + w, x.side), true, Planes(w, x.side)))
      case _ => Err(StyleRank)
    else Ok(Start(Shape(x.ch + labelW, x.side), true, s))
  }

  /** A style map tiled to the content width, with its rows and length. */
  function TiledMap(s: Style, w: nat): Result<(nat, nat), GenError>
  {
    match s
    case NoStyle => Err(MissingStyle)
    case Map(rows, len) =>
      (match TileLen(len, w)
       case Err(e) => Err(e)
       case Ok(t) => Ok((rows, t)))
    case _ => Err(StyleRank)
  }

  /** The label channels appended to the content map: under
      InterStyleLabels the tiled style times the label, broadcast over the
      rows, otherwise the label alone. */
  function LabelOnContent(f: Flags, st: Start, labelW: nat, c: Shape): Result<Shape, GenError>
  {
    if f.interStyleLabels then
      if st.labelSpread then Err(LabelRank)
      else
        match TiledMap(st.style, c.side)
        case Err(e) => Err(e)
        case Ok((rows, t)) =>
          match Broadcast(rows, labelW)
          case None => Err(ShapeMismatch)
          case Some(ch) => if t == c.side || t == 1 then Ok(Shape(c.ch + ch, c.side)) else Err(ShapeMismatch)
    else Ok(Shape(c.ch + labelW, c.side))
  }

  /** The second concatenation, after the `content` module: returns the
      content map (when a branch computes it) and the input to `main`. */
  function Inject(net: GenNet, st: Start, labelW: nat): Result<(Option<Shape>, Shape), GenError>
  {
    var f := net.flags;
    if f.interStyleLabels || f.interLabels || f.drit then
      match net.content
      case None => Err(NoContentModule)
      case Some(cm) =>
        match Walk(cm, st.xcat)
        case None => Err(ShapeMismatch)
        case Some(c) =>
          if f.interStyleLabels || f.interLabels then
            match LabelOnContent(f, st, labelW, c)
            case Err(e) => Err(e)
            case Ok(y) =>
              if f.drit && !f.interStyleLabels then
                match TiledMap(st.style, c.side)
                case Err(e) => Err(e)
                case Ok((rows, t)) => if t == c.side then Ok((Some(c), Shape(y.ch + rows, c.side))) else Err(ShapeMismatch)
              else Ok((Some(c), y))
          else
            match st.style
            case NoStyle => Err(MissingStyle)
            case Map(rows, len) => if len == c.side then Ok((Some(c), Shape(c.ch + rows, c.side))) else Err(ShapeMismatch)
            case _ => Err(StyleRank)
    else Ok((None, st.xcat))
  }

  /** The head: Attention blends the generated image into the input through
      the mask and returns both; AdaIn and plain return one image. */
  function Heads(net: GenNet, x: Shape, y: Shape): Result<seq<Output>, GenError>
  {
    match Walk(net.main, y)
    case None => Err(ShapeMismatch)
    case Some(features) =>
      match net.head
      case PlainHead => Ok([Image(features)])
      case AdaInHead(image) =>
        (match Walk(image, features)
         case None => Err(ShapeMismatch)
         case Some(g) => Ok([Image(g)]))
      case AttentionHead(image, mask) =>
        match (Walk(image, features), Walk(mask, features))
        case (Some(g), Some(m)) =>
          (match (BroadcastShape(m, x), BroadcastShape(m, g))
           case (Some(mx), Some(mg)) =>
             (match BroadcastShape(mx, mg)
              case Some(blend) => Ok([Image(blend), Mask(m)])
              case None => Err(ShapeMismatch))
           case _ => Err(ShapeMismatch))
        case _ => Err(ShapeMismatch)
  }

  /** `Generator.forward(x, c, stochastic, CONTENT, JUST_CONTENT)` on shapes. */
  function Run(net: GenNet, x: Shape, labelW: nat, s: Style, withContent: bool, justContent: bool): Result<GenOut, GenError>
  {
    match Concat(net.flags, x, labelW, s)
    case Err(e) => Err(e)
    case Ok(st) =>
      match Inject(net, st, labelW)
      case Err(e) => Err(e)
      case Ok((content, y)) =>
        if justContent then
          (match content
           case None => Err(ContentUnbound)
           case Some(c) => Ok(ContentOnly(c)))
        else
          match Heads(net, x, y)
          case Err(e) => Err(e)
          case Ok(outs) =>
            if withContent then
              (match content
               case None => Err(ContentUnbound)
               case Some(c) => Ok(Outputs(outs + [ContentMap(c)])))
            else Ok(Outputs(outs))
  }

  /** The shape of what `forward` returns: under JUST_CONTENT the bare
      content map; otherwise the image first, the mask second exactly under
      Attention, and the content map last exactly under CONTENT. */
  lemma RunOutputs(net: GenNet, x: Shape, labelW: nat, s: Style, withContent: bool, justContent: bool)
    requires Run(net, x, labelW, s, withContent, justContent).Ok?
    ensures var r := Run(net, x, labelW, s, withContent, justContent).value;
      && (justContent <==> r.ContentOnly?)
      && (r.Outputs? ==>
            && |r.outs| == (if net.head.AttentionHead? then 2 else 1) + (if withContent then 1 else 0)
            && r.outs[0].Image?
            && (net.head.AttentionHead? ==> r.outs[1].Mask?)
            && (withContent <==> r.outs[|r.outs| - 1].ContentMap?))
  {
  }

  /** The content map exists only on the split branches: without
      InterLabels, InterStyleLabels or DRIT, CONTENT and JUST_CONTENT raise
      (`content` is unbound). */
  lemma ContentNeedsSplit(net: GenNet, x: Shape, labelW: nat, s: Style, withContent: bool, justContent: bool)
    requires !net.flags.interLabels && !net.flags.interStyleLabels && !net.flags.drit
    requires withContent || justContent
    ensures !Run(net, x, labelW, s, withContent, justContent).Ok?
    ensures Concat(net.flags, x, labelW, s).Ok? && (justContent || Heads(net, x, Concat(net.flags, x, labelW, s).value.xcat).Ok?)
        ==> Run(net, x, labelW, s, withContent, justContent) == Err(ContentUnbound)
  {
  }
}

/**
 * End to end: a Generator built from a configuration maps a
 * color_dim-channel image of the configured size to an image of the same
 * shape, provided the label and the style fit the split it was built with.
 */
module ForwardShape {
  import opened Wrappers
  import opened Layers
  import opened Counting
  import opened Generator
  import opened Forward

  /** What the label and style arguments must be for `forward` to run: the
      label has c_dim entries (checked by the caller); the style is a
      style_dim vector under DRITZ, and on the split branches a map whose
      injected channels add up to SplitExtra and whose tiled length matches
      the content side m. */
  predicate StyleFits(cfg: GenConfig, s: Style, m: nat)
  {
    var f := Resolve(cfg.options);
    && (!(f.interLabels || f.interStyleConcatLabels) && f.dritz ==> s == Vector(cfg.styleDim))
    && ((f.interLabels || f.interStyleLabels || f.drit) ==> cfg.repeatNum >= 2)
    && (f.interStyleLabels ==>
          && (f.interLabels || f.interStyleConcatLabels)
          && s.Map? && Broadcast(s.rows, cfg.cDim) == Some(cfg.cDim)
          && TileLen(s.len, m).Ok? && (TileLen(s.len, m).value == m || TileLen(s.len, m).value == 1))
    && (f.drit && f.interLabels ==> s.Map? && s.rows == cfg.cDim && TileLen(s.len, m) == Ok(m))
    && (f.drit && !f.interLabels ==> s == Map(cfg.cDim, m))
  }

  lemma {:induction false} BlocksWalk(f: Flags, n: nat, a: nat, b: nat, w: nat, side: nat)
    requires a <= b
    ensures Walk(Blocks(f, n, a, b, w), Shape(w, side)) == Some(Shape(w, side))
    decreases b - a
  {
    if a < b {
      assert Blocks(f, n, a, b, w)[1..] == Blocks(f, n, a + 1, b, w);
      BlocksWalk(f, n, a + 1, b, w, side);
    }
  }

  /** The stem keeps the side and sets conv_dim channels; the encoder then
      reaches the bottleneck shape. */
  lemma PrefixWalk(inDim: nat, convDim: nat, r: nat, m: nat)
    requires m >= 1
    ensures Walk(Stem(inDim, convDim) + Encoder(convDim, r), Shape(inDim, m * Pow2(r)))
         == Some(Shape(convDim * Pow2(r), m))
  {
    var sz := m * Pow2(r);
    MulAtLeast(m, Pow2(r));
    SameConv(sz, 3);
    WalkThree(Conv(inDim, convDim, 7, 1, 3), InstanceNorm(convDim), Activation(ReLU), Shape(inDim, sz));
    WalkTwo(InstanceNorm(convDim), Activation(ReLU), Shape(convDim, sz));
    WalkOne(Activation(ReLU), Shape(convDim, sz));
    WalkAppend(Stem(inDim, convDim), Encoder(convDim, r), Shape(inDim, sz));
    EncoderWalk(convDim, r, m);
  }

  lemma OutputConvWalk(inCh: nat, outCh: nat, act: Act, sz: nat)
    requires sz >= 1
    ensures Walk([Conv(inCh, outCh, 7, 1, 3), Activation(act)], Shape(inCh, sz)) == Some(Shape(outCh, sz))
  {
    SameConv(sz, 3);
    WalkTwo(Conv(inCh, outCh, 7, 1, 3), Activation(act), Shape(inCh, sz));
    WalkOne(Activation(act), Shape(outCh, sz));
  }

  /** From the bottleneck input onward: residual blocks, decoder and head. */
  lemma TailWalk(cfg: GenConfig, blocks: seq<Layer>, x0: Shape, width: nat, m: nat)
    requires m >= 1
    requires Walk(blocks, x0) == Some(Shape(width, m))
    ensures var f := Resolve(cfg.options);
      var r := ConvRepeat(cfg.imageSize);
      var top := Halve(width, r);
      var body := blocks + Decoder(width, r, f.adaIn);
      var image := [Conv(top, cfg.colorDim, 7, 1, 3), Activation(Tanh)];
      && Walk(body, x0) == Some(Shape(top, m * Pow2(r)))
      && Walk(body + image, x0) == Some(Shape(cfg.colorDim, m * Pow2(r)))
  {
    var f := Resolve(cfg.options);
    var r := ConvRepeat(cfg.imageSize);
    var top := Halve(width, r);
    var body := blocks + Decoder(width, r, f.adaIn);
    var image := [Conv(top, cfg.colorDim, 7, 1, 3), Activation(Tanh)];
    WalkAppend(blocks, Decoder(width, r, f.adaIn), x0);
    DecoderWalk(width, r, f.adaIn, m);
    WalkAppend(body, image, x0);
    MulAtLeast(m, Pow2(r));
    OutputConvWalk(top, cfg.colorDim, Tanh, m * Pow2(r));
  }

  /** The layers before the bottleneck. */
  function Prefix(cfg: GenConfig): seq<Layer>
  {
    Stem(InDim(Resolve(cfg.options), cfg), cfg.convDim) + Encoder(cfg.convDim, ConvRepeat(cfg.imageSize))
  }

  /** The bottleneck of a built network, in closed form. */
  function SpecTrunk(cfg: GenConfig): Trunk
  {
    TrunkSpec(Resolve(cfg.options), cfg.cDim, cfg.repeatNum, EncodedWidth(cfg), Prefix(cfg))
  }

  /** Channels entering the output convolutions. */
  function Top(cfg: GenConfig): nat
  {
    Halve(SpecTrunk(cfg).width, ConvRepeat(cfg.imageSize))
  }

  /** The outputs of a run that keeps the image shape. */
  function KeptShape(cfg: GenConfig): seq<Output>
  {
    [Image(Shape(cfg.colorDim, cfg.imageSize))]
      + (if Resolve(cfg.options).attention then [Mask(Shape(1, cfg.imageSize))] else [])
  }

  /** The parts of a built network in terms of the closed-form bottleneck. */
  lemma BuildParts(cfg: GenConfig)
    ensures var f := Resolve(cfg.options);
      var r := ConvRepeat(cfg.imageSize);
      var trunk := SpecTrunk(cfg);
      var body := trunk.layers + Decoder(trunk.width, r, f.adaIn);
      var top := Top(cfg);
      var image := [Conv(top, cfg.colorDim, 7, 1, 3), Activation(Tanh)];
      var net := Build(cfg);
      && net.flags == f
      && net.content == trunk.content
      && (f.attention ==> net.main == body && net.head == AttentionHead(image, [Conv(top, 1, 7, 1, 3), Activation(Sigmoid)]))
      && (!f.attention && f.adaIn ==> net.main == body && net.head == AdaInHead(image))
      && (!f.attention && !f.adaIn ==> net.main == body + image && net.head == PlainHead)
  {
    var f := Resolve(cfg.options);
    BottleneckMatchesSpec(f, cfg.cDim, cfg.repeatNum, EncodedWidth(cfg), Prefix(cfg));
  }

  /** The content module and the concatenations bring the input to `main`,
      and `main` walks it to the head's input (the finished image under the
      plain head). */
  lemma MainOfBuild(cfg: GenConfig, m: nat, s: Style) returns (y: Shape)
    requires m >= 1 && cfg.imageSize == m * Pow2(ConvRepeat(cfg.imageSize))
    requires StyleFits(cfg, s, m)
    ensures var f := Resolve(cfg.options);
      var x := Shape(cfg.colorDim, cfg.imageSize);
      var st := Concat(f, x, cfg.cDim, s);
      && st.Ok?
      && Inject(Build(cfg), st.value, cfg.cDim).Ok?
      && Inject(Build(cfg), st.value, cfg.cDim).value.1 == y
      && Walk(Build(cfg).main, y) == Some(if f.attention || f.adaIn then Shape(Top(cfg), cfg.imageSize) else x)
  {
    hide Build, Walk, Pow2, Encoder, Decoder, Blocks, BottleneckLoop;
    var f := Resolve(cfg.options);
    var r := ConvRepeat(cfg.imageSize);
    var n := cfg.repeatNum;
    var d := EncodedWidth(cfg);
    var sz := cfg.imageSize;
    var x := Shape(cfg.colorDim, sz);
    var inDim := InDim(f, cfg);
    var prefix := Prefix(cfg);
    var trunk := SpecTrunk(cfg);
    var net := Build(cfg);
    BuildParts(cfg);
    MulAtLeast(m, Pow2(r));
    PrefixWalk(inDim, cfg.convDim, r, m);
    var st := Concat(f, x, cfg.cDim, s);
    assert st.Ok? && st.value.xcat == Shape(inDim, sz);
    if Splits(f, n) {
      var wide := d + SplitExtra(f, cfg.cDim);
      var cm := prefix + Blocks(f, n, 0, n / 2, d);
      assert net.content == Some(cm);
      WalkAppend(prefix, Blocks(f, n, 0, n / 2, d), Shape(inDim, sz));
      BlocksWalk(f, n, 0, n / 2, d, m);
      assert Walk(cm, Shape(inDim, sz)) == Some(Shape(d, m));
      y := Shape(wide, m);
      assert Inject(net, st.value, cfg.cDim) == Ok((Some(Shape(d, m)), y));
      BlocksWalk(f, n, n / 2, n, wide, m);
      TailWalk(cfg, trunk.layers, y, wide, m);
    } else {
      y := Shape(inDim, sz);
      assert Inject(net, st.value, cfg.cDim) == Ok((None, y));
      WalkAppend(prefix, Blocks(f, n, 0, n, d), y);
      BlocksWalk(f, n, 0, n, d, m);
      TailWalk(cfg, trunk.layers, y, d, m);
    }
  }

  /** The head turns the features into the kept-shape outputs. */
  lemma HeadsOfBuild(cfg: GenConfig, y: Shape)
    requires cfg.imageSize >= 1
    requires var f := Resolve(cfg.options);
      Walk(Build(cfg).main, y)
      == Some(if f.attention || f.adaIn then Shape(Top(cfg), cfg.imageSize) else Shape(cfg.colorDim, cfg.imageSize))
    ensures Heads(Build(cfg), Shape(cfg.colorDim, cfg.imageSize), y) == Ok(KeptShape(cfg))
  {
    var f := Resolve(cfg.options);
    var sz := cfg.imageSize;
    var x := Shape(cfg.colorDim, sz);
    var top := Top(cfg);
    var net := Build(cfg);
    BuildParts(cfg);
    if f.attention {
      var image := [Conv(top, cfg.colorDim, 7, 1, 3), Activation(Tanh)];
      var mask := [Conv(top, 1, 7, 1, 3), Activation(Sigmoid)];
      OutputConvWalk(top, cfg.colorDim, Tanh, sz);
      OutputConvWalk(top, 1, Sigmoid, sz);
      assert net.head == AttentionHead(image, mask);
      assert BroadcastShape(Shape(1, sz), x) == Some(x);
      assert BroadcastShape(x, x) == Some(x);
      assert KeptShape(cfg) == [Image(x), Mask(Shape(1, sz))];
    } else if f.adaIn {
      OutputConvWalk(top, cfg.colorDim, Tanh, sz);
      assert KeptShape(cfg) == [Image(x)];
    } else {
      assert KeptShape(cfg) == [Image(x)];
    }
  }

  /** A built Generator maps a color_dim-channel image of the configured
      size to the same shape (and, under Attention, a one-channel mask of
      that size), whenever the image size is a multiple m of 2^conv_repeat
      and the style fits. */
  lemma GeneratorKeepsImageShape(cfg: GenConfig, m: nat, s: Style)
    requires m >= 1 && cfg.imageSize == m * Pow2(ConvRepeat(cfg.imageSize))
    requires StyleFits(cfg, s, m)
    ensures Run(Build(cfg), Shape(cfg.colorDim, cfg.imageSize), cfg.cDim, s, false, false)
         == Ok(Outputs(KeptShape(cfg)))
  {
    MulAtLeast(m, Pow2(ConvRepeat(cfg.imageSize)));
    var y := MainOfBuild(cfg, m, s);
    HeadsOfBuild(cfg, y);
  }

  /** The converse on the split branches: when the label and style inject
      any other number of channels than SplitExtra, the first residual block
      after the split rejects the input and `forward` raises. */
  lemma MisfitStyleRaises(cfg: GenConfig, s: Style)
    requires Splits(Resolve(cfg.options), cfg.repeatNum)
    requires var x := Shape(cfg.colorDim, cfg.imageSize);
      var st := Concat(Resolve(cfg.options), x, cfg.cDim, s);
      && st.Ok?
      && Inject(Build(cfg), st.value, cfg.cDim).Ok?
      && Inject(Build(cfg), st.value, cfg.cDim).value.1.ch != EncodedWidth(cfg) + SplitExtra(Resolve(cfg.options), cfg.cDim)
    ensures Run(Build(cfg), Shape(cfg.colorDim, cfg.imageSize), cfg.cDim, s, false, false) == Err(ShapeMismatch)
  {
    var f := Resolve(cfg.options);
    var n := cfg.repeatNum;
    var wide := EncodedWidth(cfg) + SplitExtra(f, cfg.cDim);
    BuildParts(cfg);
    var main := Build(cfg).main;
    assert main[0] == Blocks(f, n, n / 2, n, wide)[0];
    var y := Inject(Build(cfg), Concat(f, Shape(cfg.colorDim, cfg.imageSize), cfg.cDim, s).value, cfg.cDim).value.1;
    assert Walk(main, y) == None;
  }
}

=== FILE: generator.dfy ===
/**
 * The encoder-bottleneck-decoder Generator of model.py: how the option set
 * becomes flags, the layer list `__init__` builds from them, and what
 * `forward` concatenates and returns. Tensors are abstracted to shapes
 * (module Layers); the convolutions themselves are not modelled.
 */
module Generator {
  import opened Wrappers
  import opened Layers
  import opened Counting

  /** The configuration fields the Generator reads; `options` is `GAN_options`. */
  datatype GenConfig = GenConfig(
    convDim: nat,
    repeatNum: nat,
    imageSize: nat,
    cDim: nat,
    colorDim: nat,
    styleDim: nat,
    options: set<string>)

  /** The flags `__init__` derives from the options. */
  datatype Flags = Flags(
    attention: bool,
    interLabels: bool,
    interStyleLabels: bool,
    interStyleConcatLabels: bool,
    styleGen: bool,
    drit: bool,
    dritz: bool,
    adaIn: bool,
    adaIn2: bool)

  /** Flag resolution with its silent precedences: InterStyleLabels switches
      DRIT and DRITZ off, and the raw "DRIT" option switches AdaIn and AdaIn2
      off whether or not the DRIT flag survived. */
  function Resolve(options: set<string>): (f: Flags)
    ensures f.interStyleLabels ==> !f.drit && !f.dritz
    ensures "DRIT" in options ==> !f.adaIn && !f.adaIn2
    ensures f.drit ==> !f.adaIn && !f.adaIn2
    ensures f.drit ==> "DRIT" in options
    ensures f.dritz ==> "DRITZ" in options
    ensures f.adaIn ==> "AdaIn" in options
    ensures f.adaIn2 ==> "AdaIn2" in options
  {
    var isl := "InterStyleLabels" in options;
    Flags(
      attention := "Attention" in options,
      interLabels := "InterLabels" in options,
      interStyleLabels := isl,
      interStyleConcatLabels := "InterStyleConcatLabels" in options,
      styleGen := "style_gen" in options,
      drit := "DRIT" in options && !isl,
      dritz := "DRITZ" in options && !isl,
      adaIn := "AdaIn" in options && "DRIT" !in options,
      adaIn2 := "AdaIn2" in options && "DRIT" !in options)
  }

  /** Channels of the first convolution's input. */
  function InDim(f: Flags, cfg: GenConfig): nat
  {
    if f.interLabels || f.interStyleConcatLabels then cfg.colorDim
    else if f.dritz then cfg.colorDim + cfg.cDim + cfg.styleDim
    else cfg.colorDim + cfg.cDim
  }

  // ---------------------------------------------------------------------
  // depth
  // ---------------------------------------------------------------------

  /** The number of down-sampling (and up-sampling) stages, with
      `int(math.log(n, 2))` read as floor(log2 n). */
  function ConvRepeat(imageSize: nat): (r: nat)
    ensures imageSize <= 64 ==> r == 2
    ensures imageSize > 64 ==> r >= 1 && Pow2(r + 5) <= imageSize < Pow2(r + 6)
  {
    if imageSize > 64 then
      Log2FloorAtLeast(imageSize, 6);
      Log2FloorBounds(imageSize);
      Log2Floor(imageSize) - 5
    else 2
  }

  // ---------------------------------------------------------------------
  // encoder and decoder
  // ---------------------------------------------------------------------

  /** One down-sampling stage: a stride-2 convolution doubling the channels. */
  function EncoderStage(width: nat): seq<Layer>
  {
    [Conv(width, 2 * width, 4, 2, 1), InstanceNorm(2 * width), Activation(ReLU)]
  }

  /** `conv_repeat` down-sampling stages. */
  function Encoder(width: nat, k: nat): seq<Layer>
    decreases k
  {
    if k == 0 then [] else EncoderStage(width) + Encoder(2 * width, k - 1)
  }

  /** One up-sampling stage: a transposed convolution floor-halving the
      channels; its InstanceNorm is left out under AdaIn. */
  function DecoderStage(width: nat, adaIn: bool): seq<Layer>
  {
    if adaIn then [ConvTranspose(width, width / 2, 4, 2, 1), Activation(ReLU)]
    else [ConvTranspose(width, width / 2, 4, 2, 1), InstanceNorm(width / 2), Activation(ReLU)]
  }

  /** `conv_repeat` up-sampling stages. */
  function Decoder(width: nat, k: nat, adaIn: bool): seq<Layer>
    decreases k
  {
    if k == 0 then [] else DecoderStage(width, adaIn) + Decoder(width / 2, k - 1, adaIn)
  }

  /** The channel count after k floor-halvings. */
  function Halve(width: nat, k: nat): nat
    decreases k
  {
    if k == 0 then width else Halve(width / 2, k - 1)
  }

  lemma HalfDiv(w: nat, p: nat)
    requires p >= 1
    ensures w / 2 / p == w / (2 * p)
  {
    var q := w / 2;
    var r := w % 2;
    var q2 := q / p;
    var r2 := q % p;
    assert w == 2 * q + r;
    assert q == q2 * p + r2;
    assert w == q2 * (2 * p) + (2 * r2 + r);
    DivUnique(w, 2 * p, q2, 2 * r2 + r);
  }

  /** Floor-halving k times is floor division by 2^k. */
  lemma {:induction false} HalveIsDivision(width: nat, k: nat)
    ensures Halve(width, k) == width / Pow2(k)
    decreases k
  {
    if k > 0 {
      HalveIsDivision(width / 2, k - 1);
      HalfDiv(width, Pow2(k - 1));
    }
  }

  function NormCount(ls: seq<Layer>): nat
  {
    if |ls| == 0 then 0 else (if ls[0].InstanceNorm? then 1 else 0) + NormCount(ls[1..])
  }

  lemma {:induction false} NormCountAppend(a: seq<Layer>, b: seq<Layer>)
    ensures NormCount(a + b) == NormCount(a) + NormCount(b)
    decreases |a|
  {
    if |a| == 0 {
      assert a + b == b;
    } else {
      NormCountAppend(a[1..], b);
      assert (a + b)[1..] == a[1..] + b;
    }
  }

  lemma StageNorms(width: nat, adaIn: bool)
    ensures NormCount(DecoderStage(width, adaIn)) == if adaIn then 0 else 1
  {
    var st := DecoderStage(width, adaIn);
    if adaIn {
      assert st[1..][1..] == [];
      assert NormCount(st[1..]) == 0;
    } else {
      assert st[1..][1..][1..] == [];
      assert NormCount(st[1..][1..]) == 0;
      assert NormCount(st[1..]) == 1;
    }
  }

  /** The decoder carries one InstanceNorm per stage, and none under AdaIn. */
  lemma {:induction false} DecoderNorms(width: nat, k: nat, adaIn: bool)
    ensures NormCount(Decoder(width, k, adaIn)) == if adaIn then 0 else k
    decreases k
  {
    if k > 0 {
      DecoderNorms(width / 2, k - 1, adaIn);
      NormCountAppend(DecoderStage(width, adaIn), Decoder(width / 2, k - 1, adaIn));
      StageNorms(width, adaIn);
    }
  }

  /** The encoder doubles the channels and halves the side k times. */
  lemma {:induction false} EncoderWalk(width: nat, k: nat, m: nat)
    requires m >= 1
    ensures Walk(Encoder(width, k), Shape(width, m * Pow2(k))) == Some(Shape(width * Pow2(k), m))
    decreases k
  {
    if k > 0 {
      var n := m * Pow2(k);
      var half := m * Pow2(k - 1);
      assert n == 2 * half;
      assert half >= 1 by {
        MulAtLeast(m, Pow2(k - 1));
      }
      HalvingConv(n);
      var x := Shape(width, n);
      WalkThree(Conv(width, 2 * width, 4, 2, 1), InstanceNorm(2 * width), Activation(ReLU), x);
      WalkTwo(InstanceNorm(2 * width), Activation(ReLU), Shape(2 * width, half));
      WalkOne(Activation(ReLU), Shape(2 * width, half));
      assert Walk(EncoderStage(width), x) == Some(Shape(2 * width, half));
      WalkAppend(EncoderStage(width), Encoder(2 * width, k - 1), x);
      EncoderWalk(2 * width, k - 1, m);
      assert 2 * width * Pow2(k - 1) == width * Pow2(k);
    }
  }

  lemma DecoderStageWalk(width: nat, adaIn: bool, n: nat)
    requires n >= 1
    ensures Walk(DecoderStage(width, adaIn), Shape(width, n)) == Some(Shape(width / 2, 2 * n))
  {
    DoublingConvTranspose(n);
    var y := Shape(width / 2, 2 * n);
    WalkOne(Activation(ReLU), y);
    if adaIn {
      WalkTwo(ConvTranspose(width, width / 2, 4, 2, 1), Activation(ReLU), Shape(width, n));
    } else {
      WalkThree(ConvTranspose(width, width / 2, 4, 2, 1), InstanceNorm(width / 2), Activation(ReLU), Shape(width, n));
      WalkTwo(InstanceNorm(width / 2), Activation(ReLU), y);
    }
  }

  /** The decoder floor-halves the channels and doubles the side k times. */
  lemma {:induction false} DecoderWalk(width: nat, k: nat, adaIn: bool, n: nat)
    requires n >= 1
    ensures Walk(Decoder(width, k, adaIn), Shape(width, n)) == Some(Shape(Halve(width, k), n * Pow2(k)))
    decreases k
  {
    if k > 0 {
      DecoderStageWalk(width, adaIn, n);
      WalkAppend(DecoderStage(width, adaIn), Decoder(width / 2, k - 1, adaIn), Shape(width, n));
      DecoderWalk(width / 2, k - 1, adaIn, 2 * n);
      assert 2 * n * Pow2(k - 1) == n * Pow2(k);
    }
  }

  // ---------------------------------------------------------------------
  // bottleneck
  // ---------------------------------------------------------------------

  /** What the bottleneck loop leaves behind: the `content` module if it
      split, the layers still being collected, and the current width. */
  datatype Trunk = Trunk(content: Option<seq<Layer>>, layers: seq<Layer>, width: nat)

  /** The residual-block loop of `__init__`, step by step: `i` is the loop
      index, `adaRes` the running `AdaIn_res` flag. */
  function BottleneckLoop(
    f: Flags, cDim: nat, repeatNum: nat, i: nat,
    width: nat, adaRes: bool, layers: seq<Layer>, content: Option<seq<Layer>>): Trunk
    requires i <= repeatNum
    decreases repeatNum - i
  {
    if i == repeatNum then Trunk(content, layers, width)
    else
      var layers' := layers + [Residual(width, adaRes)];
      var atMid := i == repeatNum / 2 - 1;
      var adaRes' := if atMid && f.adaIn then true else adaRes;
      if atMid && (f.interLabels || f.drit || f.interStyleLabels) then
        var width' := width + cDim + (if f.interLabels && f.drit && !f.interStyleLabels then cDim else 0);
        BottleneckLoop(f, cDim, repeatNum, i + 1, width', adaRes', [], Some(layers'))
      else
        BottleneckLoop(f, cDim, repeatNum, i + 1, width, adaRes', layers', content)
  }

  /** Index of the block after which the bottleneck splits. */
  function Mid(repeatNum: nat): int { repeatNum / 2 - 1 }

  /** Whether the layers are split into a `content` module. */
  predicate Splits(f: Flags, repeatNum: nat)
  {
    repeatNum >= 2 && (f.interLabels || f.drit || f.interStyleLabels)
  }

  /** Channels added at the split. */
  function SplitExtra(f: Flags, cDim: nat): nat
  {
    if f.interLabels && f.drit && !f.interStyleLabels then 2 * cDim else cDim
  }

  /** Whether residual block k uses AdaIN: under AdaIn2 always, under AdaIn
      after the middle block — when there is one, since with fewer than two
      blocks the index repeat_num/2-1 is never reached. */
  predicate BlockAdaIn(f: Flags, repeatNum: nat, k: int)
  {
    f.adaIn2 || (f.adaIn && 0 <= Mid(repeatNum) < k)
  }

  /** Residual blocks a .. b-1 of the bottleneck, all of the given width. */
  function Blocks(f: Flags, repeatNum: nat, a: nat, b: nat, width: nat): (r: seq<Layer>)
    requires a <= b
    ensures |r| == b - a
  {
    seq(b - a, j => Residual(width, BlockAdaIn(f, repeatNum, a + j)))
  }

  /** The bottleneck in closed form. */
  function TrunkSpec(f: Flags, cDim: nat, repeatNum: nat, width: nat, prefix: seq<Layer>): Trunk
  {
    if Splits(f, repeatNum) then
      var wide := width + SplitExtra(f, cDim);
      Trunk(Some(prefix + Blocks(f, repeatNum, 0, repeatNum / 2, width)),
            Blocks(f, repeatNum, repeatNum / 2, repeatNum, wide), wide)
    else Trunk(None, prefix + Blocks(f, repeatNum, 0, repeatNum, width), width)
  }

  lemma BlocksSnoc(f: Flags, repeatNum: nat, a: nat, i: nat, width: nat)
    requires a <= i
    ensures Blocks(f, repeatNum, a, i, width) + [Residual(width, BlockAdaIn(f, repeatNum, i))]
         == Blocks(f, repeatNum, a, i + 1, width)
  {
  }

  /** The loop state after i blocks, in closed form. */
  predicate AfterSplit(f: Flags, repeatNum: nat, i: nat)
  {
    Splits(f, repeatNum) && i > Mid(repeatNum)
  }

  lemma {:induction false} BottleneckLoopFrom(f: Flags, cDim: nat, repeatNum: nat, i: nat, width: nat, prefix: seq<Layer>)
    requires i <= repeatNum
    ensures var wide := width + SplitExtra(f, cDim);
      BottleneckLoop(f, cDim, repeatNum, i,
        if AfterSplit(f, repeatNum, i) then wide else width,
        BlockAdaIn(f, repeatNum, i),
        if AfterSplit(f, repeatNum, i) then Blocks(f, repeatNum, repeatNum / 2, i, wide)
        else prefix + Blocks(f, repeatNum, 0, i, width),
        if AfterSplit(f, repeatNum, i) then Some(prefix + Blocks(f, repeatNum, 0, repeatNum / 2, width)) else None)
      == TrunkSpec(f, cDim, repeatNum, width, prefix)
    decreases repeatNum - i
  {
    var wide := width + SplitExtra(f, cDim);
    var after := AfterSplit(f, repeatNum, i);
    if i < repeatNum {
      var w := if after then wide else width;
      var ls := if after then Blocks(f, repeatNum, repeatNum / 2, i, wide) else prefix + Blocks(f, repeatNum, 0, i, width);
      var ada := BlockAdaIn(f, repeatNum, i);
      var atMid := i == repeatNum / 2 - 1;
      var ls' := ls + [Residual(w, ada)];
      assert (if atMid && f.adaIn then true else ada) == BlockAdaIn(f, repeatNum, i + 1);
      if atMid && (f.interLabels || f.drit || f.interStyleLabels) {
        BlocksSnoc(f, repeatNum, 0, i, width);
        assert ls' == prefix + Blocks(f, repeatNum, 0, repeatNum / 2, width);
        assert Blocks(f, repeatNum, repeatNum / 2, i + 1, wide) == [];
      } else if after {
        BlocksSnoc(f, repeatNum, repeatNum / 2, i, wide);
      } else {
        BlocksSnoc(f, repeatNum, 0, i, width);
        assert prefix + Blocks(f, repeatNum, 0, i, width) + [Residual(width, ada)]
            == prefix + Blocks(f, repeatNum, 0, i + 1, width);
      }
      BottleneckLoopFrom(f, cDim, repeatNum, i + 1, width, prefix);
    }
  }

  /** The residual-block loop builds exactly the closed form: repeat_num
      blocks; block k uses AdaIN iff AdaIn2, or AdaIn and k > repeat_num/2-1;
      with InterLabels, DRIT or InterStyleLabels and at least two blocks, the
      layers up to block repeat_num/2-1 become `content` and the remaining
      blocks are c_dim wider (2 c_dim for InterLabels with DRIT). */
  lemma BottleneckMatchesSpec(f: Flags, cDim: nat, repeatNum: nat, width: nat, prefix: seq<Layer>)
    ensures BottleneckLoop(f, cDim, repeatNum, 0, width, f.adaIn2, prefix, None)
         == TrunkSpec(f, cDim, repeatNum, width, prefix)
  {
    assert Blocks(f, repeatNum, 0, 0, width) == [];
    assert prefix + [] == prefix;
    assert BlockAdaIn(f, repeatNum, 0) == f.adaIn2;
    BottleneckLoopFrom(f, cDim, repeatNum, 0, width, prefix);
  }

  // ---------------------------------------------------------------------
  // the whole network
  // ---------------------------------------------------------------------

  /** Which output head was built, with its layers; under PlainHead the
      image convolution is the tail of `main`. */
  datatype Head = PlainHead | AttentionHead(image: seq<Layer>, mask: seq<Layer>) | AdaInHead(image: seq<Layer>)

  /** The registered modules of a built Generator, in registration order. */
  datatype GenNet = GenNet(flags: Flags, inDim: nat, content: Option<seq<Layer>>, main: seq<Layer>, head: Head)

  /** The width after the stem and the encoder. */
  function EncodedWidth(cfg: GenConfig): nat
  {
    cfg.convDim * Pow2(ConvRepeat(cfg.imageSize))
  }

  function Stem(inDim: nat, convDim: nat): seq<Layer>
  {
    [Conv(inDim, convDim, 7, 1, 3), InstanceNorm(convDim), Activation(ReLU)]
  }

  /** `Generator.__init__`. */
  function Build(cfg: GenConfig): GenNet
  {
    var f := Resolve(cfg.options);
    var inDim := InDim(f, cfg);
    var r := ConvRepeat(cfg.imageSize);
    var trunk := BottleneckLoop(f, cfg.cDim, cfg.repeatNum, 0, EncodedWidth(cfg), f.adaIn2,
                                Stem(inDim, cfg.convDim) + Encoder(cfg.convDim, r), None);
    var top := Halve(trunk.width, r);
    var body := trunk.layers + Decoder(trunk.width, r, f.adaIn);
    var image := [Conv(top, cfg.colorDim, 7, 1, 3), Activation(Tanh)];
    if f.attention then
      GenNet(f, inDim, trunk.content, body, AttentionHead(image, [Conv(top, 1, 7, 1, 3), Activation(Sigmoid)]))
    else if f.adaIn then
      GenNet(f, inDim, trunk.content, body, AdaInHead(image))
    else
      GenNet(f, inDim, trunk.content, body + image, PlainHead)
  }

  function ResidualsOf(ls: seq<Layer>): seq<Layer>
  {
    if |ls| == 0 then [] else ResidualIf(ls[0]) + ResidualsOf(ls[1..])
  }

  function ResidualIf(l: Layer): seq<Layer>
  {
    if l.Residual? then [l] else []
  }

  lemma {:induction false} ResidualsOfAppend(a: seq<Layer>, b: seq<Layer>)
    ensures ResidualsOf(a + b) == ResidualsOf(a) + ResidualsOf(b)
    decreases |a|
  {
    hide ResidualIf;
    if |a| == 0 {
      assert a + b == b;
    } else {
      assert (a + b)[0] == a[0];
      assert (a + b)[1..] == a[1..] + b;
      ResidualsOfAppend(a[1..], b);
    }
  }

  lemma {:induction false} ResidualsOfBlocks(f: Flags, repeatNum: nat, a: nat, b: nat, width: nat)
    requires a <= b
    ensures ResidualsOf(Blocks(f, repeatNum, a, b, width)) == Blocks(f, repeatNum, a, b, width)
    decreases b - a
  {
    if a < b {
      ResidualsOfBlocks(f, repeatNum, a + 1, b, width);
      assert Blocks(f, repeatNum, a, b, width)[1..] == Blocks(f, repeatNum, a + 1, b, width);
    }
  }

  lemma {:induction false} NoResiduals(ls: seq<Layer>)
    requires forall k :: 0 <= k < |ls| ==> !ls[k].Residual?
    ensures ResidualsOf(ls) == []
    decreases |ls|
  {
    if |ls| > 0 {
      NoResiduals(ls[1..]);
    }
  }

  lemma {:induction false} NoResidualsInEncoder(width: nat, k: nat)
    ensures ResidualsOf(Encoder(width, k)) == []
    decreases k
  {
    if k > 0 {
      ResidualsOfAppend(EncoderStage(width), Encoder(2 * width, k - 1));
      NoResidualsInEncoder(2 * width, k - 1);
      NoResiduals(EncoderStage(width));
    }
  }

  lemma {:induction false} NoResidualsInDecoder(width: nat, k: nat, adaIn: bool)
    ensures ResidualsOf(Decoder(width, k, adaIn)) == []
    decreases k
  {
    if k > 0 {
      ResidualsOfAppend(DecoderStage(width, adaIn), Decoder(width / 2, k - 1, adaIn));
      NoResidualsInDecoder(width / 2, k - 1, adaIn);
      NoResiduals(DecoderStage(width, adaIn));
    }
  }

  /** The layers of the output head, in registration order. */
  function HeadLayers(h: Head): seq<Layer>
  {
    match h
    case PlainHead => []
    case AttentionHead(image, mask) => image + mask
    case AdaInHead(image) => image
  }

  /** Every layer of a built network, in registration order. */
  function AllLayers(net: GenNet): seq<Layer>
  {
    net.content.GetOr([]) + net.main + HeadLayers(net.head)
  }

  lemma ResidualsOfAll(net: GenNet)
    ensures ResidualsOf(AllLayers(net))
         == ResidualsOf(net.content.GetOr([])) + ResidualsOf(net.main) + ResidualsOf(HeadLayers(net.head))
  {
    ResidualsOfAppend(net.content.GetOr([]) + net.main, HeadLayers(net.head));
    ResidualsOfAppend(net.content.GetOr([]), net.main);
  }

  /** The residual blocks of the bottleneck, in order. */
  function BlockList(f: Flags, cDim: nat, n: nat, d: nat): seq<Layer>
  {
    if Splits(f, n) then Blocks(f, n, 0, n / 2, d) + Blocks(f, n, n / 2, n, d + SplitExtra(f, cDim))
    else Blocks(f, n, 0, n, d)
  }

  lemma TrunkResiduals(f: Flags, cDim: nat, n: nat, d: nat, prefix: seq<Layer>)
    requires ResidualsOf(prefix) == []
    ensures var t := TrunkSpec(f, cDim, n, d, prefix);
      ResidualsOf(t.content.GetOr([])) + ResidualsOf(t.layers) == BlockList(f, cDim, n, d)
  {
    if Splits(f, n) {
      ResidualsOfAppend(prefix, Blocks(f, n, 0, n / 2, d));
      ResidualsOfBlocks(f, n, 0, n / 2, d);
      ResidualsOfBlocks(f, n, n / 2, n, d + SplitExtra(f, cDim));
    } else {
      ResidualsOfAppend(prefix, Blocks(f, n, 0, n, d));
      ResidualsOfBlocks(f, n, 0, n, d);
    }
  }

  /** Build keeps the bottleneck's content module, and adds no residual
      block outside it and the bottleneck layers. */
  lemma BuildAroundTrunk(cfg: GenConfig)
    ensures var f := Resolve(cfg.options);
      var r := ConvRepeat(cfg.imageSize);
      var trunk := BottleneckLoop(f, cfg.cDim, cfg.repeatNum, 0, EncodedWidth(cfg), f.adaIn2,
                                  Stem(InDim(f, cfg), cfg.convDim) + Encoder(cfg.convDim, r), None);
      var net := Build(cfg);
      && net.content == trunk.content
      && ResidualsOf(net.main) == ResidualsOf(trunk.layers)
      && ResidualsOf(HeadLayers(net.head)) == []
  {
    var f := Resolve(cfg.options);
    var r := ConvRepeat(cfg.imageSize);
    var trunk := BottleneckLoop(f, cfg.cDim, cfg.repeatNum, 0, EncodedWidth(cfg), f.adaIn2,
                                Stem(InDim(f, cfg), cfg.convDim) + Encoder(cfg.convDim, r), None);
    var net := Build(cfg);
    var dec := Decoder(trunk.width, r, f.adaIn);
    var image := [Conv(Halve(trunk.width, r), cfg.colorDim, 7, 1, 3), Activation(Tanh)];
    NoResiduals(HeadLayers(net.head));
    NoResidualsInDecoder(trunk.width, r, f.adaIn);
    ResidualsOfAppend(trunk.layers, dec);
    if !f.attention && !f.adaIn {
      ResidualsOfAppend(trunk.layers + dec, image);
      NoResiduals(image);
    }
  }

  /** The residual blocks of a built Generator are the bottleneck's. */
  lemma ResidualsOfBuild(cfg: GenConfig)
    ensures ResidualsOf(AllLayers(Build(cfg)))
         == BlockList(Resolve(cfg.options), cfg.cDim, cfg.repeatNum, EncodedWidth(cfg))
  {
    var f := Resolve(cfg.options);
    var d := EncodedWidth(cfg);
    var r := ConvRepeat(cfg.imageSize);
    var prefix := Stem(InDim(f, cfg), cfg.convDim) + Encoder(cfg.convDim, r);
    assert ResidualsOf(prefix) == [] by {
      ResidualsOfAppend(Stem(InDim(f, cfg), cfg.convDim), Encoder(cfg.convDim, r));
      NoResidualsInEncoder(cfg.convDim, r);
      NoResiduals(Stem(InDim(f, cfg), cfg.convDim));
    }
    BottleneckMatchesSpec(f, cfg.cDim, cfg.repeatNum, d, prefix);
    TrunkResiduals(f, cfg.cDim, cfg.repeatNum, d, prefix);
    BuildAroundTrunk(cfg);
    ResidualsOfAll(Build(cfg));
  }

  lemma BlockListIndex(f: Flags, cDim: nat, n: nat, d: nat)
    ensures var blocks := BlockList(f, cDim, n, d);
      && |blocks| == n
      && (forall k :: 0 <= k < n ==>
            blocks[k] == Residual(if Splits(f, n) && k > Mid(n) then d + SplitExtra(f, cDim) else d,
                                  BlockAdaIn(f, n, k)))
  {
  }

  /** The residual blocks of a built Generator, in order: repeat_num of
      them; block k uses AdaIN iff AdaIn2, or AdaIn and k > repeat_num/2-1
      (when repeat_num >= 2); blocks after the split are SplitExtra channels
      wider. */
  lemma ResidualBlocksOfBuild(cfg: GenConfig)
    ensures var f := Resolve(cfg.options);
      var d := EncodedWidth(cfg);
      var blocks := ResidualsOf(AllLayers(Build(cfg)));
      && |blocks| == cfg.repeatNum
      && (forall k :: 0 <= k < cfg.repeatNum ==>
            blocks[k] == Residual(if Splits(f, cfg.repeatNum) && k > Mid(cfg.repeatNum) then d + SplitExtra(f, cfg.cDim) else d,
                                  BlockAdaIn(f, cfg.repeatNum, k)))
  {
    ResidualsOfBuild(cfg);
    BlockListIndex(Resolve(cfg.options), cfg.cDim, cfg.repeatNum, EncodedWidth(cfg));
  }
}

=== FILE: labels.dfy ===
/**
 * The label and image helpers of the solver: `denorm`, `one_hot`, the fixed
 * list of target labels drawn in every sample tile, and the shuffled
 * `fake_label` of each training step. Tensors are sequences of exact reals;
 * a label matrix is a sequence of rows.
 */
module Labels {
  import opened Wrappers

  // ---------------------------------------------------------------------
  // denorm
  // ---------------------------------------------------------------------

  function Clamp(x: real, lo: real, hi: real): real
    requires lo <= hi
  {
    if x < lo then lo else if x > hi then hi else x
  }

  /** `denorm`: (x + 1) / 2 clamped into [0, 1]. */
  function Denorm(x: real): (r: real)
    ensures 0.0 <= r <= 1.0
  {
    Clamp((x + 1.0) / 2.0, 0.0, 1.0)
  }

  /** The [0, 1] -> [-1, 1] normalisation the data loader applies, which
      `denorm` undoes. */
  function Normalize(y: real): real
  {
    2.0 * y - 1.0
  }

  /** On [-1, 1] no clamping happens: `denorm` inverts the normalisation
      both ways round. */
  lemma DenormInverts(x: real, y: real)
    ensures -1.0 <= x <= 1.0 ==> Normalize(Denorm(x)) == x
    ensures 0.0 <= y <= 1.0 ==> Denorm(Normalize(y)) == y
  {
  }

  /** Outside [-1, 1] the value saturates at the nearer end. */
  lemma DenormSaturates(x: real)
    ensures x <= -1.0 ==> Denorm(x) == 0.0
    ensures x >= 1.0 ==> Denorm(x) == 1.0
  {
  }

  lemma DenormMonotone(a: real, b: real)
    requires a <= b
    ensures Denorm(a) <= Denorm(b)
  {
  }

  /** `denorm` on a whole tensor. */
  function DenormAll(xs: seq<real>): (r: seq<real>)
    ensures |r| == |xs|
    ensures forall k :: 0 <= k < |r| ==> 0.0 <= r[k] <= 1.0
    ensures forall k :: 0 <= k < |xs| ==> r[k] == Denorm(xs[k])
  {
    seq(|xs|, k requires 0 <= k < |xs| => Denorm(xs[k]))
  }

  // ---------------------------------------------------------------------
  // one_hot
  // ---------------------------------------------------------------------

  datatype LabelError = IndexError

  /** Tensor indexing accepts -dim <= l < dim, counting a negative index
      from the end. */
  function Column(l: int, dim: nat): Option<nat>
  {
    if 0 <= l < dim then Some(l)
    else if l < 0 && l + dim >= 0 then Some((l + dim) as nat)
    else None
  }

  function HotRow(c: nat, dim: nat): seq<real>
  {
    seq(dim, j => if j == c then 1.0 else 0.0)
  }

  predicate AllIndexable(labels: seq<int>, dim: nat)
  {
    forall i :: 0 <= i < |labels| ==> Column(labels[i], dim).Some?
  }

  /** `one_hot(labels, dim)`: a zero batch x dim matrix with a 1 written at
      each row's label, or an IndexError for a label out of range. */
  function OneHot(labels: seq<int>, dim: nat): (r: Result<seq<seq<real>>, LabelError>)
    ensures r.Ok? <==> AllIndexable(labels, dim)
    ensures r.Ok? ==> |r.value| == |labels|
    ensures r.Ok? ==> forall i :: 0 <= i < |labels| ==>
      |r.value[i]| == dim
      && r.value[i][Column(labels[i], dim).value] == 1.0
      && forall j :: 0 <= j < dim && j != Column(labels[i], dim).value ==> r.value[i][j] == 0.0
  {
    if AllIndexable(labels, dim) then
      Ok(seq(|labels|, i requires 0 <= i < |labels| => HotRow(Column(labels[i], dim).value, dim)))
    else Err(IndexError)
  }

  /** The column holding the first 1 of a row, if any. */
  function HotIndex(row: seq<real>): (c: Option<nat>)
    ensures c.Some? ==> c.value < |row| && row[c.value] == 1.0
    ensures c.Some? ==> forall j :: 0 <= j < c.value ==> row[j] != 1.0
    ensures c.None? ==> forall j :: 0 <= j < |row| ==> row[j] != 1.0
    decreases |row|
  {
    if |row| == 0 then None
    else if row[0] == 1.0 then Some(0)
    else
      match HotIndex(row[1..])
      case None => None
      case Some(c) => Some(c + 1)
  }

  /** Reading the hot column back recovers each in-range label. */
  lemma OneHotDecodes(labels: seq<int>, dim: nat, i: nat)
    requires AllIndexable(labels, dim) && i < |labels| && 0 <= labels[i]
    ensures HotIndex(OneHot(labels, dim).value[i]) == Some(labels[i] as nat)
  {
  }

  // ---------------------------------------------------------------------
  // the fixed targets of the sample tile
  // ---------------------------------------------------------------------

  function Zeros(rows: nat, dim: nat): seq<seq<real>>
  {
    seq(rows, _ => seq(dim, _ => 0.0))
  }

  function Constant(n: nat, v: int): (r: seq<int>)
    ensures |r| == n && forall i :: 0 <= i < n ==> r[i] == v
  {
    seq(n, _ => v)
  }

  /** `fixed_c_list`: an all-zero label matrix, then for each domain j the
      batch's one-hot labels of j. */
  function FixedTargets(batch: nat, cDim: nat): (ts: seq<seq<seq<real>>>)
    ensures |ts| == cDim + 1
    ensures ts[0] == Zeros(batch, cDim)
    ensures forall j :: 0 <= j < cDim ==> OneHot(Constant(batch, j), cDim) == Ok(ts[j + 1])
  {
    [Zeros(batch, cDim)]
    + seq(cDim, j requires 0 <= j < cDim =>
        assert AllIndexable(Constant(batch, j), cDim);
        OneHot(Constant(batch, j), cDim).value)
  }

  /** Every row of target j + 1 selects exactly domain j, and the zero target
      selects none. */
  lemma FixedTargetRows(batch: nat, cDim: nat, j: nat, b: nat)
    requires j < cDim && b < batch
    ensures HotIndex(FixedTargets(batch, cDim)[j + 1][b]) == Some(j)
    ensures HotIndex(FixedTargets(batch, cDim)[0][b]) == None
  {
    var ts := FixedTargets(batch, cDim);
    assert AllIndexable(Constant(batch, j), cDim);
    OneHotDecodes(Constant(batch, j), cDim, b);
    assert ts[0][b] == seq(cDim, _ => 0.0);
  }

  /** A sample tile is the input image followed by one translation per
      fixed target: c_dim + 2 panels. */
  function SamplePanels<T>(input: T, translate: seq<seq<real>> -> T, batch: nat, cDim: nat): (panels: seq<T>)
    ensures |panels| == cDim + 2 && panels[0] == input
    ensures forall k :: 0 <= k < cDim + 1 ==> panels[k + 1] == translate(FixedTargets(batch, cDim)[k])
  {
    var ts := FixedTargets(batch, cDim);
    [input] + seq(|ts|, k requires 0 <= k < |ts| => translate(ts[k]))
  }

  // ---------------------------------------------------------------------
  // fake_label
  // ---------------------------------------------------------------------

  function Range(n: nat): (r: seq<nat>)
    ensures |r| == n && forall i :: 0 <= i < n ==> r[i] == i
  {
    seq(n, i => i)
  }

  /** `torch.randperm(n)`'s guarantee: each index below n exactly once. */
  predicate IsPermutation(p: seq<nat>, n: nat)
  {
    multiset(p) == multiset(Range(n))
  }

  predicate InBounds(p: seq<nat>, n: nat)
  {
    forall i :: 0 <= i < |p| ==> p[i] < n
  }

  /** `rows[p]`: the rows picked in the order of an index tensor. */
  function Gather<T>(rows: seq<T>, p: seq<nat>): (r: seq<T>)
    requires InBounds(p, |rows|)
    ensures |r| == |p| && forall i :: 0 <= i < |p| ==> r[i] == rows[p[i]]
  {
    seq(|p|, i requires 0 <= i < |p| => rows[p[i]])
  }

  lemma PermutationInBounds(p: seq<nat>, n: nat)
    requires IsPermutation(p, n)
    ensures InBounds(p, n)
  {
    forall i | 0 <= i < |p|
      ensures p[i] < n
    {
      assert p[i] in multiset(p);
      assert p[i] in multiset(Range(n));
    }
  }

  /** `fake_label = real_label[torch.randperm(n)]`, for the permutation
      drawn. */
  function FakeLabel<T>(realLabel: seq<T>, perm: seq<nat>): (r: seq<T>)
    requires IsPermutation(perm, |realLabel|)
    ensures |r| == |realLabel|
    ensures forall i :: 0 <= i < |r| ==> r[i] in realLabel
  {
    PermutationInBounds(perm, |realLabel|);
    assert |perm| == |multiset(perm)| == |Range(|realLabel|)|;
    Gather(realLabel, perm)
  }

  /** Taking index k out of q takes its row out of the gathered rows. */
  lemma GatherRemove<T>(rows: seq<T>, q: seq<nat>, k: nat)
    requires InBounds(q, |rows|) && k < |q|
    ensures InBounds(q[..k] + q[k + 1..], |rows|)
    ensures multiset(Gather(rows, q)) == multiset(Gather(rows, q[..k] + q[k + 1..])) + multiset{rows[q[k]]}
  {
    var q' := q[..k] + q[k + 1..];
    assert forall i :: 0 <= i < |q'| ==> q'[i] == (if i < k then q[i] else q[i + 1]);
    var g := Gather(rows, q);
    var g' := Gather(rows, q');
    assert g == g[..k] + [g[k]] + g[k + 1..];
    assert g' == g[..k] + g[k + 1..];
  }

  /** Gathering by index sequences with equal multisets gives rows with
      equal multisets. */
  lemma {:induction false} GatherMultiset<T>(rows: seq<T>, p: seq<nat>, q: seq<nat>)
    requires InBounds(p, |rows|) && InBounds(q, |rows|)
    requires multiset(p) == multiset(q)
    ensures multiset(Gather(rows, p)) == multiset(Gather(rows, q))
    decreases |p|
  {
    hide *;
    if |p| == 0 {
      EmptyGather(rows, p, q);
    } else {
      var k := FindIn(q, p[0]);
      var q' := q[..k] + q[k + 1..];
      RemoveMatching(p, q, k);
      GatherRemove(rows, q, k);
      GatherRemove(rows, p, 0);
      assert p[..0] + p[1..] == p[1..];
      GatherMultiset(rows, p[1..], q');
    }
  }

  lemma EmptyGather<T>(rows: seq<T>, p: seq<nat>, q: seq<nat>)
    requires InBounds(p, |rows|) && InBounds(q, |rows|)
    requires |p| == 0 && multiset(p) == multiset(q)
    ensures multiset(Gather(rows, p)) == multiset(Gather(rows, q))
  {
    assert |q| == |multiset(q)| == 0;
  }

  /** Taking the first index of p and a matching index of q out of both
      keeps their multisets equal. */
  lemma RemoveMatching(p: seq<nat>, q: seq<nat>, k: nat)
    requires |p| > 0 && k < |q| && q[k] == p[0] && multiset(p) == multiset(q)
    ensures multiset(p[1..]) == multiset(q[..k] + q[k + 1..])
  {
    MultisetTail(p);
    MultisetRemove(q, k);
  }

  /** A position of a member of a sequence. */
  lemma FindIn<T>(s: seq<T>, x: T) returns (k: nat)
    requires x in multiset(s)
    ensures k < |s| && s[k] == x
  {
    assert x in s;
    k :| 0 <= k < |s| && s[k] == x;
  }

  lemma MultisetTail<T>(s: seq<T>)
    requires |s| > 0
    ensures multiset(s[1..]) == multiset(s) - multiset{s[0]}
  {
    assert s == [s[0]] + s[1..];
  }

  lemma MultisetRemove<T>(s: seq<T>, k: nat)
    requires k < |s|
    ensures multiset(s[..k] + s[k + 1..]) == multiset(s) - multiset{s[k]}
  {
    assert s == s[..k] + [s[k]] + s[k + 1..];
  }

  /** `fake_label` is a row permutation of `real_label`: the same rows, each
      as often. */
  lemma FakeLabelPermutes<T>(realLabel: seq<T>, perm: seq<nat>)
    requires IsPermutation(perm, |realLabel|)
    ensures multiset(FakeLabel(realLabel, perm)) == multiset(realLabel)
  {
    var n := |realLabel|;
    PermutationInBounds(perm, n);
    GatherMultiset(realLabel, perm, Range(n));
    assert Gather(realLabel, Range(n)) == realLabel;
  }
}

=== FILE: launch.dfy ===
/**
 * The entry point: how the `--GPU` option becomes a device list and scales
 * the batch size and the learning rates, and which job `main` runs. The
 * Horovod world size is a parameter; setting CUDA devices, seeding and
 * reading the dataset's YAML file are left out.
 */
module Launch {
  import opened Wrappers
  import opened Text

  /** The devices a run uses, the scaled batch size and rates, the value
      exported as CUDA_VISIBLE_DEVICES (None under Horovod) and whether
      Horovod drives the run. */
  datatype Devices = Devices(
    gpus: seq<int>,
    batchSize: int,
    gLr: real,
    dLr: real,
    visible: Option<string>,
    horovod: bool)

  /** `int` raised ValueError on a piece of the GPU list. */
  datatype LaunchError = BadGpuId

  /** `[int(i) for i in pieces]`, None when some piece is not an integer. */
  function ParseAll(pieces: seq<string>): (r: Option<seq<int>>)
    ensures r.Some? <==> forall k :: 0 <= k < |pieces| ==> ParseInt(pieces[k]).Some?
    ensures r.Some? ==> (|r.value| == |pieces|
                         && forall k :: 0 <= k < |pieces| ==> ParseInt(pieces[k]) == Some(r.value[k]))
    decreases |pieces|
  {
    if |pieces| == 0 then Some([])
    else
      match ParseInt(pieces[0])
      case None => None
      case Some(v) =>
        match ParseAll(pieces[1..])
        case None =>
          assert !ParseInt(pieces[1..][0]).Some? || exists k :: 0 <= k < |pieces| - 1 && !ParseInt(pieces[1..][k]).Some?;
          None
        case Some(vs) => Some([v] + vs)
  }

  /** Pieces that each parse to the matching id parse to the ids. */
  lemma ParseAllOf(pieces: seq<string>, ids: seq<int>)
    requires |pieces| == |ids|
    requires forall k :: 0 <= k < |ids| ==> ParseInt(pieces[k]) == Some(ids[k])
    ensures ParseAll(pieces) == Some(ids)
  {
    var r := ParseAll(pieces);
    assert r.Some?;
    assert forall k :: 0 <= k < |ids| ==> r.value[k] == ids[k];
    assert r.value == ids;
  }

  function Ids(n: nat): (r: seq<int>)
    ensures |r| == n && forall k :: 0 <= k < n ==> r[k] == k
  {
    seq(n, k => k)
  }

  /** `NO_CUDA` is exported as `-1`. */
  function Visible(gpu: string): string
  {
    if gpu == "NO_CUDA" then "-1" else gpu
  }

  /** `GPU.split(',')` after that substitution. */
  function Pieces(gpu: string): seq<string>
  {
    Split(Visible(gpu), ',')
  }

  /** `GPU == '-1'` hands the run to Horovod: one device per worker and
      the rates scaled by the world size, the batch size left alone.
      Otherwise `NO_CUDA` becomes `-1`, the comma-separated ids are parsed,
      and batch size and rates are scaled by their count. */
  function ConfigureDevices(gpu: string, batchSize: int, gLr: real, dLr: real, worldSize: nat): (r: Result<Devices, LaunchError>)
  {
    if gpu == "-1" then
      Ok(Devices(Ids(worldSize), batchSize, gLr * worldSize as real, dLr * worldSize as real, None, true))
    else
      match ParseAll(Pieces(gpu))
      case None => Err(BadGpuId)
      case Some(ids) =>
        Ok(Devices(ids, batchSize * |ids|, gLr * |ids| as real, dLr * |ids| as real, Some(Visible(gpu)), false))
  }

  /** `','.join(str(i) for i in ids)`, the option value naming those ids. */
  function GpuOption(ids: seq<int>): (s: string)
  {
    Join(seq(|ids|, k requires 0 <= k < |ids| => IntToString(ids[k])), ',')
  }

  lemma NoCommaInNumeral(i: int)
    ensures ',' !in IntToString(i)
  {
    NumeralOfInt(i);
  }

  function Numerals(ids: seq<int>): (pieces: seq<string>)
    ensures |pieces| == |ids|
    ensures forall k :: 0 <= k < |ids| ==> pieces[k] == IntToString(ids[k])
  {
    seq(|ids|, k requires 0 <= k < |ids| => IntToString(ids[k]))
  }

  /** The option's pieces are the ids' numerals, which parse back. */
  lemma PiecesOfOption(ids: seq<int>)
    requires |ids| >= 1
    ensures Split(GpuOption(ids), ',') == Numerals(ids)
    ensures ParseAll(Numerals(ids)) == Some(ids)
  {
    var pieces := Numerals(ids);
    assert GpuOption(ids) == Join(pieces, ',');
    forall k | 0 <= k < |pieces|
      ensures ',' !in pieces[k]
      ensures ParseInt(pieces[k]) == Some(ids[k])
    {
      NoCommaInNumeral(ids[k]);
      ParseIntToString(ids[k]);
    }
    SplitJoin(pieces, ',');
    ParseAllOf(pieces, ids);
  }

  /** A word without commas is its own single piece. */
  lemma SinglePiece(w: string)
    requires ',' !in w
    ensures Split(w, ',') == [w]
  {
    SplitNoSep(w, ',');
  }

  /** The option naming a list of ids is neither of the two reserved
      words, unless the list is the lone -1. */
  lemma OptionNotReserved(ids: seq<int>)
    requires |ids| >= 1 && ids != [-1]
    ensures GpuOption(ids) != "-1" && GpuOption(ids) != "NO_CUDA"
  {
    PiecesOfOption(ids);
    var s := GpuOption(ids);
    assert ',' !in "-1" by {
      assert "-1"[0] != ',' && "-1"[1] != ',';
    }
    assert ',' !in "NO_CUDA" by {
      forall k | 0 <= k < 7
        ensures "NO_CUDA"[k] != ','
      {
      }
    }
    SinglePiece("-1");
    SinglePiece("NO_CUDA");
    if |ids| == 1 {
      assert Numerals(ids) == [IntToString(ids[0])];
      assert s == IntToString(ids[0]);
      ParseIntToString(ids[0]);
      ParseIntToString(-1);
      assert ids[0] != -1 by {
        assert ids == [ids[0]];
      }
      assert IntToString(-1) == "-1";
      NumeralOfInt(ids[0]);
      assert IsDigit(s[0]) || s[0] == '-';
      assert "NO_CUDA"[0] == 'N';
    } else {
      assert |Split(s, ',')| >= 2;
    }
  }

  /** Naming a non-empty list of ids other than the lone -1 gives back exactly
      those ids, the batch size and both rates multiplied by their count. */
  lemma GpuOptionRoundTrip(ids: seq<int>, batchSize: int, gLr: real, dLr: real, worldSize: nat)
    requires |ids| >= 1 && ids != [-1]
    ensures var r := ConfigureDevices(GpuOption(ids), batchSize, gLr, dLr, worldSize);
      r.Ok? && !r.value.horovod && r.value.gpus == ids
      && r.value.batchSize == batchSize * |ids|
      && r.value.gLr == gLr * |ids| as real && r.value.dLr == dLr * |ids| as real
  {
    var s := GpuOption(ids);
    OptionNotReserved(ids);
    PiecesOfOption(ids);
    ConfigureParsed(s, ids, batchSize, gLr, dLr, worldSize);
  }

  /** A list option whose pieces parse to `ids`. */
  lemma ConfigureParsed(gpu: string, ids: seq<int>, batchSize: int, gLr: real, dLr: real, worldSize: nat)
    requires gpu != "-1" && gpu != "NO_CUDA"
    requires ParseAll(Split(gpu, ',')) == Some(ids)
    ensures var r := ConfigureDevices(gpu, batchSize, gLr, dLr, worldSize);
      r.Ok? && !r.value.horovod && r.value.gpus == ids
      && r.value.batchSize == batchSize * |ids|
      && r.value.gLr == gLr * |ids| as real && r.value.dLr == dLr * |ids| as real
  {
    hide ParseAll, Split;
    assert Visible(gpu) == gpu;
  }

  /** `NO_CUDA` is not Horovod: it names the single device -1. */
  lemma NoCudaIsOneDevice(batchSize: int, gLr: real, dLr: real, worldSize: nat)
    ensures ConfigureDevices("NO_CUDA", batchSize, gLr, dLr, worldSize)
      == Ok(Devices([-1], batchSize, gLr, dLr, Some("-1"), false))
  {
    assert ',' !in "-1" by {
      assert "-1"[0] != ',' && "-1"[1] != ',';
    }
    SinglePiece("-1");
    ParseIntToString(-1);
    assert IntToString(-1) == "-1";
    assert Pieces("NO_CUDA") == ["-1"];
    ParseAllOf(["-1"], [-1]);
  }

  /** Under Horovod the rates grow with the world size and the batch size
      does not; on any other path both grow with the device count. A list
      with a piece that is not an integer is refused. */
  lemma ScalingRule(gpu: string, batchSize: int, gLr: real, dLr: real, worldSize: nat)
    ensures var r := ConfigureDevices(gpu, batchSize, gLr, dLr, worldSize);
      (r.Err? <==> gpu != "-1" && exists k :: 0 <= k < |Pieces(gpu)| && ParseInt(Pieces(gpu)[k]).None?)
      && (r.Ok? ==> r.value.gLr == gLr * |r.value.gpus| as real && r.value.dLr == dLr * |r.value.gpus| as real)
      && (r.Ok? && r.value.horovod ==> r.value.batchSize == batchSize && |r.value.gpus| == worldSize)
      && (r.Ok? && !r.value.horovod ==> r.value.batchSize == batchSize * |r.value.gpus| && |r.value.gpus| >= 1)
      && (r.Ok? ==> (r.value.horovod <==> gpu == "-1"))
  {
  }

  // ---------------------------------------------------------------------
  // what main runs
  // ---------------------------------------------------------------------

  datatype Score = LpipsReal | LpipsUnimodal | LpipsMultimodal | Inception | InceptionReal

  /** The order `main` tests the score flags in. */
  const ScoreOrder: seq<Score> := [LpipsReal, LpipsUnimodal, LpipsMultimodal, Inception, InceptionReal]

  /** The position of a score in `ScoreOrder`. */
  function Rank(s: Score): (k: nat)
    ensures k < |ScoreOrder| && ScoreOrder[k] == s
  {
    match s
    case LpipsReal => 0
    case LpipsUnimodal => 1
    case LpipsMultimodal => 2
    case Inception => 3
    case InceptionReal => 4
  }

  datatype Job = RunScore(score: Score) | RunTrain | RunTest | RunDemo(path: string)

  /** The first set flag in `ScoreOrder`, scanning from position k. */
  function FirstScore(flags: set<Score>, k: nat): (r: Option<Score>)
    requires k <= |ScoreOrder|
    ensures r.Some? ==> (r.value in flags
                         && exists j :: k <= j < |ScoreOrder| && ScoreOrder[j] == r.value
                                        && forall i :: k <= i < j ==> ScoreOrder[i] !in flags)
    ensures r.None? <==> forall i :: k <= i < |ScoreOrder| ==> ScoreOrder[i] !in flags
    decreases |ScoreOrder| - k
  {
    if k == |ScoreOrder| then None
    else if ScoreOrder[k] in flags then Some(ScoreOrder[k])
    else FirstScore(flags, k + 1)
  }

  /** `main`: the first score flag set runs alone and returns; otherwise
      `train` trains and then tests, and `test` runs DEMO when a demo path is
      given and the test otherwise. Other modes run nothing. */
  function Main(flags: set<Score>, mode: string, demoPath: Option<string>): (jobs: seq<Job>)
    ensures |jobs| <= 2
  {
    match FirstScore(flags, 0)
    case Some(s) => [RunScore(s)]
    case None =>
      if mode == "train" then [RunTrain, RunTest]
      else if mode == "test" then
        (if demoPath.Some? && demoPath.value != "" then [RunDemo(demoPath.value)] else [RunTest])
      else []
  }

  /** A score flag excludes every other job, and the score run is the first
      in `ScoreOrder` among those set; with no flag, training is always
      followed by a test, DEMO runs exactly in test mode with a non-empty
      path and on that path, test mode without one runs the test alone, and
      any other mode runs nothing. */
  lemma MainDispatch(flags: set<Score>, mode: string, demoPath: Option<string>)
    ensures var jobs := Main(flags, mode, demoPath);
      (flags != {} <==> |jobs| == 1 && jobs[0].RunScore?)
      && (flags != {} ==>
            (jobs[0].score in flags
             && forall i, j :: 0 <= i < j < |ScoreOrder| && ScoreOrder[j] == jobs[0].score ==> ScoreOrder[i] !in flags))
      && (flags == {} ==>
            ((RunTrain in jobs <==> mode == "train")
             && (mode == "train" ==> jobs == [RunTrain, RunTest])
             && ((exists p :: RunDemo(p) in jobs) <==> mode == "test" && demoPath.Some? && demoPath.value != "")
             && (mode == "test" && demoPath.Some? && demoPath.value != "" ==> jobs == [RunDemo(demoPath.value)])
             && (mode == "test" && !(demoPath.Some? && demoPath.value != "") ==> jobs == [RunTest])
             && (mode != "train" && mode != "test" ==> jobs == [])))
  {
    var jobs := Main(flags, mode, demoPath);
    var first := FirstScore(flags, 0);
    if flags != {} {
      var x :| x in flags;
      var i0 := Rank(x);
      assert first.Some?;
      var j :| 0 <= j < |ScoreOrder| && ScoreOrder[j] == first.value
               && forall i :: 0 <= i < j ==> ScoreOrder[i] !in flags;
      forall i, j' | 0 <= i < j' < |ScoreOrder| && ScoreOrder[j'] == jobs[0].score
        ensures ScoreOrder[i] !in flags
      {
        assert j' == j;
      }
    } else {
      assert first.None?;
    }
  }
}

=== FILE: layers.dfy ===
/**
 * Layer specifications with tensors abstracted to their per-sample shape.
 * Every feature map in these networks is square, so a shape is a channel
 * count and one spatial side. `Walk` runs a layer list over a shape the way
 * `nn.Sequential` runs it over a tensor, failing where torch would raise
 * (channel mismatch, a kernel larger than the padded input, zero stride).
 */
module Layers {
  import opened Wrappers

  /** Per-sample activation shape: `ch` channels of `side` x `side`. */
  datatype Shape = Shape(ch: nat, side: nat)

  datatype Act = ReLU | LeakyReLU | Tanh | Sigmoid

  datatype Layer =
    | Conv(inCh: nat, outCh: nat, kernel: nat, stride: nat, pad: nat)
    | ConvTranspose(inCh: nat, outCh: nat, kernel: nat, stride: nat, pad: nat)
    | InstanceNorm(ch: nat)
      /** a residual block of width `ch`; `adaIn` selects adaptive instance
          normalisation inside it */
    | Residual(ch: nat, adaIn: bool)
    | Activation(act: Act)
    | GlobalAvgPool

  /** Fully-connected layers, for the MLP and the style-encoder head. */
  datatype Dense = Linear(inW: nat, outW: nat) | Dropout

  /** Output side of a convolution: floor((n + 2p - k) / s) + 1, or None
      when the stride is zero or the kernel exceeds the padded input. */
  function ConvSide(n: nat, k: nat, s: nat, p: nat): Option<nat>
  {
    if s == 0 || n + 2 * p < k then None else Some((n + 2 * p - k) / s + 1)
  }

  /** Output side of a transposed convolution: (n - 1) s - 2p + k, or None
      for an empty input or a non-positive result. */
  function ConvTransposeSide(n: nat, k: nat, s: nat, p: nat): Option<nat>
  {
    if n == 0 || (n - 1) * s + k <= 2 * p then None else Some((n - 1) * s + k - 2 * p)
  }

  function WithChannels(side: Option<nat>, ch: nat): Option<Shape>
  {
    match side
    case None => None
    case Some(n) => Some(Shape(ch, n))
  }

  /** One layer applied to a shape. */
  function Step(l: Layer, x: Shape): Option<Shape>
  {
    match l
    case Conv(i, o, k, s, p) => if x.ch != i then None else WithChannels(ConvSide(x.side, k, s, p), o)
    case ConvTranspose(i, o, k, s, p) =>
      if x.ch != i then None else WithChannels(ConvTransposeSide(x.side, k, s, p), o)
    case InstanceNorm(c) => if x.ch != c then None else Some(x)
    case Residual(c, _) => if x.ch != c then None else Some(x)
    case Activation(_) => Some(x)
    case GlobalAvgPool => if x.side == 0 then None else Some(Shape(x.ch, 1))
  }

  /** A layer list applied in order, as `nn.Sequential` does. */
  function Walk(ls: seq<Layer>, x: Shape): Option<Shape>
    decreases |ls|
  {
    if |ls| == 0 then Some(x)
    else
      match Step(ls[0], x)
      case None => None
      case Some(y) => Walk(ls[1..], y)
  }

  function Then(r: Option<Shape>, ls: seq<Layer>): Option<Shape>
  {
    match r
    case None => None
    case Some(y) => Walk(ls, y)
  }

  /** Walking a concatenation is walking the two halves in turn. */
  lemma {:induction false} WalkAppend(a: seq<Layer>, b: seq<Layer>, x: Shape)
    ensures Walk(a + b, x) == Then(Walk(a, x), b)
    decreases |a|
  {
    if |a| == 0 {
      assert a + b == b;
    } else {
      assert (a + b)[0] == a[0];
      assert (a + b)[1..] == a[1..] + b;
      match Step(a[0], x)
      case None =>
      case Some(y) => WalkAppend(a[1..], b, y);
    }
  }

  lemma WalkOne(a: Layer, x: Shape)
    ensures Walk([a], x) == Step(a, x)
  {
    assert [a][1..] == [];
  }

  lemma WalkTwo(a: Layer, b: Layer, x: Shape)
    ensures Walk([a, b], x) == Then(Step(a, x), [b])
  {
    assert [a, b][1..] == [b];
  }

  lemma WalkThree(a: Layer, b: Layer, c: Layer, x: Shape)
    ensures Walk([a, b, c], x) == Then(Step(a, x), [b, c])
  {
    assert [a, b, c][1..] == [b, c];
  }

  /** A list of fully-connected layers applied to a width. */
  function DenseWalk(ls: seq<Dense>, w: nat): Option<nat>
    decreases |ls|
  {
    if |ls| == 0 then Some(w)
    else
      match ls[0]
      case Dropout => DenseWalk(ls[1..], w)
      case Linear(i, o) => if w != i then None else DenseWalk(ls[1..], o)
  }

  // ---------------------------------------------------------------------
  // the convolution geometries the networks use
  // ---------------------------------------------------------------------

  /** kernel 4, stride 2, padding 1 halves an even side. */
  lemma HalvingConv(n: nat)
    requires n >= 2 && n % 2 == 0
    ensures ConvSide(n, 4, 2, 1) == Some(n / 2)
  {
  }

  /** A halving convolution that doubles the channels, then an
      activation. */
  lemma HalvingStage(width: nat, act: Act, half: nat)
    requires half >= 1
    ensures Walk([Conv(width, 2 * width, 4, 2, 1), Activation(act)], Shape(width, 2 * half)) == Some(Shape(2 * width, half))
  {
    HalvingConv(2 * half);
    WalkTwo(Conv(width, 2 * width, 4, 2, 1), Activation(act), Shape(width, 2 * half));
    WalkOne(Activation(act), Shape(2 * width, half));
  }

  /** kernel 4, stride 2, padding 1 transposed doubles a side. */
  lemma DoublingConvTranspose(n: nat)
    requires n >= 1
    ensures ConvTransposeSide(n, 4, 2, 1) == Some(2 * n)
  {
  }

  /** kernel 2p + 1, stride 1, padding p keeps the side. */
  lemma SameConv(n: nat, p: nat)
    requires n >= 1
    ensures ConvSide(n, 2 * p + 1, 1, p) == Some(n)
  {
  }

  /** An unpadded stride-1 kernel as wide as the input collapses it to 1. */
  lemma CollapsingConv(n: nat)
    requires n >= 1
    ensures ConvSide(n, n, 1, 0) == Some(1)
  {
  }
}

=== FILE: losses.dfy ===
/**
 * The adversarial loss families of one training step. The discriminator's
 * real/fake map is a non-empty sequence of exact reals and each loss term is
 * written over it; the classification, reconstruction and gradient-penalty
 * values come from torch and are left abstract.
 */
module Losses {

  datatype Family = LSGAN | Hinge | Wasserstein

  /** `LSGAN` is tested before `HINGE`; anything else is the Wasserstein
      default. */
  function FamilyOf(options: set<string>): (f: Family)
    ensures f == LSGAN <==> "LSGAN" in options
    ensures f == Hinge <==> "LSGAN" !in options && "HINGE" in options
    ensures f == Wasserstein <==> "LSGAN" !in options && "HINGE" !in options
  {
    if "LSGAN" in options then LSGAN
    else if "HINGE" in options then Hinge
    else Wasserstein
  }

  function Sum(xs: seq<real>): real
    decreases |xs|
  {
    if |xs| == 0 then 0.0 else xs[0] + Sum(xs[1..])
  }

  function Mean(xs: seq<real>): real
    requires |xs| > 0
  {
    Sum(xs) / (|xs| as real)
  }

  function Relu(x: real): real
  {
    if x > 0.0 then x else 0.0
  }

  function MapReal(xs: seq<real>, f: real -> real): (r: seq<real>)
    ensures |r| == |xs| && forall k :: 0 <= k < |xs| ==> r[k] == f(xs[k])
  {
    seq(|xs|, k requires 0 <= k < |xs| => f(xs[k]))
  }

  function Square(x: real): real
  {
    x * x
  }

  /** `F.mse_loss(o, t * ones)`. */
  function Mse(o: seq<real>, t: real): real
    requires |o| > 0
  {
    Mean(MapReal(o, x => Square(x - t)))
  }

  /** The discriminator's loss on real images. */
  function DLossReal(f: Family, o: seq<real>): real
    requires |o| > 0
  {
    match f
    case LSGAN => Mse(o, 1.0)
    case Hinge => Mean(MapReal(o, x => Relu(1.0 - x)))
    case Wasserstein => -Mean(o)
  }

  /** The discriminator's loss on generated images. */
  function DLossFake(f: Family, o: seq<real>): real
    requires |o| > 0
  {
    match f
    case LSGAN => Mse(o, 0.0)
    case Hinge => Mean(MapReal(o, x => Relu(1.0 + x)))
    case Wasserstein => Mean(o)
  }

  /** The generator's adversarial loss. */
  function GLossFake(f: Family, o: seq<real>): real
    requires |o| > 0
  {
    match f
    case LSGAN => Mse(o, 1.0)
    case Hinge => -Mean(o)
    case Wasserstein => -Mean(o)
  }

  /** Optimizer steps of D per training step: the gradient-penalty phase
      steps D a second time, and runs only for the Wasserstein default. */
  function DSteps(f: Family): (n: nat)
    ensures n >= 1
    ensures n == 2 <==> f == Wasserstein
  {
    if f == Wasserstein then 2 else 1
  }

  /** The `D/gp` value recorded: lambda_gp times the penalty under the
      Wasserstein default, and lambda_gp times a zero tensor otherwise. */
  function RecordedGp(f: Family, penalty: real, lambdaGp: real): (r: real)
    ensures f != Wasserstein ==> r == 0.0
  {
    (if f == Wasserstein then penalty else 0.0) * lambdaGp
  }

  /** `G/rec`: the cycle loss, plus the identity-to-fake term under
      `L1_LOSS`, given the three L1 distances torch computes. */
  function RecLoss(options: set<string>, realFake: real, fakeRec: real, realRec: real): real
  {
    if "L1_LOSS" in options then realFake + fakeRec else realRec
  }

  // ---------------------------------------------------------------------
  // properties
  // ---------------------------------------------------------------------

  /** The generator's adversarial term is the same for HINGE and for the
      default family. */
  lemma HingeGeneratorIsWasserstein(o: seq<real>)
    requires |o| > 0
    ensures GLossFake(Hinge, o) == GLossFake(Wasserstein, o)
  {
  }

  lemma {:induction false} SumNonNegative(xs: seq<real>)
    requires forall k :: 0 <= k < |xs| ==> xs[k] >= 0.0
    ensures Sum(xs) >= 0.0
    decreases |xs|
  {
    if |xs| > 0 {
      SumNonNegative(xs[1..]);
    }
  }

  lemma {:induction false} SumZeroIff(xs: seq<real>)
    requires forall k :: 0 <= k < |xs| ==> xs[k] >= 0.0
    ensures Sum(xs) == 0.0 <==> forall k :: 0 <= k < |xs| ==> xs[k] == 0.0
    decreases |xs|
  {
    if |xs| > 0 {
      SumZeroIff(xs[1..]);
      SumNonNegative(xs[1..]);
      assert forall k :: 1 <= k < |xs| ==> xs[k] == xs[1..][k - 1];
    }
  }

  lemma MeanZeroIff(xs: seq<real>)
    requires |xs| > 0
    requires forall k :: 0 <= k < |xs| ==> xs[k] >= 0.0
    ensures Mean(xs) >= 0.0
    ensures Mean(xs) == 0.0 <==> forall k :: 0 <= k < |xs| ==> xs[k] == 0.0
  {
    SumZeroIff(xs);
    SumNonNegative(xs);
  }

  /** The hinge loss on real images is non-negative and vanishes exactly
      when every output is at least 1. */
  lemma HingeRealZeroIff(o: seq<real>)
    requires |o| > 0
    ensures DLossReal(Hinge, o) >= 0.0
    ensures DLossReal(Hinge, o) == 0.0 <==> forall k :: 0 <= k < |o| ==> o[k] >= 1.0
  {
    var t := MapReal(o, x => Relu(1.0 - x));
    MeanZeroIff(t);
  }

  /** The hinge loss on generated images vanishes exactly when every output
      is at most -1. */
  lemma HingeFakeZeroIff(o: seq<real>)
    requires |o| > 0
    ensures DLossFake(Hinge, o) >= 0.0
    ensures DLossFake(Hinge, o) == 0.0 <==> forall k :: 0 <= k < |o| ==> o[k] <= -1.0
  {
    var t := MapReal(o, x => Relu(1.0 + x));
    MeanZeroIff(t);
  }

  /** The least-squares losses are non-negative and vanish exactly when
      every output hits its target. */
  lemma MseNonNegative(o: seq<real>, target: real)
    requires |o| > 0
    ensures Mse(o, target) >= 0.0
    ensures Mse(o, target) == 0.0 <==> forall k :: 0 <= k < |o| ==> o[k] == target
  {
    hide Square;
    var t := MapReal(o, x => Square(x - target));
    forall k | 0 <= k < |o|
      ensures t[k] >= 0.0
      ensures t[k] == 0.0 ==> o[k] == target
      ensures o[k] == target ==> t[k] == 0.0
    {
      SquareSign(o[k] - target);
      if o[k] == target {
        SquareOfZero();
      }
    }
    MeanZeroIff(t);
  }

  /** A square is non-negative, and zero only at zero. */
  lemma SquareSign(x: real)
    ensures Square(x) >= 0.0
    ensures Square(x) == 0.0 ==> x == 0.0
  {
    if Square(x) == 0.0 {
      ProductZero(x, x);
    }
    ProductNonNegative(x, x);
  }

  lemma SquareOfZero()
    ensures Square(0.0) == 0.0
  {
  }

  lemma ProductZero(a: real, b: real)
    requires a * b == 0.0
    ensures a == 0.0 || b == 0.0
  {
  }

  lemma ProductNonNegative(a: real, b: real)
    requires (a >= 0.0 && b >= 0.0) || (a <= 0.0 && b <= 0.0)
    ensures a * b >= 0.0
  {
  }

  /** Both discriminator terms are non-negative for the least-squares and
      hinge families. */
  lemma DiscriminatorLossNonNegative(f: Family, onReal: seq<real>, onFake: seq<real>)
    requires f != Wasserstein && |onReal| > 0 && |onFake| > 0
    ensures DLossReal(f, onReal) >= 0.0 && DLossFake(f, onFake) >= 0.0
  {
    if f == LSGAN {
      MseNonNegative(onReal, 1.0);
      MseNonNegative(onFake, 0.0);
    } else {
      HingeRealZeroIff(onReal);
      HingeFakeZeroIff(onFake);
    }
  }

  /** Under `L1_LOSS` the recorded reconstruction loss bounds the plain
      cycle loss from above, for L1 distances obeying the triangle
      inequality. */
  lemma L1LossDominates(options: set<string>, realFake: real, fakeRec: real, realRec: real)
    requires realRec <= realFake + fakeRec
    ensures RecLoss(options, realFake, fakeRec, realRec) >= RecLoss(options - {"L1_LOSS"}, realFake, fakeRec, realRec)
  {
  }
}

=== FILE: schedule.dfy ===
/**
 * `Solver.train` as a state machine over (epoch, step). One step runs the
 * discriminator phase, the gradient-penalty phase of the default family, the
 * generator phase every `d_train_repeat` steps and the sample check; one
 * epoch is `len(data_loader)` steps followed by the two checkpoint files and
 * the learning-rate decay check. A resumed run first replays the decays of
 * the epochs it skips.
 *
 * What torch computes in a step (the discriminator's outputs, the
 * classification, reconstruction and penalty terms) comes from an oracle
 * indexed by (epoch, step); the networks, the data, the random permutation
 * and the blur behind those numbers are left out. An exception ends the run:
 * it is an `Err` carrying the state reached, whose files stay written.
 */
module Schedule {
  import opened Wrappers
  import opened Text
  import opened Counting
  import opened Losses
  import opened Checkpoints

  datatype TrainConfig = TrainConfig(
    numEpochs: int,
    numEpochsDecay: int,
    dTrainRepeat: int,
    logStep: int,
    sampleStep: int,
    gLr: real,
    dLr: real,
    lambdaCls: real,
    lambdaRec: real,
    lambdaGp: real,
    pretrained: Option<string>,
    options: set<string>)

  /** The numbers torch produces in one step: the discriminator's real/fake
      map on real images, on the generated images of the D phase and on
      those of the G phase, and the scalar loss terms. */
  datatype StepOutputs = StepOutputs(
    onReal: seq<real>,
    onFake: seq<real>,
    onFakeG: seq<real>,
    dCls: real,
    gp: real,
    gCls: real,
    realFake: real,
    fakeRec: real,
    realRec: real)

  predicate Shaped(out: StepOutputs)
  {
    |out.onReal| > 0 && |out.onFake| > 0 && |out.onFakeG| > 0
  }

  /** The outputs of step i of epoch e. */
  type Oracle = (int, int) -> StepOutputs

  ghost predicate WellShaped(o: Oracle)
  {
    forall e: int, i: int :: Shaped(o(e, i))
  }

  /** `loss_cum`: empty until the first step fills in its seven lists. */
  datatype LossCum =
    | NoLosses
    | Lists(dReal: seq<real>, dFake: seq<real>, dCls: seq<real>, dGp: seq<real>,
            gFake: seq<real>, gRec: seq<real>, gCls: seq<real>)

  /** The dictionary's keys. */
  function Keys(cum: LossCum): (ks: set<string>)
    ensures cum.NoLosses? <==> ks == {}
    ensures cum.Lists? ==> |ks| == 7
  {
    if cum.NoLosses? then {}
    else
      var ks := {"D/real", "D/fake", "D/cls", "G/cls", "G/fake", "G/rec", "D/gp"};
      assert |ks| == 7 by {
        assert "D/real"[2] != "D/fake"[2] && "D/real"[2] != "D/cls"[2] && "D/fake"[2] != "D/cls"[2];
        assert "D/real"[2] != "D/gp"[2] && "D/fake"[2] != "D/gp"[2] && "D/cls"[2] != "D/gp"[2];
        assert "G/cls"[2] != "G/fake"[2] && "G/cls"[2] != "G/rec"[2] && "G/fake"[2] != "G/rec"[2];
      }
      ks
  }

  /** The four discriminator lists grow together, and so do the three
      generator lists. */
  predicate Consistent(cum: LossCum)
  {
    cum.Lists? ==>
      |cum.dFake| == |cum.dReal| && |cum.dCls| == |cum.dReal| && |cum.dGp| == |cum.dReal|
      && |cum.gRec| == |cum.gFake| && |cum.gCls| == |cum.gFake|
  }

  /** Entries per discriminator list. */
  function DCount(cum: LossCum): nat
  {
    if cum.NoLosses? then 0 else |cum.dReal|
  }

  /** Entries per generator list. */
  function GCount(cum: LossCum): nat
  {
    if cum.NoLosses? then 0 else |cum.gFake|
  }

  /** The trainer's state: the learning-rate cache, the learning rates the
      two optimizers hold, the loss log, the optimizer steps taken and the
      files written (sample images and checkpoints). */
  datatype TrainState = TrainState(
    gLr: real,
    dLr: real,
    optGLr: real,
    optDLr: real,
    cum: LossCum,
    dUpdates: nat,
    gUpdates: nat,
    samples: seq<string>,
    saved: seq<string>)

  datatype ErrorKind = EmptyLoader | BadPretrained | ZeroDivision

  /** An exception, with the state reached when it was raised. */
  datatype Failure = Failure(kind: ErrorKind, at: TrainState)

  /** The optimizers are built with the configured rates, and the cache
      starts from them. */
  function Initial(c: TrainConfig): TrainState
  {
    TrainState(c.gLr, c.dLr, c.gLr, c.dLr, NoLosses, 0, 0, [], [])
  }

  // ---------------------------------------------------------------------
  // update_lr and the decay
  // ---------------------------------------------------------------------

  /** `update_lr`: every parameter group of each optimizer gets the given
      rate; nothing else changes. */
  function UpdateLr(st: TrainState, g: real, d: real): (r: TrainState)
    ensures r.optGLr == g && r.optDLr == d
    ensures r.(optGLr := st.optGLr, optDLr := st.optDLr) == st
  {
    st.(optGLr := g, optDLr := d)
  }

  /** Both cached rates divided by ten and handed to the optimizers. */
  function Decay(st: TrainState): (r: TrainState)
    ensures r.gLr * 10.0 == st.gLr && r.dLr * 10.0 == st.dLr
    ensures r.optGLr == r.gLr && r.optDLr == r.dLr
    ensures r.(gLr := st.gLr, dLr := st.dLr, optGLr := st.optGLr, optDLr := st.optDLr) == st
  {
    var g := st.gLr / 10.0;
    var d := st.dLr / 10.0;
    UpdateLr(st.(gLr := g, dLr := d), g, d)
  }

  // ---------------------------------------------------------------------
  // one step
  // ---------------------------------------------------------------------

  /** The discriminator phase: its optimizer steps once, and a second time
      in the gradient-penalty phase of the default family; the four D losses
      are appended, the seven lists being created on the first step. */
  function DPhase(c: TrainConfig, st: TrainState, out: StepOutputs): (r: TrainState)
    requires Shaped(out)
  {
    var f := FamilyOf(c.options);
    var cum := if st.cum.NoLosses? then Lists([], [], [], [], [], [], []) else st.cum;
    st.(dUpdates := st.dUpdates + DSteps(f),
        cum := cum.(dReal := cum.dReal + [DLossReal(f, out.onReal)],
                    dFake := cum.dFake + [DLossFake(f, out.onFake)],
                    dCls := cum.dCls + [out.dCls * c.lambdaCls],
                    dGp := cum.dGp + [RecordedGp(f, out.gp, c.lambdaGp)]))
  }

  /** The generator phase: one optimizer step and the three G losses. */
  function GPhase(c: TrainConfig, st: TrainState, out: StepOutputs): (r: TrainState)
    requires Shaped(out) && st.cum.Lists?
  {
    var f := FamilyOf(c.options);
    st.(gUpdates := st.gUpdates + 1,
        cum := st.cum.(gFake := st.cum.gFake + [GLossFake(f, out.onFakeG)],
                       gRec := st.cum.gRec + [RecLoss(c.options, out.realFake, out.fakeRec, out.realRec) * c.lambdaRec],
                       gCls := st.cum.gCls + [out.gCls * c.lambdaCls]))
  }

  /** `'{}_{}_fake.jpg'.format(E, i + 1)`. */
  function SampleName(e: int, i: int): string
  {
    EpochField(e) + "_" + IntToString(i + 1) + "_fake.jpg"
  }

  /** The three step-cadence divisors are non-zero. */
  predicate StepDivisors(c: TrainConfig)
  {
    c.dTrainRepeat != 0 && c.logStep != 0 && c.sampleStep != 0
  }

  /** Whether step i of epoch e (of n) translates the fixed images:
      every `sample_step` steps, at the last step, and at the very first. */
  predicate Samples(c: TrainConfig, e: int, i: int, n: int)
    requires c.sampleStep != 0
  {
    Fires(i, c.sampleStep) || i + 1 == n || i + e == 0
  }

  /** Step i of epoch e over a loader of n batches. `(i+1) % d_train_repeat`
      is evaluated after the D phase, `(i+1) % log_step` and
      `(i+1) % sample_step` after the G phase. */
  function Step(c: TrainConfig, st: TrainState, e: int, i: int, n: int, out: StepOutputs): (r: Result<TrainState, Failure>)
    requires Shaped(out)
    requires Consistent(st.cum)
    ensures r.Ok? ==> Consistent(r.value.cum)
  {
    var afterD := DPhase(c, st, out);
    if c.dTrainRepeat == 0 then Err(Failure(ZeroDivision, afterD))
    else
      var afterG := if Fires(i, c.dTrainRepeat) then GPhase(c, afterD, out) else afterD;
      if c.logStep == 0 || c.sampleStep == 0 then Err(Failure(ZeroDivision, afterG))
      else if Samples(c, e, i, n) then Ok(afterG.(samples := afterG.samples + [SampleName(e, i)]))
      else Ok(afterG)
  }

  /** What a successful step i of epoch e leaves behind: D logs one entry,
      its real-image loss, and steps once or twice; G logs and steps only at
      the end of a group of `d_train_repeat`; the rates and checkpoints are
      untouched; every `sample_step`-th step, the last one and the first
      step of the first epoch append a sample image, and no other step
      does. */
  predicate StepTaken(c: TrainConfig, st: TrainState, s: TrainState, e: int, i: int, n: int, out: StepOutputs)
    requires Shaped(out)
  {
    StepDivisors(c)
    && s.cum.Lists? && Consistent(s.cum)
    && DCount(s.cum) == DCount(st.cum) + 1
    && GCount(s.cum) == GCount(st.cum) + (if Fires(i, c.dTrainRepeat) then 1 else 0)
    && DList(s.cum) == DList(st.cum) + [DLossReal(FamilyOf(c.options), out.onReal)]
    && s.dUpdates == st.dUpdates + DSteps(FamilyOf(c.options))
    && s.gUpdates == GCount(s.cum) - GCount(st.cum) + st.gUpdates
    && s.gLr == st.gLr && s.dLr == st.dLr && s.optGLr == st.optGLr && s.optDLr == st.optDLr
    && s.saved == st.saved
    && (Samples(c, e, i, n) ==> s.samples == st.samples + [SampleName(e, i)])
    && (!Samples(c, e, i, n) ==> s.samples == st.samples)
  }

  /** A step fails exactly when a cadence divisor is zero, with the
      checkpoints untouched; otherwise it is a StepTaken. */
  lemma StepEffect(c: TrainConfig, st: TrainState, e: int, i: int, n: int, out: StepOutputs)
    requires Shaped(out)
    requires Consistent(st.cum)
    ensures var r := Step(c, st, e, i, n, out);
      (r.Ok? <==> StepDivisors(c))
      && (r.Err? ==> r.error.kind == ZeroDivision && r.error.at.saved == st.saved)
      && (r.Ok? ==> StepTaken(c, st, r.value, e, i, n, out))
  {
  }

  // ---------------------------------------------------------------------
  // one epoch
  // ---------------------------------------------------------------------

  /** Steps 0 .. k - 1 of epoch e. */
  function RunSteps(c: TrainConfig, o: Oracle, st: TrainState, e: int, k: nat, n: int): (r: Result<TrainState, Failure>)
    requires WellShaped(o) && Consistent(st.cum)
    ensures r.Ok? ==> Consistent(r.value.cum)
    decreases k
  {
    if k == 0 then Ok(st)
    else
      match RunSteps(c, o, st, e, k - 1, n)
      case Err(f) => Err(f)
      case Ok(s) =>
        assert Shaped(o(e, k - 1));
        Step(c, s, e, k - 1, n, o(e, k - 1))
  }

  /** The D/real entries of steps 0 .. k - 1 of epoch e. */
  function DRealTrace(c: TrainConfig, o: Oracle, e: int, k: nat): (t: seq<real>)
    requires WellShaped(o)
    ensures |t| == k
  {
    if k == 0 then []
    else
      assert Shaped(o(e, k - 1));
      DRealTrace(c, o, e, k - 1) + [DLossReal(FamilyOf(c.options), o(e, k - 1).onReal)]
  }

  function DList(cum: LossCum): seq<real>
  {
    if cum.Lists? then cum.dReal else []
  }

  /** What a successful run of steps 0 .. k - 1 of epoch e leaves
      behind. */
  ghost predicate StepsDone(c: TrainConfig, o: Oracle, st: TrainState, s: TrainState, e: int, k: nat)
    requires WellShaped(o)
  {
    DCount(s.cum) == DCount(st.cum) + k
    && DList(s.cum) == DList(st.cum) + DRealTrace(c, o, e, k)
    && s.dUpdates == st.dUpdates + k * DSteps(FamilyOf(c.options))
    && s.gLr == st.gLr && s.dLr == st.dLr && s.optGLr == st.optGLr && s.optDLr == st.optDLr
    && s.saved == st.saved
    && (k == 0 ==> s == st)
    && (k > 0 ==>
          s.cum.Lists? && c.dTrainRepeat != 0
          && GCount(s.cum) == GCount(st.cum) + FiresIn(0, k, c.dTrainRepeat)
          && s.gUpdates == st.gUpdates + FiresIn(0, k, c.dTrainRepeat))
  }

  /** Adding step k - 1, which took the state from s to t, to a successful
      run of steps 0 .. k - 2. */
  lemma StepsDoneStep(c: TrainConfig, o: Oracle, st: TrainState, s: TrainState, t: TrainState, e: int, k: nat, n: int)
    requires WellShaped(o) && k >= 1
    requires StepsDone(c, o, st, s, e, k - 1)
    requires Shaped(o(e, k - 1)) && StepTaken(c, s, t, e, k - 1, n, o(e, k - 1))
    ensures StepsDone(c, o, st, t, e, k)
  {
    var x := DLossReal(FamilyOf(c.options), o(e, k - 1).onReal);
    assert DRealTrace(c, o, e, k) == DRealTrace(c, o, e, k - 1) + [x];
    assert DList(st.cum) + DRealTrace(c, o, e, k) == (DList(st.cum) + DRealTrace(c, o, e, k - 1)) + [x];
    assert (k - 1) * DSteps(FamilyOf(c.options)) + DSteps(FamilyOf(c.options)) == k * DSteps(FamilyOf(c.options));
  }

  /** k steps fail exactly when some divisor is zero and a step runs; when
      they succeed, the D lists grow by k, the G lists by the steps that
      close a group of `d_train_repeat`, D/real records the oracle's losses
      in order, the optimizers step accordingly and the learning rates and
      checkpoints are untouched. */
  lemma {:induction false} StepsEffect(c: TrainConfig, o: Oracle, st: TrainState, e: int, k: nat, n: int)
    requires WellShaped(o) && Consistent(st.cum)
    ensures var r := RunSteps(c, o, st, e, k, n);
      (r.Ok? <==> k == 0 || StepDivisors(c))
      && (r.Err? ==> r.error.kind == ZeroDivision && r.error.at.saved == st.saved)
      && (r.Ok? ==> StepsDone(c, o, st, r.value, e, k))
    decreases k
  {
    if k > 0 {
      StepsEffect(c, o, st, e, k - 1, n);
      assert Shaped(o(e, k - 1));
      var prev := RunSteps(c, o, st, e, k - 1, n);
      if prev.Ok? {
        var s := prev.value;
        var r := Step(c, s, e, k - 1, n, o(e, k - 1));
        StepEffect(c, s, e, k - 1, n, o(e, k - 1));
        assert RunSteps(c, o, st, e, k, n) == r;
        if r.Ok? {
          StepsDoneStep(c, o, st, s, r.value, e, k, n);
        }
      }
    }
  }

  /** Every step appends its sample image when it samples; the last step
      always does. */
  lemma StepsLastSample(c: TrainConfig, o: Oracle, st: TrainState, e: int, n: nat)
    requires WellShaped(o) && Consistent(st.cum) && n >= 1
    requires RunSteps(c, o, st, e, n, n).Ok?
    ensures var s := RunSteps(c, o, st, e, n, n).value;
      |s.samples| >= 1 && s.samples[|s.samples| - 1] == SampleName(e, n - 1)
  {
    assert Shaped(o(e, n - 1));
    var prev := RunSteps(c, o, st, e, n - 1, n);
    StepEffect(c, prev.value, e, n - 1, n, o(e, n - 1));
  }

  /** The end of epoch e: the two checkpoints named after the last step,
      then the decay test `(e+1) % num_epochs_decay == 0`. */
  function EndEpoch(c: TrainConfig, st: TrainState, e: int, n: int): (r: Result<TrainState, Failure>)
    ensures r.Ok? <==> c.numEpochsDecay != 0
    ensures r.Err? ==> r.error == Failure(ZeroDivision, st.(saved := st.saved + EpochFiles(e, n)))
    ensures r.Ok? ==> r.value.cum == st.cum
  {
    var s := st.(saved := st.saved + EpochFiles(e, n));
    if c.numEpochsDecay == 0 then Err(Failure(ZeroDivision, s))
    else if Fires(e, c.numEpochsDecay) then Ok(Decay(s))
    else Ok(s)
  }

  function RunEpoch(c: TrainConfig, o: Oracle, st: TrainState, e: int, n: nat): (r: Result<TrainState, Failure>)
    requires WellShaped(o) && Consistent(st.cum)
    ensures r.Ok? ==> Consistent(r.value.cum)
  {
    match RunSteps(c, o, st, e, n, n)
    case Err(f) => Err(f)
    case Ok(s) => EndEpoch(c, s, e, n)
  }

  /** Epochs start .. stop - 1. */
  function RunEpochs(c: TrainConfig, o: Oracle, st: TrainState, start: int, stop: int, n: nat): (r: Result<TrainState, Failure>)
    requires WellShaped(o) && Consistent(st.cum)
    ensures r.Ok? ==> Consistent(r.value.cum)
    decreases stop - start
  {
    if stop <= start then Ok(st)
    else
      match RunEpochs(c, o, st, start, stop - 1, n)
      case Err(f) => Err(f)
      case Ok(s) => RunEpoch(c, o, s, stop - 1, n)
  }

  /** One epoch over a non-empty loader: it fails exactly when a divisor is
      zero; it writes the epoch's pair of checkpoints (also when only the
      decay test fails); the cached and the optimizers' rates are divided by
      ten exactly at the epochs closing a group of `num_epochs_decay`. */
  lemma EpochEffect(c: TrainConfig, o: Oracle, st: TrainState, e: int, n: nat)
    requires WellShaped(o) && Consistent(st.cum) && n >= 1
    ensures var r := RunEpoch(c, o, st, e, n);
      (r.Ok? <==> StepDivisors(c) && c.numEpochsDecay != 0)
      && (r.Err? ==> r.error.kind == ZeroDivision
                     && (StepDivisors(c) ==> r.error.at.saved == st.saved + EpochFiles(e, n))
                     && (!StepDivisors(c) ==> r.error.at.saved == st.saved))
      && (r.Ok? ==> var s := r.value;
            s.saved == st.saved + EpochFiles(e, n)
            && s.cum.Lists? && DCount(s.cum) == DCount(st.cum) + n
            && GCount(s.cum) == GCount(st.cum) + FiresIn(0, n, c.dTrainRepeat)
            && s.gUpdates == st.gUpdates + FiresIn(0, n, c.dTrainRepeat)
            && s.dUpdates == st.dUpdates + n * DSteps(FamilyOf(c.options))
            && (Fires(e, c.numEpochsDecay) ==> s.gLr * 10.0 == st.gLr && s.dLr * 10.0 == st.dLr
                                               && s.optGLr == s.gLr && s.optDLr == s.dLr)
            && (!Fires(e, c.numEpochsDecay) ==> s.gLr == st.gLr && s.dLr == st.dLr
                                                && s.optGLr == st.optGLr && s.optDLr == st.optDLr))
  {
    StepsEffect(c, o, st, e, n, n);
  }

  // ---------------------------------------------------------------------
  // learning rates as a count of decays
  // ---------------------------------------------------------------------

  /** The cached rates are the configured ones over ten to the number of
      decays so far, and the optimizers hold the cached rates. */
  predicate Decayed(st: TrainState, g: real, d: real, decays: nat)
  {
    st.gLr == Tenths(g, decays) && st.dLr == Tenths(d, decays)
    && st.optGLr == st.gLr && st.optDLr == st.dLr
  }

  lemma DecayedStep(st: TrainState, s: TrainState, g: real, d: real, decays: nat)
    requires Decayed(st, g, d, decays)
    requires s.gLr * 10.0 == st.gLr && s.dLr * 10.0 == st.dLr && s.optGLr == s.gLr && s.optDLr == s.dLr
    ensures Decayed(s, g, d, decays + 1)
  {
  }

  /** What a successful run of epochs start .. stop - 1 leaves behind. */
  ghost predicate EpochsDone(c: TrainConfig, st: TrainState, s: TrainState, start: int, stop: int, n: nat, decays: nat)
  {
    s.saved == st.saved + RunFiles(start, stop, n)
    && (stop <= start ==> s == st)
    && (stop > start ==>
          s.cum.Lists?
          && c.numEpochsDecay != 0
          && DCount(s.cum) == DCount(st.cum) + (stop - start) * n
          && Decayed(s, c.gLr, c.dLr, decays + FiresIn(start, stop, c.numEpochsDecay)))
  }

  /** Adding epoch stop - 1, which took the state from s to t, to a
      successful run of start .. stop - 2. */
  lemma EpochsDoneStep(c: TrainConfig, st: TrainState, s: TrainState, t: TrainState, start: int, stop: int, n: nat,
                       decays: nat)
    requires n >= 1 && start < stop && c.numEpochsDecay != 0
    requires EpochsDone(c, st, s, start, stop - 1, n, decays)
    requires Decayed(st, c.gLr, c.dLr, decays)
    requires t.cum.Lists? && t.saved == s.saved + EpochFiles(stop - 1, n) && DCount(t.cum) == DCount(s.cum) + n
    requires Fires(stop - 1, c.numEpochsDecay) ==> t.gLr * 10.0 == s.gLr && t.dLr * 10.0 == s.dLr
                                                   && t.optGLr == t.gLr && t.optDLr == t.dLr
    requires !Fires(stop - 1, c.numEpochsDecay) ==> t.gLr == s.gLr && t.dLr == s.dLr
                                                    && t.optGLr == s.optGLr && t.optDLr == s.optDLr
    ensures EpochsDone(c, st, t, start, stop, n, decays)
  {
    var d := c.numEpochsDecay;
    var before := if stop - 1 <= start then 0 else FiresIn(start, stop - 1, d);
    assert Decayed(s, c.gLr, c.dLr, decays + before);
    SavedStep(st.saved, s.saved, t.saved, start, stop, n);
    CountStep(DCount(st.cum), DCount(s.cum), DCount(t.cum), start, stop, n);
    FiresStep(start, stop, d);
    if Fires(stop - 1, d) {
      DecayedStep(s, t, c.gLr, c.dLr, decays + before);
    }
  }

  lemma SavedStep(a: seq<string>, b: seq<string>, t: seq<string>, start: int, stop: int, n: nat)
    requires start < stop
    requires b == a + RunFiles(start, stop - 1, n) && t == b + EpochFiles(stop - 1, n)
    ensures t == a + RunFiles(start, stop, n)
  {
  }

  lemma CountStep(a: int, b: int, t: int, start: int, stop: int, n: nat)
    requires start < stop
    requires stop - 1 <= start ==> b == a
    requires stop - 1 > start ==> b == a + (stop - 1 - start) * n
    requires t == b + n
    ensures t == a + (stop - start) * n
  {
    if stop - 1 > start {
      MulSucc(stop - 1 - start, n);
    }
  }

  lemma FiresStep(start: int, stop: int, d: int)
    requires d != 0 && start < stop
    ensures FiresIn(start, stop, d)
            == (if stop - 1 <= start then 0 else FiresIn(start, stop - 1, d)) + (if Fires(stop - 1, d) then 1 else 0)
  {
  }

  lemma MulSucc(a: int, n: int)
    ensures a * n + n == (a + 1) * n
  {
  }

  /** Epochs start .. stop - 1 over a non-empty loader: they succeed exactly
      when there are none or every divisor is non-zero; they write the
      checkpoints of each epoch in order, decay once per epoch closing a
      group of `num_epochs_decay`, and log n D entries per epoch. */
  lemma {:induction false} EpochsEffect(c: TrainConfig, o: Oracle, st: TrainState, start: int, stop: int, n: nat,
                                       decays: nat)
    requires WellShaped(o) && Consistent(st.cum) && n >= 1
    requires Decayed(st, c.gLr, c.dLr, decays)
    ensures var r := RunEpochs(c, o, st, start, stop, n);
      (r.Ok? <==> stop <= start || (StepDivisors(c) && c.numEpochsDecay != 0))
      && (r.Err? ==> r.error.kind == ZeroDivision)
      && (r.Ok? ==> EpochsDone(c, st, r.value, start, stop, n, decays))
    decreases stop - start
  {
    if stop > start {
      EpochsEffect(c, o, st, start, stop - 1, n, decays);
      var prev := RunEpochs(c, o, st, start, stop - 1, n);
      if prev.Ok? {
        var s := prev.value;
        EpochEffect(c, o, s, stop - 1, n);
        var r := RunEpoch(c, o, s, stop - 1, n);
        assert RunEpochs(c, o, st, start, stop, n) == r;
        if r.Ok? {
          EpochsDoneStep(c, st, s, r.value, start, stop, n, decays);
        }
      }
    }
  }

  // ---------------------------------------------------------------------
  // the whole run
  // ---------------------------------------------------------------------

  /** `if self.config.pretrained_model:` — a name given and non-empty. */
  predicate Resumes(c: TrainConfig)
  {
    c.pretrained.Some? && c.pretrained.value != ""
  }

  /** The decays of the skipped epochs 0 .. k - 1, replayed before training
      resumes. */
  function Replay(c: TrainConfig, st: TrainState, k: int): (r: Result<TrainState, Failure>)
    decreases k
  {
    if k <= 0 then Ok(st)
    else
      match Replay(c, st, k - 1)
      case Err(f) => Err(f)
      case Ok(s) =>
        if c.numEpochsDecay == 0 then Err(Failure(ZeroDivision, s))
        else if Fires(k - 1, c.numEpochsDecay) then Ok(Decay(s))
        else Ok(s)
  }

  /** The replay fails exactly when an epoch is skipped under a zero decay
      period, and otherwise leaves the rates decayed once per skipped epoch
      closing a group, touching nothing else. */
  lemma {:induction false} ReplayEffect(c: TrainConfig, st: TrainState, k: int, decays: nat)
    requires Decayed(st, c.gLr, c.dLr, decays)
    ensures var r := Replay(c, st, k);
      (r.Ok? <==> k <= 0 || c.numEpochsDecay != 0)
      && (r.Err? ==> r.error.kind == ZeroDivision && r.error.at == st)
      && (r.Ok? ==> r.value.(gLr := st.gLr, dLr := st.dLr, optGLr := st.optGLr, optDLr := st.optDLr) == st
                    && Decayed(r.value, c.gLr, c.dLr, decays + (if k <= 0 then 0 else FiresIn(0, k, c.numEpochsDecay))))
    decreases k
  {
    if k > 0 {
      ReplayEffect(c, st, k - 1, decays);
      var prev := Replay(c, st, k - 1);
      if prev.Ok? && c.numEpochsDecay != 0 {
        var s := prev.value;
        var before := if k - 1 <= 0 then 0 else FiresIn(0, k - 1, c.numEpochsDecay);
        assert before == FiresIn(0, k - 1, c.numEpochsDecay);
        if Fires(k - 1, c.numEpochsDecay) {
          DecayedStep(s, Decay(s), c.gLr, c.dLr, decays + before);
        }
      }
    }
  }

  /** The first epoch: 0, or the number in front of the pretrained name. */
  function StartEpoch(c: TrainConfig): Option<int>
  {
    if Resumes(c) then StartOf(c.pretrained.value) else Some(0)
  }

  /** `train` over a loader of n batches. An empty loader fails when the
      fixed batch is concatenated; a pretrained name whose first piece is
      not an integer fails in `int`; the replay and the epochs follow. */
  function Train(c: TrainConfig, o: Oracle, n: nat): Result<TrainState, Failure>
    requires WellShaped(o)
  {
    var init := Initial(c);
    if n == 0 then Err(Failure(EmptyLoader, init))
    else
      match StartEpoch(c)
      case None => Err(Failure(BadPretrained, init))
      case Some(start) => FromStart(c, o, start, n)
  }

  /** The replay of epochs 0 .. start - 1, then epochs start .. num_epochs - 1. */
  function FromStart(c: TrainConfig, o: Oracle, start: int, n: nat): Result<TrainState, Failure>
    requires WellShaped(o)
  {
    match Replay(c, Initial(c), start)
    case Err(f) => Err(f)
    case Ok(s) =>
      ReplayEffect(c, Initial(c), start, 0);
      RunEpochs(c, o, s, start, c.numEpochs, n)
  }

  /** A run from epoch `start` over a non-empty loader. */
  lemma FromStartEffect(c: TrainConfig, o: Oracle, start: int, n: nat)
    requires WellShaped(o) && n >= 1
    ensures var r := FromStart(c, o, start, n);
      (r.Ok? <==> (start <= 0 || c.numEpochsDecay != 0)
                  && (c.numEpochs <= start || (StepDivisors(c) && c.numEpochsDecay != 0)))
      && (r.Err? ==> r.error.kind == ZeroDivision)
      && (r.Ok? ==> Replay(c, Initial(c), start).Ok?)
      && (r.Ok? ==> EpochsDone(c, Replay(c, Initial(c), start).value, r.value, start, c.numEpochs, n,
                               if start <= 0 then 0 else FiresIn(0, start, c.numEpochsDecay)))
      && (r.Ok? ==> Replay(c, Initial(c), start).value.cum.NoLosses?
                    && Replay(c, Initial(c), start).value.saved == []
                    && Decayed(Replay(c, Initial(c), start).value, c.gLr, c.dLr,
                               if start <= 0 then 0 else FiresIn(0, start, c.numEpochsDecay)))
  {
    var init := Initial(c);
    assert Decayed(init, c.gLr, c.dLr, 0);
    ReplayEffect(c, init, start, 0);
    var rep := Replay(c, init, start);
    if rep.Ok? {
      EpochsEffect(c, o, rep.value, start, c.numEpochs, n, if start <= 0 then 0 else FiresIn(0, start, c.numEpochsDecay));
    }
  }

  /** The errors of `train`, in the order they are raised. */
  lemma TrainErrors(c: TrainConfig, o: Oracle, n: nat)
    requires WellShaped(o)
    ensures Train(c, o, n).Err? && Train(c, o, n).error.kind == EmptyLoader <==> n == 0
    ensures Train(c, o, n).Err? && Train(c, o, n).error.kind == BadPretrained <==> n > 0 && StartEpoch(c).None?
    ensures Train(c, o, n).Ok? <==>
      n > 0 && StartEpoch(c).Some?
      && (StartEpoch(c).value <= 0 || c.numEpochsDecay != 0)
      && (c.numEpochs <= StartEpoch(c).value || (StepDivisors(c) && c.numEpochsDecay != 0))
  {
    if n > 0 && StartEpoch(c).Some? {
      FromStartEffect(c, o, StartEpoch(c).value, n);
    }
  }

  /** A successful run from epoch `start` writes the checkpoints of epochs
      start .. num_epochs - 1 and logs n D entries per epoch; its rates are
      the configured ones divided by ten once per replayed epoch and once
      per run epoch closing a group of `num_epochs_decay`, and the
      optimizers hold them. */
  lemma TrainResult(c: TrainConfig, o: Oracle, n: nat, start: int)
    requires WellShaped(o)
    requires Train(c, o, n).Ok? && StartEpoch(c) == Some(start)
    ensures n >= 1
    ensures var s := Train(c, o, n).value;
      s.saved == RunFiles(start, c.numEpochs, n)
      && (c.numEpochs > start ==> s.cum.Lists? && DCount(s.cum) == (c.numEpochs - start) * n)
      && (c.numEpochs <= start ==> s.cum.NoLosses?)
      && (c.numEpochsDecay == 0 ==> Decayed(s, c.gLr, c.dLr, 0))
      && (c.numEpochsDecay != 0 ==>
            Decayed(s, c.gLr, c.dLr, FiresIn(0, start, c.numEpochsDecay) + FiresIn(start, c.numEpochs, c.numEpochsDecay)))
  {
    hide *;
    TrainNonEmpty(c, o, n);
    TrainFromStart(c, o, n, start);
    FromStartEffect(c, o, start, n);
    RunFacts(c, Replay(c, Initial(c), start).value, Train(c, o, n).value, start, n);
  }

  /** What EpochsDone and the replay's end state say about a run's end
      state, in the terms of TrainResult. */
  lemma RunFacts(c: TrainConfig, rep: TrainState, s: TrainState, start: int, n: nat)
    requires start <= 0 || c.numEpochsDecay != 0
    requires rep.cum.NoLosses? && rep.saved == []
    requires Decayed(rep, c.gLr, c.dLr, if start <= 0 then 0 else FiresIn(0, start, c.numEpochsDecay))
    requires EpochsDone(c, rep, s, start, c.numEpochs, n, if start <= 0 then 0 else FiresIn(0, start, c.numEpochsDecay))
    ensures s.saved == RunFiles(start, c.numEpochs, n)
    ensures c.numEpochs > start ==> s.cum.Lists? && DCount(s.cum) == (c.numEpochs - start) * n
    ensures c.numEpochs <= start ==> s.cum.NoLosses?
    ensures c.numEpochsDecay == 0 ==> Decayed(s, c.gLr, c.dLr, 0)
    ensures c.numEpochsDecay != 0 ==>
              Decayed(s, c.gLr, c.dLr, FiresIn(0, start, c.numEpochsDecay) + FiresIn(start, c.numEpochs, c.numEpochsDecay))
  {
    var d := c.numEpochsDecay;
    if d != 0 {
      assert start <= 0 ==> FiresIn(0, start, d) == 0;
      assert c.numEpochs <= start ==> FiresIn(start, c.numEpochs, d) == 0;
    }
  }

  lemma TrainNonEmpty(c: TrainConfig, o: Oracle, n: nat)
    requires WellShaped(o) && Train(c, o, n).Ok?
    ensures n > 0
  {
  }

  lemma TrainFromStart(c: TrainConfig, o: Oracle, n: nat, start: int)
    requires WellShaped(o)
    requires n > 0 && StartEpoch(c) == Some(start)
    ensures Train(c, o, n) == FromStart(c, o, start, n)
  {
    hide FromStart;
  }

  /** Resuming from a name whose first piece reads `start`, for start between
      0 and num_epochs, ends with the learning rates of the uninterrupted
      run, and the checkpoints of the uninterrupted run are those of its
      first `start` epochs followed by those the resumed run writes. */
  lemma ResumeMatchesFresh(c: TrainConfig, o: Oracle, o': Oracle, n: nat, name: string, start: int)
    requires WellShaped(o) && WellShaped(o')
    requires c.pretrained.None? && Train(c, o, n).Ok?
    requires name != "" && StartOf(name) == Some(start) && 0 <= start <= c.numEpochs
    ensures var resumed := Train(c.(pretrained := Some(name)), o', n);
      resumed.Ok?
      && resumed.value.gLr == Train(c, o, n).value.gLr
      && resumed.value.dLr == Train(c, o, n).value.dLr
      && Train(c, o, n).value.saved == RunFiles(0, start, n) + resumed.value.saved
  {
    hide *;
    FreshResult(c, o, n);
    ResumedResult(c, o, o', n, name, start);
    SameRun(c.numEpochs, start, n, c.numEpochsDecay, c.gLr, c.dLr, Train(c, o, n).value,
            Train(c.(pretrained := Some(name)), o', n).value);
  }

  /** TrainResult for a run that starts from scratch. */
  lemma FreshResult(c: TrainConfig, o: Oracle, n: nat)
    requires WellShaped(o)
    requires c.pretrained.None? && Train(c, o, n).Ok?
    ensures var s := Train(c, o, n).value; var d := c.numEpochsDecay;
      s.saved == RunFiles(0, c.numEpochs, n)
      && (d == 0 ==> Decayed(s, c.gLr, c.dLr, 0))
      && (d != 0 ==> Decayed(s, c.gLr, c.dLr, FiresIn(0, 0, d) + FiresIn(0, c.numEpochs, d)))
  {
    hide *;
    FreshStart(c);
    TrainResult(c, o, n, 0);
  }

  lemma FreshStart(c: TrainConfig)
    requires c.pretrained.None?
    ensures StartEpoch(c) == Some(0)
  {
  }

  /** A run resumed from `name` succeeds when the uninterrupted one does,
      with the files and rates TrainResult gives it. */
  lemma ResumedResult(c: TrainConfig, o: Oracle, o': Oracle, n: nat, name: string, start: int)
    requires WellShaped(o) && WellShaped(o')
    requires c.pretrained.None? && Train(c, o, n).Ok?
    requires name != "" && StartOf(name) == Some(start) && 0 <= start <= c.numEpochs
    ensures var r := Train(c.(pretrained := Some(name)), o', n); var d := c.numEpochsDecay;
      r.Ok?
      && r.value.saved == RunFiles(start, c.numEpochs, n)
      && (d == 0 ==> Decayed(r.value, c.gLr, c.dLr, 0))
      && (d != 0 ==> Decayed(r.value, c.gLr, c.dLr, FiresIn(0, start, d) + FiresIn(start, c.numEpochs, d)))
  {
    hide *;
    ResumedOk(c, o, o', n, name, start);
    TrainResult(c.(pretrained := Some(name)), o', n, start);
  }

  lemma ResumedOk(c: TrainConfig, o: Oracle, o': Oracle, n: nat, name: string, start: int)
    requires WellShaped(o) && WellShaped(o')
    requires c.pretrained.None? && Train(c, o, n).Ok?
    requires name != "" && StartOf(name) == Some(start) && 0 <= start <= c.numEpochs
    ensures StartEpoch(c.(pretrained := Some(name))) == Some(start)
    ensures Train(c.(pretrained := Some(name)), o', n).Ok?
  {
    hide Train;
    var c' := c.(pretrained := Some(name));
    assert StartEpoch(c) == Some(0);
    TrainErrors(c, o, n);
    TrainErrors(c', o', n);
  }

  /** Two end states of runs over epochs 0 .. epochs - 1, one of them
      resumed at `start`, have the same rates, and the files of the first
      split at `start`. */
  lemma SameRun(epochs: int, start: int, n: nat, d: int, g: real, dl: real, whole: TrainState, resumed: TrainState)
    requires 0 <= start <= epochs
    requires whole.saved == RunFiles(0, epochs, n) && resumed.saved == RunFiles(start, epochs, n)
    requires d == 0 ==> Decayed(whole, g, dl, 0) && Decayed(resumed, g, dl, 0)
    requires d != 0 ==> Decayed(whole, g, dl, FiresIn(0, 0, d) + FiresIn(0, epochs, d))
                        && Decayed(resumed, g, dl, FiresIn(0, start, d) + FiresIn(start, epochs, d))
    ensures whole.gLr == resumed.gLr && whole.dLr == resumed.dLr
    ensures whole.saved == RunFiles(0, start, n) + resumed.saved
  {
    SameFiles(epochs, start, n, whole.saved, resumed.saved);
    if d != 0 {
      SameRates(epochs, start, d, g, dl, whole, resumed);
    } else {
      SameDecays(whole, resumed, g, dl, 0, 0);
    }
  }

  lemma SameFiles(epochs: int, start: int, n: nat, whole: seq<string>, resumed: seq<string>)
    requires 0 <= start <= epochs
    requires whole == RunFiles(0, epochs, n) && resumed == RunFiles(start, epochs, n)
    ensures whole == RunFiles(0, start, n) + resumed
  {
    RunFilesSplit(0, start, epochs, n);
  }

  lemma SameRates(epochs: int, start: int, d: int, g: real, dl: real, whole: TrainState, resumed: TrainState)
    requires 0 <= start <= epochs && d != 0
    requires Decayed(whole, g, dl, FiresIn(0, 0, d) + FiresIn(0, epochs, d))
    requires Decayed(resumed, g, dl, FiresIn(0, start, d) + FiresIn(start, epochs, d))
    ensures whole.gLr == resumed.gLr && whole.dLr == resumed.dLr
  {
    SameCount(epochs, start, d);
    SameDecays(whole, resumed, g, dl, FiresIn(0, 0, d) + FiresIn(0, epochs, d),
               FiresIn(0, start, d) + FiresIn(start, epochs, d));
  }

  lemma SameCount(epochs: int, start: int, d: int)
    requires d != 0 && 0 <= start <= epochs
    ensures FiresIn(0, 0, d) + FiresIn(0, epochs, d) == FiresIn(0, start, d) + FiresIn(start, epochs, d)
  {
    FiresInSplit(0, start, epochs, d);
    assert FiresIn(0, 0, d) == 0;
  }

  lemma SameDecays(s: TrainState, t: TrainState, g: real, d: real, k1: nat, k2: nat)
    requires Decayed(s, g, d, k1) && Decayed(t, g, d, k2) && k1 == k2
    ensures s.gLr == t.gLr && s.dLr == t.dLr
  {
  }

  /** After an uninterrupted run of 1 to 999 epochs, the newest checkpoint's
      stem names the epoch a resumed run starts from: the one after the
      last. */
  lemma ResumeFromLatest(c: TrainConfig, o: Oracle, n: nat)
    requires WellShaped(o)
    requires c.pretrained.None? && 1 <= c.numEpochs < 1000 && Train(c, o, n).Ok?
    ensures var latest := LatestStem(Train(c, o, n).value.saved);
      latest.Ok? && StartOf(latest.value) == Some(c.numEpochs)
  {
    assert StartEpoch(c) == Some(0);
    TrainResult(c, o, n, 0);
    LatestOfRun(c.numEpochs, n);
    ResumeStart(c.numEpochs - 1, n, "D");
  }
}

=== FILE: style_encoder.dfy ===
/**
 * `StyleEncoder`: a 7x7 stem, a run of stride-2 stages set by the image
 * size and the style width, one more stride-2 convolution, optional global
 * pooling, and either a fully-connected head or a 1x1 convolution. The
 * `Conv2dBlock` of the unseen block library is taken to be a reflect-padded
 * convolution followed by ReLU, with the geometry of a zero-padded one.
 */
module StyleEncoders {
  import opened Wrappers
  import opened Layers
  import opened Counting

  datatype StyleConfig = StyleConfig(
    imageSize: nat,
    gConvDim: nat,
    colorDim: nat,
    styleDim: nat,
    cDim: nat,
    options: set<string>)

  /** Construction fails where Python raises: `math.log(0, 2)`, and
      `np.power(2, e)` for a negative integer exponent. */
  datatype BuildError = LogDomain | NegativePower

  /** The output of `forward`, per sample: a flat style vector under FC, a
      c_dim-channel map otherwise. */
  datatype StyleOut = StyleVector(width: nat) | StyleMap(shape: Shape)

  datatype Head =
    | FcHead(fc: seq<Dense>, styleMu: Dense)
    | ConvHead(mapMu: Layer)

  datatype StyleNet = StyleNet(main: seq<Layer>, head: Head)

  function ConvDim(cfg: StyleConfig): nat
  {
    cfg.gConvDim / 2
  }

  /** `s_dim`: 1 for style width 8 or under DRITZ, else c_dim * style_dim. */
  function SDim(cfg: StyleConfig): nat
  {
    if cfg.styleDim == 8 || "DRITZ" in cfg.options then 1 else cfg.cDim * cfg.styleDim
  }

  /** `down`: [2, 1] for style width 4, [3, 3] otherwise. */
  function Down(styleDim: nat): (nat, nat)
  {
    if styleDim == 4 then (2, 1) else (3, 3)
  }

  function Pooled(styleDim: nat): bool
  {
    styleDim == 1 || styleDim == 8
  }

  /** `conv_repeat`, which is negative (no stages) for small images. */
  function ConvRepeat(cfg: StyleConfig): int
    requires cfg.imageSize >= 1
  {
    Log2Floor(cfg.imageSize) - Down(cfg.styleDim).0
  }

  /** `range(conv_repeat)` is empty for a negative count. */
  function Stages(r: int): nat
  {
    if r < 0 then 0 else r
  }

  /** One down-sampling `Conv2dBlock`. */
  function Stage(width: nat): seq<Layer>
  {
    [Conv(width, 2 * width, 4, 2, 1), Activation(ReLU)]
  }

  function DownStages(width: nat, k: nat): seq<Layer>
    decreases k
  {
    if k == 0 then [] else Stage(width) + DownStages(2 * width, k - 1)
  }

  /** `self.main`. */
  function MainLayers(cfg: StyleConfig, r: int): seq<Layer>
  {
    var w := ConvDim(cfg);
    var k := Stages(r);
    var top := w * Pow2(k);
    [Conv(cfg.colorDim, w, 7, 1, 3), Activation(ReLU)]
    + DownStages(w, k)
    + [Conv(top, 2 * top, 4, 2, 1)]
    + (if Pooled(cfg.styleDim) then [GlobalAvgPool] else [])
  }

  /** The channel width `curr_dim` after the extra convolution. */
  function TopWidth(cfg: StyleConfig, r: int): nat
  {
    2 * (ConvDim(cfg) * Pow2(Stages(r)))
  }

  /** The FC head's `k_size = int(image_size / 2^(conv_repeat + down[1]))`,
      or NegativePower when that exponent is negative. */
  function FcKernel(cfg: StyleConfig, r: int): Result<nat, BuildError>
  {
    var e := r + Down(cfg.styleDim).1;
    if e < 0 then Err(NegativePower)
    else Ok(((cfg.imageSize as real) / Pow2R(e)).Floor)
  }

  /** `StyleEncoder.__init__`. */
  function Build(cfg: StyleConfig): Result<StyleNet, BuildError>
  {
    if cfg.imageSize == 0 then Err(LogDomain)
    else
      var r := ConvRepeat(cfg);
      var top := TopWidth(cfg, r);
      var main := MainLayers(cfg, r);
      if "FC" in cfg.options then
        match FcKernel(cfg, r)
        case Err(e) => Err(e)
        case Ok(k) =>
          Ok(StyleNet(main, FcHead([Linear(top * k * k, 256), Dropout, Linear(256, 256), Dropout], Linear(256, SDim(cfg)))))
      else Ok(StyleNet(main, ConvHead(Conv(top, cfg.cDim, 1, 1, 0))))
  }

  /** `StyleEncoder.forward` per sample: the FC head sees the flattened
      feature map; the result is the one-element list `[style_mu]`. */
  function Encode(net: StyleNet, x: Shape): Option<seq<StyleOut>>
  {
    match Walk(net.main, x)
    case None => None
    case Some(f) =>
      match net.head
      case FcHead(fc, mu) =>
        (match DenseWalk(fc + [mu], f.ch * f.side * f.side)
         case None => None
         case Some(w) => Some([StyleVector(w)]))
      case ConvHead(mu) =>
        match Step(mu, f)
        case None => None
        case Some(s) => Some([StyleMap(s)])
  }

  // ---------------------------------------------------------------------
  // geometry
  // ---------------------------------------------------------------------

  lemma {:induction false} DownStagesWalk(width: nat, k: nat, m: nat)
    requires m >= 1
    ensures Walk(DownStages(width, k), Shape(width, m * Pow2(k))) == Some(Shape(width * Pow2(k), m))
    decreases k
  {
    if k > 0 {
      hide Pow2, Walk;
      var half := m * Pow2(k - 1);
      MulDouble(m, k);
      MulAtLeast(m, Pow2(k - 1));
      HalvingStage(width, ReLU, half);
      WalkAppend(Stage(width), DownStages(2 * width, k - 1), Shape(width, 2 * half));
      DownStagesWalk(2 * width, k - 1, m);
      DoubleFactor(width, k);
    }
  }

  /** The side of the map `main` leaves for an image of side 2^L with
      L >= down[0]: 2^(down[0] - 1) channels-wide maps, pooled to 1 for style
      widths 1 and 8. */
  function MainSide(styleDim: nat): nat
  {
    if Pooled(styleDim) then 1 else Pow2(Down(styleDim).0 - 1)
  }

  lemma StemWalk(colorDim: nat, w: nat, n: nat)
    requires n >= 1
    ensures Walk([Conv(colorDim, w, 7, 1, 3), Activation(ReLU)], Shape(colorDim, n)) == Some(Shape(w, n))
  {
    SameConv(n, 3);
    WalkTwo(Conv(colorDim, w, 7, 1, 3), Activation(ReLU), Shape(colorDim, n));
    WalkOne(Activation(ReLU), Shape(w, n));
  }

  lemma TailWalk(top: nat, m: nat, pooled: bool)
    requires m >= 1
    ensures Walk([Conv(top, 2 * top, 4, 2, 1)] + (if pooled then [GlobalAvgPool] else []), Shape(top, 2 * m))
         == Some(Shape(2 * top, if pooled then 1 else m))
  {
    HalvingConv(2 * m);
    WalkOne(Conv(top, 2 * top, 4, 2, 1), Shape(top, 2 * m));
    if pooled {
      WalkTwo(Conv(top, 2 * top, 4, 2, 1), GlobalAvgPool, Shape(top, 2 * m));
      WalkOne(GlobalAvgPool, Shape(2 * top, m));
    } else {
      assert [Conv(top, 2 * top, 4, 2, 1)] + [] == [Conv(top, 2 * top, 4, 2, 1)];
    }
  }

  /** For a side-2^L image with L >= down[0], `main` yields TopWidth
      channels on a MainSide map. */
  lemma MainWalk(cfg: StyleConfig, L: nat)
    requires cfg.imageSize == Pow2(L) && L >= Down(cfg.styleDim).0
    ensures ConvRepeat(cfg) == L - Down(cfg.styleDim).0
    ensures Walk(MainLayers(cfg, ConvRepeat(cfg)), Shape(cfg.colorDim, cfg.imageSize))
         == Some(Shape(TopWidth(cfg, ConvRepeat(cfg)), MainSide(cfg.styleDim)))
  {
    hide Walk, DownStages;
    var d0 := Down(cfg.styleDim).0;
    Log2FloorPow2(1, L);
    assert Log2Floor(1) == 0;
    var r := ConvRepeat(cfg);
    var k := Stages(r);
    assert k == L - d0;
    var w := ConvDim(cfg);
    var top := w * Pow2(k);
    var low := Pow2(d0 - 1);
    MulPow2(low, 1, k);
    Pow2Add(d0 - 1, 1);
    Pow2Add(k, d0);
    assert cfg.imageSize == (2 * low) * Pow2(k) by {
      assert Pow2(L) == Pow2(k) * Pow2(d0);
      assert Pow2(d0) == 2 * low;
    }
    var stem := [Conv(cfg.colorDim, w, 7, 1, 3), Activation(ReLU)];
    var tail := [Conv(top, 2 * top, 4, 2, 1)] + (if Pooled(cfg.styleDim) then [GlobalAvgPool] else []);
    assert MainLayers(cfg, r) == stem + (DownStages(w, k) + tail);
    StemWalk(cfg.colorDim, w, cfg.imageSize);
    WalkAppend(stem, DownStages(w, k) + tail, Shape(cfg.colorDim, cfg.imageSize));
    WalkAppend(DownStages(w, k), tail, Shape(w, cfg.imageSize));
    DownStagesWalk(w, k, 2 * low);
    TailWalk(top, low, Pooled(cfg.styleDim));
  }

  /** The FC kernel for a side-2^L image: 2 for style width 4, 1 otherwise. */
  lemma FcKernelOfPow2(cfg: StyleConfig, L: nat)
    requires cfg.imageSize == Pow2(L) && L >= Down(cfg.styleDim).0
    ensures FcKernel(cfg, L - Down(cfg.styleDim).0) == Ok(if cfg.styleDim == 4 then 2 else 1)
  {
    var (d0, d1) := Down(cfg.styleDim);
    var e := L - d0 + d1;
    RealFloorIsDiv(cfg.imageSize, Pow2(e));
    if cfg.styleDim == 4 {
      Pow2Add(e, 1);
      DivUnique(cfg.imageSize, Pow2(e), 2, 0);
    } else {
      DivUnique(cfg.imageSize, Pow2(e), 1, 0);
    }
  }

  /** Under FC, the first Linear layer's input width is the flattened
      feature map exactly when the style width is 1, 4 or 8 (for a side-2^L
      image with at least one stride-2 stage); for any other width `forward`
      fails on a shape mismatch. */
  lemma FcInputMatchesIff(cfg: StyleConfig, L: nat)
    requires cfg.imageSize == Pow2(L) && L >= Down(cfg.styleDim).0
    requires "FC" in cfg.options && ConvDim(cfg) >= 1
    ensures Build(cfg).Ok?
    ensures Encode(Build(cfg).value, Shape(cfg.colorDim, cfg.imageSize)).Some?
        <==> cfg.styleDim in {1, 4, 8}
    ensures cfg.styleDim in {1, 4, 8} ==>
        Encode(Build(cfg).value, Shape(cfg.colorDim, cfg.imageSize)) == Some([StyleVector(SDim(cfg))])
  {
    hide Walk, Build, Encode, DenseWalk, MainLayers, Pow2;
    var r := L - Down(cfg.styleDim).0;
    var top := TopWidth(cfg, r);
    var side := MainSide(cfg.styleDim);
    var k := if cfg.styleDim == 4 then 2 else 1;
    var fc := [Linear(top * k * k, 256), Dropout, Linear(256, 256), Dropout];
    FcBuild(cfg, L);
    EncodeFc(MainLayers(cfg, r), fc, Linear(256, SDim(cfg)), Shape(cfg.colorDim, cfg.imageSize), Shape(top, side));
    MulAtLeast(ConvDim(cfg), Pow2(Stages(r)));
    SideOfStyle(cfg.styleDim);
    FcWidths(top, side, k, SDim(cfg));
  }

  /** The FC network `Build` makes for a side-2^L image, and the map its
      `main` hands to the head. */
  lemma FcBuild(cfg: StyleConfig, L: nat)
    requires cfg.imageSize == Pow2(L) && L >= Down(cfg.styleDim).0
    requires "FC" in cfg.options
    ensures var r := L - Down(cfg.styleDim).0;
      var k := if cfg.styleDim == 4 then 2 else 1;
      var top := TopWidth(cfg, r);
      && Build(cfg) == Ok(StyleNet(MainLayers(cfg, r),
           FcHead([Linear(top * k * k, 256), Dropout, Linear(256, 256), Dropout], Linear(256, SDim(cfg)))))
      && Walk(MainLayers(cfg, r), Shape(cfg.colorDim, cfg.imageSize)) == Some(Shape(top, MainSide(cfg.styleDim)))
  {
    hide Walk, MainLayers, FcKernel;
    MainWalk(cfg, L);
    FcKernelOfPow2(cfg, L);
  }

  lemma EncodeFc(main: seq<Layer>, fc: seq<Dense>, mu: Dense, x: Shape, f: Shape)
    requires Walk(main, x) == Some(f)
    ensures Encode(StyleNet(main, FcHead(fc, mu)), x)
         == match DenseWalk(fc + [mu], f.ch * f.side * f.side)
            case None => None
            case Some(w) => Some([StyleVector(w)])
  {
    hide Walk, DenseWalk;
  }

  /** The side `main` leaves equals the FC kernel exactly for style widths
      1, 4 and 8. */
  lemma SideOfStyle(styleDim: nat)
    ensures MainSide(styleDim) >= 1
    ensures MainSide(styleDim) == (if styleDim == 4 then 2 else 1) <==> styleDim in {1, 4, 8}
  {
    if styleDim == 4 {
      assert Pow2(1) == 2;
    } else if !Pooled(styleDim) {
      assert Pow2(2) == 4;
    }
  }

  /** The four FC layers and `style_mu` accept a flattened map exactly when
      its side is the kernel the head was built for. */
  lemma FcWidths(top: nat, side: nat, k: nat, s: nat)
    requires top >= 1 && side >= 1 && k >= 1
    ensures DenseWalk([Linear(top * k * k, 256), Dropout, Linear(256, 256), Dropout] + [Linear(256, s)], top * side * side)
         == if side == k then Some(s) else None
  {
    var fc := [Linear(top * k * k, 256), Dropout, Linear(256, 256), Dropout, Linear(256, s)];
    assert [Linear(top * k * k, 256), Dropout, Linear(256, 256), Dropout] + [Linear(256, s)] == fc;
    assert DenseWalk(fc[4..], 256) == Some(s);
    assert DenseWalk(fc[3..], 256) == Some(s);
    assert DenseWalk(fc[2..], 256) == Some(s);
    assert DenseWalk(fc[1..], 256) == Some(s);
    if side != k {
      SquareDiffers(top, side, k);
    }
  }

  lemma SquareDiffers(top: nat, a: nat, b: nat)
    requires top >= 1 && a != b
    ensures top * a * a != top * b * b
  {
    if a < b {
      SquareBelow(top, a, b);
    } else {
      SquareBelow(top, b, a);
    }
  }

  lemma SquareBelow(top: nat, a: nat, b: nat)
    requires top >= 1 && a < b
    ensures top * a * a < top * b * b
  {
    assert a * a <= a * b < b * b;
    assert top * (a * a) < top * (b * b);
  }

  /** Without FC, `forward` returns one c_dim-channel map of the side `main`
      leaves. */
  lemma ConvHeadOutput(cfg: StyleConfig, L: nat)
    requires cfg.imageSize == Pow2(L) && L >= Down(cfg.styleDim).0
    requires "FC" !in cfg.options
    ensures Build(cfg).Ok?
    ensures Encode(Build(cfg).value, Shape(cfg.colorDim, cfg.imageSize))
         == Some([StyleMap(Shape(cfg.cDim, MainSide(cfg.styleDim)))])
  {
    MainWalk(cfg, L);
    SameConv(MainSide(cfg.styleDim), 0);
  }

  /** The encoder's top width is g_conv_dim / 2 doubled once per stage and
      once more. */
  lemma TopWidthOfStages(cfg: StyleConfig, r: int)
    ensures r >= 0 ==> TopWidth(cfg, r) == ConvDim(cfg) * Pow2(r + 1)
    ensures r < 0 ==> TopWidth(cfg, r) == 2 * ConvDim(cfg)
  {
    if r >= 0 {
      MulDouble(ConvDim(cfg), r + 1);
    }
  }

  /** Construction fails exactly for an empty image, or under FC when the
      FC exponent is negative. */
  lemma BuildErrors(cfg: StyleConfig)
    ensures cfg.imageSize == 0 <==> Build(cfg) == Err(LogDomain)
    ensures Build(cfg) == Err(NegativePower) <==>
      (cfg.imageSize >= 1 && "FC" in cfg.options && ConvRepeat(cfg) + Down(cfg.styleDim).1 < 0)
  {
  }
}

=== FILE: text.dfy ===
/**
 * The few Python string operations the trainer relies on: `str.split` and
 * `str.join` on a one-character separator, `str(int)`, `int(str)`,
 * `str.zfill`, and the code-point order `sorted` uses on strings.
 */
module Text {
  import opened Wrappers

  // ---------------------------------------------------------------------
  // split / join
  // ---------------------------------------------------------------------

  /** Python's `s.split(sep)` for a one-character separator: never empty,
      and no piece contains the separator. */
  function Split(s: string, sep: char): (parts: seq<string>)
    ensures |parts| >= 1
    ensures forall k :: 0 <= k < |parts| ==> sep !in parts[k]
  {
    if |s| == 0 then [""]
    else
      var rest := Split(s[1..], sep);
      if s[0] == sep then [""] + rest
      else [[s[0]] + rest[0]] + rest[1..]
  }

  /** Python's `sep.join(parts)`. */
  function Join(parts: seq<string>, sep: char): string
  {
    if |parts| == 0 then ""
    else if |parts| == 1 then parts[0]
    else parts[0] + [sep] + Join(parts[1..], sep)
  }

  /** Joining the pieces of a split gives back the original string. */
  lemma {:induction false} JoinSplit(s: string, sep: char)
    ensures Join(Split(s, sep), sep) == s
    decreases |s|
  {
    if |s| > 0 {
      JoinSplit(s[1..], sep);
      var rest := Split(s[1..], sep);
      var parts := Split(s, sep);
      assert s == [s[0]] + s[1..];
      if s[0] == sep {
        assert parts == [""] + rest;
        assert parts[1..] == rest;
      } else {
        assert parts == [[s[0]] + rest[0]] + rest[1..];
        if |rest| > 1 {
          assert parts[1..] == rest[1..];
        }
      }
    }
  }

  /** Splitting a string without the separator gives that one piece. */
  lemma {:induction false} SplitNoSep(a: string, sep: char)
    requires sep !in a
    ensures Split(a, sep) == [a]
    decreases |a|
  {
    if |a| > 0 {
      SplitNoSep(a[1..], sep);
      assert a == [a[0]] + a[1..];
    }
  }

  /** A separator-free head splits off as the first piece. */
  lemma {:induction false} SplitHead(a: string, b: string, sep: char)
    requires sep !in a
    ensures Split(a + [sep] + b, sep) == [a] + Split(b, sep)
    decreases |a|
  {
    var s := a + [sep] + b;
    if |a| == 0 {
      assert s[1..] == b;
    } else {
      assert s[1..] == a[1..] + [sep] + b;
      SplitHead(a[1..], b, sep);
      assert a == [a[0]] + a[1..];
    }
  }

  /** Splitting a join of separator-free pieces gives the pieces back. */
  lemma {:induction false} SplitJoin(parts: seq<string>, sep: char)
    requires |parts| >= 1
    requires forall k :: 0 <= k < |parts| ==> sep !in parts[k]
    ensures Split(Join(parts, sep), sep) == parts
    decreases |parts|
  {
    if |parts| == 1 {
      SplitNoSep(parts[0], sep);
    } else {
      SplitJoin(parts[1..], sep);
      SplitHead(parts[0], Join(parts[1..], sep), sep);
      assert parts == [parts[0]] + parts[1..];
    }
  }

  // ---------------------------------------------------------------------
  // decimal numerals
  // ---------------------------------------------------------------------

  predicate IsDigit(c: char) { '0' <= c <= '9' }

  predicate AllDigits(s: string) { forall k :: 0 <= k < |s| ==> IsDigit(s[k]) }

  function DigitChar(d: nat): (c: char)
    requires d < 10
    ensures IsDigit(c)
  {
    ('0' as int + d) as char
  }

  function DigitValue(c: char): nat
    requires IsDigit(c)
  {
    c as int - '0' as int
  }

  /** The value of a digit string; leading zeros are allowed. */
  function DigitsValue(s: string): nat
    requires AllDigits(s)
    decreases |s|
  {
    if |s| == 0 then 0 else 10 * DigitsValue(s[..|s| - 1]) + DigitValue(s[|s| - 1])
  }

  /** Python's `str(n)` for a non-negative integer: digits, no leading zero. */
  function NatToString(n: nat): (s: string)
    ensures |s| >= 1 && AllDigits(s)
    ensures |s| > 1 ==> s[0] != '0'
    decreases n
  {
    if n < 10 then [DigitChar(n)] else NatToString(n / 10) + [DigitChar(n % 10)]
  }

  /** Python's `str(i)`. */
  function IntToString(i: int): string
  {
    if i < 0 then "-" + NatToString(-i) else NatToString(i)
  }

  /** Digits and minus signs only. */
  predicate NumeralChars(s: string)
  {
    forall k :: 0 <= k < |s| ==> IsDigit(s[k]) || s[k] == '-'
  }

  lemma NumeralOfInt(i: int)
    ensures NumeralChars(IntToString(i))
  {
    if i < 0 {
      var d := NatToString(-i);
      assert forall k :: 1 <= k < |"-" + d| ==> ("-" + d)[k] == d[k - 1];
    }
  }

  lemma NumeralOfZfill(s: string, width: nat)
    requires NumeralChars(s)
    ensures NumeralChars(Zfill(s, width))
  {
    var r := Zfill(s, width);
    if |s| < width {
      var pad := width - |s|;
      if |s| > 0 && (s[0] == '-' || s[0] == '+') {
        assert r == [s[0]] + Zeros(pad) + s[1..];
        assert forall k :: 1 + pad <= k < |r| ==> r[k] == s[k - pad];
      } else {
        assert r == Zeros(pad) + s;
        assert forall k :: pad <= k < |r| ==> r[k] == s[k - pad];
      }
    }
  }

  /** `int(str(i)) == i`. */
  lemma ParseIntToString(i: int)
    ensures ParseInt(IntToString(i)) == Some(i)
  {
    ParseZfill(i, 0);
  }

  /** Python's `int(s)` for an optional sign followed by digits; any other
      text raises ValueError, modelled as None. */
  function ParseInt(s: string): Option<int>
  {
    if |s| > 0 && (s[0] == '-' || s[0] == '+') then
      var body := s[1..];
      if |body| > 0 && AllDigits(body) then
        var v: int := DigitsValue(body);
        Some(if s[0] == '-' then -v else v)
      else None
    else if |s| > 0 && AllDigits(s) then Some(DigitsValue(s))
    else None
  }

  function Zeros(k: nat): (z: string)
    ensures |z| == k && forall j :: 0 <= j < k ==> z[j] == '0'
  {
    seq(k, _ => '0')
  }

  /** Python's `s.zfill(width)`: left-pads with '0' to `width`, keeping a
      leading sign in front of the padding. */
  function Zfill(s: string, width: nat): (r: string)
    ensures |r| == if |s| >= width then |s| else width
  {
    if |s| >= width then s
    else if |s| > 0 && (s[0] == '-' || s[0] == '+') then [s[0]] + Zeros(width - |s|) + s[1..]
    else Zeros(width - |s|) + s
  }

  lemma {:induction false} DigitsValueOfNatToString(n: nat)
    ensures DigitsValue(NatToString(n)) == n
    decreases n
  {
    if n >= 10 {
      var s := NatToString(n);
      DigitsValueOfNatToString(n / 10);
      assert s[..|s| - 1] == NatToString(n / 10);
    }
  }

  lemma {:induction false} ZerosValue(z: string)
    requires forall k :: 0 <= k < |z| ==> z[k] == '0'
    ensures AllDigits(z) && DigitsValue(z) == 0
    decreases |z|
  {
    if |z| > 0 {
      ZerosValue(z[..|z| - 1]);
    }
  }

  /** Leading zeros do not change the value of a digit string. */
  lemma {:induction false} LeadingZeros(z: string, s: string)
    requires forall k :: 0 <= k < |z| ==> z[k] == '0'
    requires AllDigits(s)
    ensures AllDigits(z + s) && DigitsValue(z + s) == DigitsValue(s)
    decreases |s|
  {
    ZerosValue(z);
    if |s| == 0 {
      assert z + s == z;
    } else {
      LeadingZeros(z, s[..|s| - 1]);
      assert (z + s)[..|z + s| - 1] == z + s[..|s| - 1];
    }
  }

  /** `int(str(i)) == i`, also after `zfill`: the zero padding and the sign
      placement of `zfill` are both undone by `int`. */
  lemma ParseZfill(i: int, width: nat)
    ensures ParseInt(Zfill(IntToString(i), width)) == Some(i)
  {
    if i < 0 {
      ParseZfillNegative(-i, width);
    } else {
      ParseZfillNatural(i, width);
    }
  }

  lemma ParseZfillNatural(n: nat, width: nat)
    ensures ParseInt(Zfill(NatToString(n), width)) == Some(n)
  {
    var digits := NatToString(n);
    DigitsValueOfNatToString(n);
    assert IsDigit(digits[0]);
    if |digits| < width {
      LeadingZeros(Zeros(width - |digits|), digits);
    }
  }

  lemma ParseZfillNegative(n: nat, width: nat)
    requires n > 0
    ensures ParseInt(Zfill("-" + NatToString(n), width)) == Some(-(n as int))
  {
    hide NatToString, DigitsValue, ParseInt;
    var digits := NatToString(n);
    DigitsValueOfNatToString(n);
    var s := "-" + digits;
    var r := Zfill(s, width);
    if |s| >= width {
      assert r[1..] == digits;
      ParseSigned(r, digits);
    } else {
      var z := Zeros(width - |s|);
      assert r[1..] == z + digits;
      LeadingZeros(z, digits);
      ParseSigned(r, z + digits);
    }
  }

  /** A minus sign followed by digits parses to the negated value. */
  lemma ParseSigned(r: string, body: string)
    requires |r| > 0 && r[0] == '-' && r[1..] == body && |body| > 0 && AllDigits(body)
    ensures ParseInt(r) == Some(-(DigitsValue(body) as int))
  {
  }

  /** For 0 <= n < 1000, `str(n).zfill(3)` is the three-digit numeral of n. */
  lemma ZfillThree(n: nat)
    requires n < 1000
    ensures Zfill(NatToString(n), 3) == [DigitChar(n / 100), DigitChar(n / 10 % 10), DigitChar(n % 10)]
  {
    if n < 10 {
      assert NatToString(n) == [DigitChar(n)];
      assert n / 100 == 0 && n / 10 % 10 == 0 && n % 10 == n;
    } else if n < 100 {
      TwoDigits(n);
      assert n / 100 == 0;
    } else {
      ThreeDigits(n);
    }
  }

  lemma TwoDigits(n: nat)
    requires 10 <= n < 100
    ensures NatToString(n) == [DigitChar(n / 10 % 10), DigitChar(n % 10)]
  {
    assert n / 10 < 10 && n / 10 % 10 == n / 10;
    assert NatToString(n / 10) == [DigitChar(n / 10)];
  }

  lemma ThreeDigits(n: nat)
    requires 100 <= n < 1000
    ensures NatToString(n) == [DigitChar(n / 100), DigitChar(n / 10 % 10), DigitChar(n % 10)]
  {
    var m := n / 10;
    assert 10 <= m < 100 && m / 10 == n / 100;
    TwoDigits(m);
    assert m / 10 % 10 == m / 10;
  }

  lemma DigitCharMonotone(a: nat, b: nat)
    requires a < b < 10
    ensures DigitChar(a) < DigitChar(b)
  {
  }

  // ---------------------------------------------------------------------
  // string order
  // ---------------------------------------------------------------------

  /** Python's `a < b` on strings: lexicographic by code point, a proper
      prefix sorting first. */
  predicate LexLess(a: string, b: string)
    decreases |a|
  {
    |b| > 0 && (|a| == 0 || a[0] < b[0] || (a[0] == b[0] && LexLess(a[1..], b[1..])))
  }

  predicate LexLe(a: string, b: string) { a == b || LexLess(a, b) }

  lemma {:induction false} LexIrreflexive(a: string)
    ensures !LexLess(a, a)
    decreases |a|
  {
    if |a| > 0 {
      LexIrreflexive(a[1..]);
    }
  }

  lemma {:induction false} LexTotal(a: string, b: string)
    ensures LexLess(a, b) || a == b || LexLess(b, a)
    decreases |a|
  {
    if |a| > 0 && |b| > 0 && a[0] == b[0] {
      LexTotal(a[1..], b[1..]);
      if a[1..] == b[1..] {
        assert a == [a[0]] + a[1..] && b == [b[0]] + b[1..];
      }
    }
  }

  lemma {:induction false} LexTransitive(a: string, b: string, c: string)
    requires LexLess(a, b) && LexLess(b, c)
    ensures LexLess(a, c)
    decreases |a|
  {
    if |a| > 0 && a[0] == b[0] && b[0] == c[0] {
      LexTransitive(a[1..], b[1..], c[1..]);
    }
  }

  /** Strings of equal length keep their order when a common suffix is added. */
  lemma {:induction false} LexLessSuffix(a: string, b: string, x: string)
    requires |a| == |b| && LexLess(a, b)
    ensures LexLess(a + x, b + x)
    decreases |a|
  {
    assert (a + x)[0] == a[0] && (b + x)[0] == b[0];
    if a[0] == b[0] {
      LexLessSuffix(a[1..], b[1..], x);
      assert (a + x)[1..] == a[1..] + x;
      assert (b + x)[1..] == b[1..] + x;
    }
  }

  /** `sorted(names)[-1]`: an element of the list that no other element exceeds. */
  function LexMax(names: seq<string>): (m: string)
    requires |names| > 0
    ensures m in names
    ensures forall k :: 0 <= k < |names| ==> LexLe(names[k], m)
  {
    if |names| == 1 then names[0]
    else
      var rest := LexMax(names[1..]);
      LexTotal(rest, names[0]);
      if LexLess(rest, names[0]) then
        assert forall k :: 1 <= k < |names| ==> LexLe(names[k], names[0]) by {
          forall k | 1 <= k < |names|
            ensures LexLe(names[k], names[0])
          {
            assert names[k] == names[1..][k - 1];
            if names[k] != rest {
              LexTransitive(names[k], rest, names[0]);
            }
          }
        }
        names[0]
      else
        assert forall k :: 1 <= k < |names| ==> names[k] == names[1..][k - 1];
        rest
  }
}

=== FILE: wrappers.dfy ===
/** Failure-carrying datatypes shared by every module of the model. */
module Wrappers {

  /** A value that may be absent (Python's `None`). */
  datatype Option<+T> = None | Some(value: T) {
    function GetOr(default: T): T {
      match this
      case Some(v) => v
      case None => default
    }
  }

  /** The outcome of an operation that can raise: a value, or the exception it raised. */
  datatype Result<+T, +E> = Ok(value: T) | Err(error: E)
}
